=== FILE: README.md ===
# Pixel kernel glue: behavioural models in Dafny

This project models the sequential logic of six pieces of Pixel kernel code.

- **SMRA fault recorder.** A registry of traced processes. Each process owns a fault-record buffer with a fixed capacity. The read-fault vendor hook appends records until the buffer is full and drops later faults. A post-processor turns a snapshot of every buffer into path/offset/time metadata, and rolls everything back on the first error. The module also has setup, start, stop and reset. (Modules `Smra`, `SmraProps`.)
- **LWIS fences.** One-shot status cells. Transactions wait on them per client. Trigger conditions combine fences and events with AND, OR or NONE. Completion fences are moved onto a pending list and then signalled. (Module `LwisFence`.)
- **HDCP 2.2 over DisplayPort** (Samsung driver):
  - the RxInfo decoding and the receiver-ID-list checks of repeater authentication;
  - the RxCaps check;
  - the two authentication stages and the three-attempt retry loop;
  - the interrupt classifier;
  - the ordered AKE (authentication and key exchange) steps with their bounded RxStatus polls.
  (Modules `HdcpLink`, `HdcpRepeater`, `HdcpAuth`, `HdcpAke`.)
- **MAX77779 voltage-droop interrupts.** The fixed-priority classifier of the VDROOP_INT register, the clear masks, the VIMON conversion request, and the two threshold-programming helpers. (Module `Vdroop`.)
- **mm-hint knobs.** The enable/mode/threshold parameters, their setters, the mode other mm code reads, and the file-cache threshold test. (Module `MmHint`.)
- **HL7132 charger helpers.** The input-current register conversion, the readable-register range, the writeable power-supply properties, device-tree defaulting and the two debugfs setters. (Module `Hl7132`.)

Every effect outside the logic enters as an input:
- register, DPCD and TEE (trusted execution environment) call results;
- allocator answers;
- `d_path` results;
- times;
- the kernel's string parsers.

File references, which the kernel counts with `get_file`/`fput`, are a multiset of files in the SMRA state. The HDCP RxStatus bit positions follow the kernel's drm_hdcp.h mapping for DisplayPort: READY is bit 0, H' available is bit 1, PAIRING available is bit 2, REAUTH_REQ is bit 3 and LINK_INTEGRITY_FAILURE is bit 4. Errno values are Linux's.

`Common` holds `Option`, `Result`, the errno constants, `u8`, `Pow2`, and the 32- and 64-bit truncations shared by the modules.

## Model

| member | source | states |
|---|---|---|
| Smra.FilesOf | drivers/soc/google/smra/smra_core.h:11-22 | The files referenced by a run of records, one per record and in record order. |
| Smra.BufferSetup | drivers/soc/google/smra/smra_core.c:28-49 | A buffer exists exactly when the allocations succeed and the size is not negative. A new buffer has cursor 0 and the requested capacity. |
| Smra.BufferCopy | drivers/soc/google/smra/smra_core.c:63-70 | As written: the copy overruns the destination iff the source's capacity exceeds the destination's. Otherwise the snapshot has the source's cursor, capacity and every record below the cursor. |
| Smra.NewMetadata | drivers/soc/google/smra/smra_core.c:76-100 | Metadata exists iff the file resolves to a path shorter than MAX_PATH_LEN. It carries that path and the record's offset and time. A resolution error is passed through; a path that is too long gives -ENAMETOOLONG. |
| Smra.Footprint | drivers/soc/google/smra/smra_core.c:116-132 | A resolvable buffer yields one metadata entry per record, in record order, each the record's own conversion. |
| Smra.DoPostProcessing | drivers/soc/google/smra/smra_core.c:110-142 | An empty buffer gives 0 and adds nothing. Success iff every record resolves; the list then grows by exactly the buffer's footprint. On failure the list is freed and the error is the first failing record's. |
| Smra.EmptyLists | drivers/soc/google/smra/smra_core.c:144-155 | The cleanup leaves one empty list per target. |
| Smra.PostProcessing | drivers/soc/google/smra/smra_core.c:157-191 | As written. An allocation failure gives -ENOMEM with empty lists. The copy overruns the working buffer iff a target is reached whose buffer is larger. Success iff the registry lists the requested pids in order, every buffer fits and every record resolves; each target's list is then its footprint. Any error leaves every list empty. A failure after the allocation that is neither the overrun nor the BUG_ON is the error of the first record that does not resolve, in the first target that has one; every target before it matches, fits and resolves. A registry that does not match the requested pids is the BUG_ON. |
| Smra.PostProcessingChecked | drivers/soc/google/smra/smra_core.c:157-191 | Corrected: never overruns. A reached target whose buffer is too large gives -EINVAL with empty lists. Otherwise the same outcomes as written, including the first failing record's error. |
| Smra.ResolveFailsAtUnique | drivers/soc/google/smra/smra_core.c:176-183 | The failing target and its error are fixed by the inputs, so the error post-processing returns is determined. |
| Smra.NewTargets | drivers/soc/google/smra/smra_core.c:199-215 | One target per pid, in argument order, each with an empty buffer of the requested capacity. |
| Smra.Setup | drivers/soc/google/smra/smra_core.c:194-226 | Success iff every allocation succeeds; the new targets are then appended after the old ones. Otherwise -ENOMEM with the whole registry emptied, including earlier calls' targets, and the held references untouched. |
| Smra.SetupReleasing | drivers/soc/google/smra/smra_core.c:194-226 | The corrected setup: same as Setup on success. On failure it also releases every reference the dropped records held. |
| Smra.Start | drivers/soc/google/smra/smra_core.c:228-233 | Only the enable flag changes, and it becomes set. |
| Smra.Stop | drivers/soc/google/smra/smra_core.c:235-240 | Only the enable flag changes, and it becomes clear. |
| Smra.Reset | drivers/soc/google/smra/smra_core.c:242-256 | Puts back exactly the files of every target's records below its cursor, target by target and in record order. It leaves the registry empty and the enable flag alone. Under the invariant no reference is left. |
| Smra.AllRecordFilesHeld | drivers/soc/google/smra/smra_core.c:242-256 | The files reset puts back are, as a multiset, exactly the references the records hold. |
| Smra.FindTarget | drivers/soc/google/smra/smra_core.c:262-272 | Returns the first target with the pid, and None iff no target has it. |
| Smra.ReadFault | drivers/soc/google/smra/smra_core.c:274-315 | No change when recording is off, the file is null, the pid is untraced or the buffer is full. Otherwise it appends (file, pgoff, time) to that target's records, takes exactly one reference on the file, and changes nothing else. |
| SmraProps.ReadFaultPreservesInv | drivers/soc/google/smra/smra_core.c:295-309 | Every fault keeps 0 <= cur <= size and exactly one reference per recorded fault. |
| SmraProps.SetupSuccessPreservesInv | drivers/soc/google/smra/smra_core.c:199-215 | A successful setup keeps the invariant. |
| SmraProps.SetupFailureLeaksReferences | drivers/soc/google/smra/smra_core.c:217-224 | A failed setup empties the registry but keeps every reference the records held. The invariant survives iff there were no records. |
| SmraProps.SetupFailureLeakExample | drivers/soc/google/smra/smra_core.c:217-224 | Concrete input: pid 7 holds a record on file 1, and setup of pid 8 fails. The registry is empty but file 1 stays referenced. |
| SmraProps.PostProcessingOverflowExample | drivers/soc/google/smra/smra_core.c:63-70 | After setups of pid 7 with 100 slots and pid 8 with 50, post-processing with 50 slots reaches pid 7, whose buffer does not fit. |
| SmraProps.SetupReleasingPreservesInv | drivers/soc/google/smra/smra_core.c:217-224 | With the releasing cleanup, every outcome of setup keeps the invariant. |
| SmraProps.StartStopPreserveInv | drivers/soc/google/smra/smra_core.c:228-240 | Start and stop keep the invariant, and each undoes the other's effect on the flag alone. |
| SmraProps.ReplayDisabled | drivers/soc/google/smra/smra_core.c:286-287 | While recording is off, no sequence of faults changes the state. |
| SmraProps.ReplayUntracked | drivers/soc/google/smra/smra_core.c:289-292 | Faults of unregistered processes change nothing. |
| SmraProps.ReplayPreservesInv | drivers/soc/google/smra/smra_core.c:274-315 | Any sequence of faults keeps the invariant. |
| SmraProps.InfosOf | drivers/soc/google/smra/smra_core.c:304-309 | The record each file-backed fault would create, in order. |
| SmraProps.OneTracedFault | drivers/soc/google/smra/smra_core.c:295-309 | A traced process's fault appends to its own buffer, or drops when the buffer is full. Only that target changes, and it keeps tracing the process. |
| SmraProps.ReplayFrame | drivers/soc/google/smra/smra_core.c:274-315 | Faults of one traced process touch only its own target. |
| SmraProps.ReplayFifo | drivers/soc/google/smra/smra_core.c:295-309 | First come, first kept: the buffer ends as its old records plus the first faults that fit, in arrival order. Later faults are dropped and earlier records are never overwritten. |
| SmraProps.ReplayFifoCons | drivers/soc/google/smra/smra_core.c:295-309 | The inductive step of first come, first kept: the first fault, then the rest. |
| SmraProps.ScenarioStart | drivers/soc/google/smra/smra_core.c:194-233 | Setting up pid 42 with capacity 3 and starting gives one empty buffer and no references. |
| SmraProps.CapacityThreeScenario | drivers/soc/google/smra/smra_core.c:274-315 | With capacity 3, faults on files 1, 2, 3, 4 keep 1, 2, 3 in order and reference exactly those. |
| SmraProps.StopDropsLaterFaults | drivers/soc/google/smra/smra_core.c:235-240 | After stop, further faults change nothing. |
| LwisFence.Create | lwis_fence.c:224-252 | Corrected: succeeds iff allocation and descriptor both do. The error is -ENOMEM or the descriptor's. A new fence is unsignalled with an empty waiter table. |
| LwisFence.CreateAsWritten | lwis_fence.c:224-252 | As written: the same outcomes, but the new fence's waiter table holds whatever its memory held. |
| LwisFence.CreateThenSignalReleases | lwis_fence.c:185-193 | The first signal of a corrected new fence releases nothing. As written, it releases a transaction nobody added. |
| LwisFence.Signal | lwis_fence.c:148-196 | Succeeds iff the status is not NOT_SIGNALED and the fence has not signalled. Success stores the status, empties the waiter table and hands its lists on; failure is -EINVAL and changes nothing. |
| LwisFence.SignalOnce | lwis_fence.c:169-177 | After one successful signal, every later signal fails and the first status stays. |
| LwisFence.FoldSignaled | lwis_fence.c:169-177 | Signal attempts on a signalled fence leave it unchanged. |
| LwisFence.FoldKeepsSignaled | lwis_fence.c:160-177 | A signalled fence stays signalled. A fence that ends signalled was signalled already or holds one of the written statuses. |
| LwisFence.Poll | lwis_fence.c:201-222 | An unknown fence is POLLERR. Otherwise the fence is readable iff it is signalled. |
| LwisFence.PollAfterCreateAndSignal | lwis_fence.c:201-252 | A new fence polls as pending; after any valid signal it polls readable. |
| LwisFence.WriteStatus | lwis_fence.c:121-146 | No fence gives -EFAULT. A length other than one status word gives -EINVAL. Otherwise it signals, and the byte count is returned iff the signal succeeded. |
| LwisFence.FindList | lwis_fence.c:283-294 | The first list of that client, and None iff there is none. |
| LwisFence.FindOrCreate | lwis_fence.c:296-315 | The client's list, found or appended empty. Fails only when none exists and allocation fails. Existing lists are kept. |
| LwisFence.FindOrCreateKeepsUnique | lwis_fence.c:296-315 | A fence never gets two lists for one client. |
| LwisFence.AddId | lwis_fence.c:394-397 | The id goes to the head of one list; every other list is unchanged. |
| LwisFence.FenceGet | lwis_fence.c:254-281 | A fence is returned iff the descriptor names one that records the same descriptor. |
| LwisFence.FenceTriggeredConditionReady | lwis_fence.c:508-535 | The signalled count always rises by one. Ready iff one of: AND/OR with every node counted; AND with a failing status; OR with a succeeding status; NONE. |
| LwisFence.FenceReadiness | lwis_fence.c:508-535 | One readiness verdict per signal. |
| LwisFence.AndReadyOnlyWhenAllSucceed | lwis_fence.c:508-535 | An AND whose fences all succeed is ready at the last one and not before. |
| LwisFence.FirstFenceDecides | lwis_fence.c:508-535 | A failing fence readies an AND, and a succeeding fence readies an OR. Other operators are never ready. |
| LwisFence.EventTriggeredConditionReady | lwis_fence.c:435-506 | Counts at most one node, iff some event node matches the id/counter rule. Then ready iff OR/NONE, or AND with every node counted. |
| LwisFence.TriggerEventAddTransaction | lwis_fence.c:317-361 | For a level-triggered transaction whose explicit counter is already reached: count at once, with -EBADF for a missing precondition fence. Otherwise register a weak transaction and return its result. |
| LwisFence.TriggerFenceAddTransactionAsWritten | lwis_fence.c:363-428 | A NULL dereference happens exactly when the fence is unsignalled, the client has no list and that list's allocation fails. Otherwise it agrees with the corrected function. |
| LwisFence.SignaledFenceAdd | lwis_fence.c:402-423 | A signalled trigger fence is -EINVAL unless the transaction is level triggered. Then it counts at once and queues when ready, cancelled when the status failed. |
| LwisFence.TriggerFenceAddTransaction | lwis_fence.c:363-428 | Too many fences gives -EINVAL; a failed id allocation gives -ENOMEM; an unknown fence gives -EBADF. Any error leaves everything unchanged. Success records the fence. On an unsignalled fence the add succeeds iff the client's list is found or created, and fails only with -ENOMEM; the id then heads that list. On a signalled fence the outcome is exactly SignaledFenceAdd's: -EINVAL unless level-triggered, otherwise counted at once. |
| LwisFence.WaiterIsTriggered | lwis_fence.c:185-193 | A transaction added to an unsignalled fence is among the lists handed back when it signals. |
| LwisFence.AddNode | lwis_fence.c:557-566 | Node i uses that node's own allocation outcomes. A failing node changes nothing. Only a successful fence node adds a trigger fence. The fence branch uses the corrected add, which gives -ENOMEM where the source dereferences NULL. |
| LwisFence.ParseTriggerCondition | lwis_fence.c:537-573 | More than TRIGGER_NODES_MAX_NUM nodes gives -EINVAL and changes nothing. Otherwise 0 iff every node, added in order, succeeds. Else the code of the first failing node, with the state just before it, so later nodes are never added. Fence nodes use the corrected add. |
| LwisFence.RunStaysFailed | lwis_fence.c:567-569 | Once a step has failed, later steps change nothing. |
| LwisFence.RunOkIff | lwis_fence.c:557-572 | From a successful start, a loop that returns its first nonzero code has not failed iff every step so far succeeded. |
| LwisFence.RunFirstFailure | lwis_fence.c:557-572 | A failed run is the result of its first failing step, applied to the state just before it. |
| LwisFence.FailedNodeKeepsState | lwis_fence.c:557-569 | A failing node reports its add's code and leaves the transaction and fences as they were. |
| LwisFence.BeforeKeepsNodes | lwis_fence.c:557-572 | Parsing never changes the node list. |
| LwisFence.BeforeAddsOnePerNode | lwis_fence.c:557-572 | Each node adds at most one trigger fence. |
| LwisFence.ParseBoundsTriggerFences | lwis_fence.c:537-573 | Parsing never leaves a transaction with more than TRIGGER_NODES_MAX_NUM trigger fences. |
| LwisFence.AddCompletionFence | lwis_fence.c:626-649 | Succeeds iff the fence exists and allocation succeeds; the pending signal then heads the list. Errors are -EBADF or -ENOMEM and change nothing. |
| LwisFence.PendingFor | lwis_fence.c:626-649 | Pending signals for fences added one by one at the head, newest first. |
| LwisFence.AddExternalFrom | lwis_fence.c:661-685 | Succeeds iff every remaining descriptor is non-negative, known and allocatable; their pending signals are then prepended. |
| LwisFence.AddCompletionFences | lwis_fence.c:651-688 | The uninitialised sentinel gives -EPERM. Otherwise success iff the created fence (when there is one) is known and its allocation succeeds, and every external descriptor is non-negative, known and its allocation succeeds. On success the created fence and every external fence are on the completion list. |
| LwisFence.WithCreated | lwis_fence.c:667-672 | After the created fence is added, its pending signal heads the completion list and nothing else changes. |
| LwisFence.ExternalOkShift | lwis_fence.c:673-685 | Adding the external fences succeeds iff every one is acceptable, with allocation j + 1 for descriptor j. |
| LwisFence.AddExternalShape | lwis_fence.c:651-688 | After both stages succeed, the pending signals are those of the created fence and then the external ones, newest first. |
| LwisFence.AddExternalRest | lwis_fence.c:667-688 | Once the created fence is in, the external stage succeeds iff all descriptors are acceptable, and success leaves every signal pending. |
| LwisFence.NegativeExternalRejected | lwis_fence.c:661-669 | A negative external descriptor gives -EINVAL once everything before it was added. |
| LwisFence.FirstNegativeRejected | lwis_fence.c:661-669 | The first negative descriptor gives -EINVAL once everything before it was added. |
| LwisFence.PendingFencesMoveAll | lwis_fence.c:724-735 | Every completion fence moves, in order, to the tail of the pending list with the error code as status. The transaction's list ends empty. |
| LwisFence.PendingSignalEmit | lwis_fence.c:704-722 | Entries are signalled in list order. An unsignalled fence takes the status of its first entry with a real status, and its waiters are released then. Later entries for it fail. A fence no entry signals, or one already signalled, is unchanged. The released lists are, in list order, the original waiters of each fence at its first real signal. |
| LwisFence.EmitStep | lwis_fence.c:711-717 | One entry extends what the entries before it did. |
| LwisFence.EmitSignalSucceeds | lwis_fence.c:711-713 | An entry's signal succeeds iff it is the first real signal of a fence that was unsignalled. That fence is then still as it was. |
| LwisFence.EmitStepRefused | lwis_fence.c:711-717 | A refused signal changes nothing. |
| LwisFence.EmitStepSignals | lwis_fence.c:711-717 | A first real signal of an unsignalled fence stores the status, empties its table and releases its original waiters. |
| LwisFence.EmitKeepsFirst | lwis_fence.c:711-717 | A new first signal leaves alone the fences earlier first signals set. |
| LwisFence.EmitKeepsNever | lwis_fence.c:711-717 | A fence that no entry so far signals is still as it was. |
| HdcpLink.PollUntilSpec | google-modules/hdcp/samsung/auth22-repeater.c:70-99 | Times out iff every poll reads zero. Otherwise the first poll that is not zero decides: abort, read error, wanted bit or unexpected status. |
| HdcpLink.PollUntil | google-modules/hdcp/samsung/auth22-repeater.c:70-99 | A cancelled wait saw an abort at some poll, a ready wait read the wanted bit at some poll, and an unexpected status is nonzero without the wanted bit. |
| HdcpLink.Classify | google-modules/hdcp/samsung/auth22-repeater.c:76-96 | A poll that stops the loop never means a timeout. |
| HdcpLink.PollUntilBounded | google-modules/hdcp/samsung/auth22-repeater.c:70-99 | Nothing after the poll limit is read. |
| HdcpRepeater.ConvertArr2St | google-modules/hdcp/samsung/auth22-repeater.c:43-56 | The decoded fields are within their widths: depth at most 7, count at most 31, flags 0 or 1. |
| HdcpRepeater.Encode | google-modules/hdcp/samsung/auth22-repeater.c:21-32 | A topology encodes into two bytes with the reserved bits zero. |
| HdcpRepeater.DecodeEncode | google-modules/hdcp/samsung/auth22-repeater.c:43-56 | Decoding the big-endian word recovers every field of an encoded topology. |
| HdcpRepeater.ConvertKeepsLowBits | google-modules/hdcp/samsung/auth22-repeater.c:47-55 | The decoded fields are exactly the low 12 bits of the word. |
| HdcpRepeater.EncodeDecode | google-modules/hdcp/samsung/auth22-repeater.c:43-56 | Re-encoding a decoded RxInfo gives the bytes back iff the reserved bits were zero. |
| HdcpRepeater.ListSize | google-modules/hdcp/samsung/auth22-repeater.c:58-61 | One receiver ID per device, so at most 31 IDs. |
| HdcpRepeater.WaitForReceiverIdList | google-modules/hdcp/samsung/auth22-repeater.c:63-100 | At most 30 polls. READY gives 0, another nonzero status -EIO, an abort -ECANCELED; a read error is passed through; all zeros give -ETIMEDOUT. |
| HdcpRepeater.VerifyReceiverIdList | google-modules/hdcp/samsung/auth22-repeater.c:102-183 | Success iff nothing was aborted, every read succeeded, the topology is acceptable, the TEE says valid and V is sent. A rejected topology never reaches the TEE. V is sent only after a valid verdict. |
| HdcpRepeater.AcceptedTopology | google-modules/hdcp/samsung/auth22-repeater.c:145-160 | An accepted list has fewer than 31 devices, no overflow and no legacy device downstream. |
| HdcpAuth.DetermineRxHdcpCap | auth22.c:35-61 | Accepted iff the read succeeds, the capable bit is set and the version is 2. The repeater verdict is then bit 0 of the third byte. Any failure is -EIO. |
| HdcpAuth.CapableReceiverAccepted | auth22.c:47-59 | HDCP 2.2 capability bytes are accepted, with the repeater bit read back. |
| HdcpAuth.RepeaterAuth | auth22.c:63-75 | Wait and verify failures give -EAGAIN; a stream-management failure gives -EIO; success iff all three succeed. |
| HdcpAuth.Authenticate | auth22.c:77-92 | A capability failure gives -EOPNOTSUPP. Key-exchange and locality failures give -EAGAIN; a session-key failure gives -EIO. A second stage is requested exactly for a repeater. |
| HdcpAuth.Tries | auth22.c:114-146 | The loop's attempt count stays between its start and the limit of three; DONE only with result 0 after at least one attempt; with no attempt made, the carried result is reported. |
| HdcpAuth.TriesSpec | auth22.c:114-146 | The loop makes at most three attempts, retries exactly on -EAGAIN, and reports the last attempt's result. DONE iff the result is 0. |
| HdcpAuth.RunHdcp2Auth | auth22.c:94-147 | From RP the repeater stage runs first: success is DONE, a non-retry error is returned, and -EAGAIN falls through to full attempts. DONE iff 0. |
| HdcpAuth.RetryExhaustion | auth22.c:114-146 | Three -EAGAIN attempts in a row give up with -EAGAIN. |
| HdcpAuth.HandleIrq | auth22.c:149-175 | A read failure gives -EIO. LINK_FAILED or REAUTH_REQ gives -EFAULT. Otherwise READY sets RP with -EAGAIN, and anything else gives -EINVAL. |
| HdcpAuth.ReadyIrqThenRepeaterStage | auth22.c:100-112 | After a READY interrupt, a successful repeater stage completes authentication with no full attempt. |
| HdcpAke.SendAkeInit | auth22-ake.c:23-54 | An abort gives -ECANCELED. Otherwise success iff rtx is generated and both sends succeed, and -EIO if not. |
| HdcpAke.RecvThenTee | auth22-ake.c:56-80 | The certificate, H' and pairing-info steps (also lines 190-212 and 256-278): an abort gives -ECANCELED. Otherwise success iff the read and the TEE call both succeed, and -EIO if not. |
| HdcpAke.SendAkeNoStoredKm | auth22-ake.c:82-105 | An abort gives -ECANCELED. Otherwise success iff the key is generated and sent, and success marks the key not stored. |
| HdcpAke.SendAkeRestoreKm | auth22-ake.c:107-146 | With pairing disabled it behaves as the no-stored-key step and never marks a key as stored. |
| HdcpAke.CheckHPrimeReady | auth22-ake.c:148-188 | At most 10 polls for the H' bit. An abort gives -ECANCELED, a read error is passed through, and another status or a timeout gives -EIO. |
| HdcpAke.CheckPairingReady | auth22-ake.c:214-254 | At most 2 polls for the PAIRING bit, with the same outcomes as the H' wait. |
| HdcpAke.StepResults | auth22-ake.c:280-331 | One result per step of the fixed order. |
| HdcpAke.ExchangeMasterKey | auth22-ake.c:280-331 | Runs a prefix of the fixed step order and returns 0 or -EIO. An aborted session fails. |
| HdcpAke.ExchangeMasterKeySpec | auth22-ake.c:280-331 | Runs the steps up to the first failure and then returns -EIO. With no failure it runs all seven, pairing included, and returns 0. |
| HdcpAke.AbortStopsAtInit | auth22-ake.c:29-30 | An aborted session stops at the first step. |
| HdcpAke.PairingAfterHPrime | auth22-ake.c:315-317 | Whenever H' was received, pairing runs, because no stored key is ever found. |
| Vdroop.GetIrqAsWritten | max77779_vdroop.c:65-94 | As written: IRQ_NONE iff no flag is raised, even when the read failed. Any other return is the read's result truncated to a byte. |
| Vdroop.GetIrqReadFailureUndetected | max77779_vdroop.c:68-79 | A failed read (-EIO) with a stale UVLO2 flag is reported as UVLO2 with return 251. |
| Vdroop.GetIrq | max77779_vdroop.c:65-94 | IRQ_NONE iff the read fails or nothing is raised. Otherwise the raised source of highest priority (UVLO2, BATOILO2, BATOILO1, UVLO1) is stored. |
| Vdroop.GetIrqAgreesOnSuccess | max77779_vdroop.c:65-94 | The corrected and as-written classifiers agree whenever the read succeeds. |
| Vdroop.Highest | max77779_vdroop.c:83-91 | The chosen source is raised, and no source ahead of it in the UVLO2, BATOILO2, BATOILO1, UVLO1 order is. |
| Vdroop.GetIrqPicksFirstRaised | max77779_vdroop.c:83-91 | The reported source is the first raised one in priority order. |
| Vdroop.ClearMask | max77779_vdroop.c:108-121 | A mask never touches other bits. UVLO1 is cleared alone; UVLO2 and both OILO bits only together. |
| Vdroop.ClearMaskTable | max77779_vdroop.c:108-121 | UVLO1 gives its own bit. UVLO2, BATOILO1 and BATOILO2 give UVLO2\|OILO1\|OILO2. Any other number gives nothing. |
| Vdroop.ClearWith | max77779_vdroop.c:108-127 | The mask is written; a failed write gives IRQ_NONE. |
| Vdroop.ClrIrq | max77779_vdroop.c:96-128 | As written. A caller's number is cleared by its byte value. With NOT_USED and a raised flag, the highest source is cleared only when the read's byte is 0; otherwise IRQ_NONE without a write. With nothing raised, the mask of number 0 is written when IRQ_NONE is 0. A successful return is the write's, and nothing unwritten is reported as success. |
| Vdroop.ClrIrqCorrected | max77779_vdroop.c:96-128 | Corrected. With NOT_USED, a mask is written iff the read succeeds and some flag is raised. A named number is cleared as written. Nothing unwritten is reported as success. |
| Vdroop.ClearAcknowledgesReported | max77779_vdroop.c:96-128 | Corrected clear: the mask written holds the flag of the source get_irq reports. |
| Vdroop.ClrIrqNamedSource | max77779_vdroop.c:102-121 | A named source clears a mask holding its own flag, whatever the register holds; both versions agree. |
| Vdroop.ClrIrqNothingRaised | max77779_vdroop.c:102-107 | With nothing raised, a zero IRQ_NONE does not stop the clear as written: the mask of source number 0 is written. A nonzero IRQ_NONE writes nothing. The corrected clear writes nothing. |
| Vdroop.ClrIrqAsWrittenVsCorrected | max77779_vdroop.c:96-128 | For every read return, the two versions differ iff a flag is raised and "low byte 0" disagrees with "read succeeded" (an errno that is a multiple of 256, or a positive return with a nonzero low byte), or nothing is raised and IRQ_NONE is 0. |
| Vdroop.ClrIrqSmallReturns | max77779_vdroop.c:96-128 | For a read returning 0 or an errno above -256, the two versions differ iff nothing is raised and IRQ_NONE is 0. |
| Vdroop.ClrIrqErrnoWithZeroByte | max77779_vdroop.c:68-79 | A read failing with -512 and a stale UVLO2 flag makes the as-written clear write the UVLO2 mask, while the corrected clear writes nothing. |
| Vdroop.ReqVimonConv | max77779_vdroop.c:144-166 | A conversion is requested iff on ZUMAPRO and the source is UVLO1, UVLO2 or BATOILO1. Otherwise 0. |
| Vdroop.VimonForReportedSource | max77779_vdroop.c:144-166 | Every reported source but BATOILO2 gets a conversion on ZUMAPRO; off ZUMAPRO none does. |
| Vdroop.VimonRead | max77779_vdroop.c:130-142 | 0 off ZUMAPRO; otherwise the sample count, or the read's error. |
| Vdroop.AdjustBatOpenTo | max77779_vdroop.c:18-34 | One write to the OILO1 timeout field: the OTG timeout when enabled, the normal one otherwise. The write's return is the result. |
| Vdroop.FirstNegative | max77779_vdroop.c:36-63 | The index of the first failing access. |
| Vdroop.AdjustBatoiloLvl | max77779_vdroop.c:36-63 | The levels written are the caller's when lowering is enabled and the configured ones otherwise. At most two writes. |
| Vdroop.AdjustBatoiloLvlStopsAtFirstError | max77779_vdroop.c:42-62 | Stops at the first failing access and returns its error, having issued only the writes before it. With no failure both levels are written. |
| MmHint.Initial | drivers/soc/google/vh/kernel/mm/pixel_mm_hint.c:12-14 | The initial state names a valid mode. |
| MmHint.EnableSet | drivers/soc/google/vh/kernel/mm/pixel_mm_hint.c:16-28 | A parse failure gives -EINVAL with no change. Otherwise the boolean is stored as 0 or 1. |
| MmHint.ModeSet | drivers/soc/google/vh/kernel/mm/pixel_mm_hint.c:44-59 | Success iff the value parses and is below MM_HINT_NUM, and only then is it stored. Otherwise -EINVAL with no change. |
| MmHint.MinFileCacheKbSet | drivers/soc/google/vh/kernel/mm/pixel_mm_hint.c:81-93 | A parse failure gives -EINVAL with no change; any parsed value is stored. |
| MmHint.SettersPreserveInv | drivers/soc/google/vh/kernel/mm/pixel_mm_hint.c:16-93 | No setter can store an out-of-range mode. |
| MmHint.GetMode | drivers/soc/google/vh/kernel/mm/pixel_mm_hint.c:35-41 | NONE while disabled; otherwise the stored mode, in enum order. |
| MmHint.InitialModeIsNone | drivers/soc/google/vh/kernel/mm/pixel_mm_hint.c:12-14 | Before any write the mode reads NONE. |
| MmHint.EnableThenModeRoundTrip | drivers/soc/google/vh/kernel/mm/pixel_mm_hint.c:16-59 | Enabling and setting a mode, in either order, reads that mode back. Disabling hides the mode without forgetting it. |
| MmHint.RejectedModeKeepsReading | drivers/soc/google/vh/kernel/mm/pixel_mm_hint.c:48-58 | A rejected mode write leaves the mode that is read unchanged. |
| MmHint.K | drivers/soc/google/vh/kernel/mm/pixel_mm_hint.c:9 | Without wrap-around, K(pages) KiB are exactly pages × 4096 bytes. |
| MmHint.IsFileCacheEnough | drivers/soc/google/vh/kernel/mm/pixel_mm_hint.c:67-78 | Without wrap-around: enough iff 4 × (active + inactive) is strictly above the threshold. |
| MmHint.FileCacheMonotone | drivers/soc/google/vh/kernel/mm/pixel_mm_hint.c:67-78 | More pages never make the cache not enough, and a higher threshold never makes it enough. Exactly the threshold is not enough. |
| Hl7132.AsInt32 | hl7132_charger.c:379 | An unsigned value read into an `int` keeps values below 2^31. |
| Hl7132.FieldCurrent | hl7132_charger.c:377-383 | The limit is never below 1 A. |
| Hl7132.InputCurrentLimit | hl7132_charger.c:365-384 | Mains online gives -ENODATA, and a failed read its error. Otherwise the field's current, at least 1 A. |
| Hl7132.FieldCurrentValue | hl7132_charger.c:377-383 | Without overflow: 50 mA per step, raised to 1 A. |
| Hl7132.FieldCurrentMonotone | hl7132_charger.c:377-383 | Without overflow, a larger field never reads as a smaller limit. |
| Hl7132.IsReg | hl7132_charger.c:540-550 | True exactly for the registers DEVICE_ID through ADC_TDIE_1. |
| Hl7132.MainsIsWriteable | hl7132_charger.c:456-471 | Writeable exactly: ONLINE, CC current max, CC voltage, CC voltage max, current max. |
| Hl7132.GbmsMainsIsWriteable | hl7132_charger.c:521-538 | Those five plus CHARGING_ENABLED and CHARGE_DISABLE. |
| Hl7132.GbmsExtendsMains | hl7132_charger.c:456-538 | The GBMS view adds exactly the two charging-enable properties and nothing else. |
| Hl7132.CommonFields | hl7132_charger.c:587-621 | The configured input current follows its maximum, and the float voltage follows its device-tree value. |
| Hl7132.OfHl7132DtAsWritten | hl7132_charger.c:577-684 | No node gives -EINVAL. A missing ta-vol-offset puts 500000 into the compensation offset and leaves ta_vol_offset 0. |
| Hl7132.CompOffsetOverwritten | hl7132_charger.c:657-661 | A board with comp offset 30000 and no ta-vol-offset reads back 500000. |
| Hl7132.OfHl7132Dt | hl7132_charger.c:577-684 | No node gives -EINVAL. Otherwise every field is its property when present and its own default when missing; the maximum TA voltage for charge-pump mode falls back to the TA voltage. |
| Hl7132.DtReadersAgreeWithOffset | hl7132_charger.c:657-661 | The readers differ only when ta-vol-offset is missing, and then only in the two offsets. |
| Hl7132.FtmModeSet | hl7132_charger.c:751-764 | Nonzero enters FTM with a USB-PD adapter in 2:1 mode; zero only leaves FTM. Always 0. |
| Hl7132.FtmModeSetIdempotent | hl7132_charger.c:751-764 | Entering twice is entering once, and leaving keeps the adapter type and mode. |
| Hl7132.TaMaxVolSet | hl7132_charger.c:767-777 | Both platform limits take the value; the working limit is the value times the charging mode. Nothing else changes. Always 0. |
| Hl7132.TaMaxVolInDcMode | hl7132_charger.c:767-777 | In 2:1 mode the working limit is twice the platform limit. |

## Left out

- Locks, atomics, wait queues and RCU are erased, and every operation runs sequentially. This covers the SMRA reader/writer lock and its drop-and-retake window in post-processing, the fence spinlocks and the atomic mm-hint parameters.
- File-descriptor plumbing is not modelled: anon inodes, `fget`/`fput` on fence files, fence release and `copy_to_user`/`copy_from_user`. A fence lookup is a map from descriptor to fence. The partial copy in `lwis_fence_write_status` is treated as a completed copy.
- `lwis_fence_get_status` and `lwis_initialize_transaction_fences` are not modelled: they are outside the modelled core.
- `lwis_transaction_fence_trigger` is not modelled: it belongs to the transaction engine. Signalling hands it the drained waiter lists instead.
- LwisFence.Signal: the drained waiter lists are handed on in creation order. The source walks its hash table with `hash_for_each_safe` (lwis_fence.c:185), whose order is bucket order and unspecified; no contract relies on the order.
- Freeing weak transactions and the logging in `lwis_fences_pending_signal_emit` are not modelled. An emit failure is only logged in the source.
- Kernel allocation failures are boolean inputs. `d_path` and the metadata allocation are one resolver function. `ktime_get` is an input time.
- The working-buffer leak on the success path of `smra_post_processing` is not modelled: memory is not modelled.
- The unsafe list iteration in the `smra_setup` cleanup is reduced to its outcome, an empty registry.
- Vendor-hook registration and `smra_init` are not modelled.
- SET_HDCP_STATE_OR_RETURN is taken to succeed. Its -EBUSY refusal path is not modelled.
- HdcpAke.SendAkeRestoreKm: the stored-master-key branch is compiled out by DISABLE_PAIRING (auth22-ake.c:21), so only the fallback is modelled.
- The HDCP abort flag of the master-key exchange is one boolean per exchange, consulted at the start of each step. An abort that arrives after AKE_Init is not an input; it shows only as a later step failing, with the same -EIO and the same prefix of steps run. The RxStatus waits do see an abort per poll.
- `msleep` delays and every other timing are not modelled; only the number of polls is.
- TEE and DPCD calls enter as their return codes. The cryptographic values are not modelled.
- `kstrtobool`/`kstrtoul` enter as their result: None for a parse failure. The `get` handlers and `sysfs_emit_at` are not modelled.
- These opaque constants are parameters, not fixed numbers:
  - the bcl source numbers, NOT_USED and IRQ_NONE (`Vdroop.Codes`);
  - the VDROOP_INT bits, as named flags;
  - the `_max77779_*_set` field setters, as `FieldWrite` records;
  - the HL7132 register numbers (`IsReg`);
  - the IIN_REG_TH mask;
  - MAX_INIT_RETRY_DFT, TA_TYPE_USBPD and CHG_2TO1_DC_MODE.
- LwisFence.NOT_SIGNALED, TRIGGER_NODES_MAX_NUM, CREATE_COMPLETION_FENCE, COUNTER_ON_NEXT_OCCURRENCE, COUNTER_EVERY_TIME, STATUS_SIZE, HdcpRepeater.RCV_ID_LEN and RCV_DEVS_COUNT_MAX are defined in LWIS and HDCP headers that are not part of this model. They are given the values -1, 16, -2, -1, -2, 4, 5 and 31. MmHint.PAGE_SHIFT is the architecture's and is given the value 12, for 4 KiB pages.
- LwisFence.AddNode: parsing is modelled over the corrected `trigger_fence_add_transaction`. Where the source uses a NULL list after a failed allocation, the model returns -ENOMEM and parsing stops there.
- The NULL checks of `transaction` and `client` at the start of `lwis_parse_trigger_condition` are not modelled: both are always present in the model.
- Hl7132.IsReg: the register range ends are parameters, so the contract states the range and not register numbers.
- Hl7132.TaMaxVolSet: the `ta_max_vol` fields are taken as unsigned 32-bit, and the product with the charging mode is stated only when it does not wrap.
- MmHint.IsFileCacheEnough: the threshold equivalence is stated only when the page sum and its shift do not wrap 64 bits. The function itself computes the wrapped value.
- Hl7132.FieldCurrentValue: stated only while the product stays below 2^31, where the `int` conversion is exact.
- `hl7132_hw_init`, probe/remove, the thermal zone, RTC, suspend/resume, power-supply registration and the other debugfs/sysfs handlers are not modelled: they are plumbing.
- `lwis_ioctl_past.h` and `google-modules/hdcp/samsung/auth22-internal.h` hold only declarations.

## Findings

| source | as written | input that shows it | evidently intended | confidence | as-written member | corrected member |
|---|---|---|---|---|---|---|
| drivers/soc/google/smra/smra_core.c:217-224 | A failed `smra_setup` frees every target, including earlier calls' targets with recorded faults, without `fput` on their records' files. | Pid 7 holds one record on file 1; `smra_setup([8])` fails to allocate. | Release each dropped record's file, as `smra_reset` does. | not executed | Smra.Setup, SmraProps.SetupFailureLeakExample | Smra.SetupReleasing, SmraProps.SetupReleasingPreservesInv |
| drivers/soc/google/smra/smra_core.c:63-70 | `smra_buffer_copy` copies `src->size` records into the working buffer, which `smra_post_processing` sizes from its own `buffer_size` argument (line 163). Nothing checks that each target's buffer, sized by its own `smra_setup` call, fits. | `smra_setup([7], 100)`, then `smra_setup([8], 50)`, then `smra_post_processing([7, 8], 2, 50)`: 100 records are copied into a 50-record buffer. | Refuse a target whose buffer is larger than the working buffer. | not executed | Smra.PostProcessing, SmraProps.PostProcessingOverflowExample | Smra.PostProcessingChecked |
| lwis_fence.c:224-252 | The fence comes from `kmalloc`, which does not zero memory, and `transaction_list` is never initialised. A later signal walks that table (line 185) and adds look it up (lines 288, 306). | Create a fence and signal it at once: the walk reads whatever the memory held, modelled as a leftover list naming transaction 99. | Initialise the waiter table to empty when the fence is created. | not executed | LwisFence.CreateAsWritten, LwisFence.CreateThenSignalReleases | LwisFence.Create |
| lwis_fence.c:393-397 | On an unsignalled fence, when the client has no list and `transaction_list_create` fails, the NULL result is used by `list_add`. | An unsignalled fence with no list for the client, a successful id allocation and a failed list allocation. | Return -ENOMEM before recording anything. | not executed | LwisFence.TriggerFenceAddTransactionAsWritten | LwisFence.TriggerFenceAddTransaction |
| max77779_vdroop.c:68-79 | `ret` is a `u8`, so the `ret < 0` check after the register read never holds. A failed read goes on to classify a register byte that was never filled. | The read returns -EIO while the stale byte has UVLO2 set; the result is 251 with UVLO2 reported. A read failing with -512 truncates to 0, so `max77779_clr_irq` takes it for success and writes the UVLO2 mask. | Return IRQ_NONE when the read fails. | not executed | Vdroop.GetIrqAsWritten, Vdroop.GetIrqReadFailureUndetected, Vdroop.ClrIrqErrnoWithZeroByte | Vdroop.GetIrq, Vdroop.ClrIrqCorrected |
| max77779_vdroop.c:102-107 | The NOT_USED path skips the clear when `max77779_get_irq` returns nonzero. That return is IRQ_NONE, which is 0 in the kernel, when nothing is raised, and 0 after a successful classification, so the test cannot tell the two apart. | NOT_USED with a successful read of a VDROOP_INT that has none of the four flags set: the mask for `irq_val` 0 is written. | Skip the write when no source was classified. | not executed | Vdroop.ClrIrq, Vdroop.ClrIrqNothingRaised | Vdroop.ClrIrqCorrected, Vdroop.ClrIrqAsWrittenVsCorrected |
| hl7132_charger.c:657-661 | A missing `ta-vol-offset` stores the TA voltage default into `iin_cc_comp_offset`, overwriting the value just read. `ta_vol_offset` stays 0. | A device tree with `iin-cc_comp-offset` = 30000 and no `ta-vol-offset` reads back 500000. | Default `ta_vol_offset` to 500000 and keep the compensation offset. | not executed | Hl7132.OfHl7132DtAsWritten, Hl7132.CompOffsetOverwritten | Hl7132.OfHl7132Dt |

=== FILE: common.dfy ===
/**
 Shared vocabulary for the driver models: an optional value, the Linux error
 numbers the drivers return (negated, as kernel code does), and a byte type.
 */
module Common {

  /** A value that may be absent: a NULL pointer, a missing device-tree
      property, an allocation that failed. */
  datatype Option<+T> = None | Some(value: T) {
    function GetOr(default: T): T {
      match this
      case Some(v) => v
      case None => default
    }
  }

  /** An error number as kernel code returns it: negative, and within the
      range `IS_ERR` recognises in a pointer. */
  type Errno = e: int | -4095 <= e < 0 witness -5

  /** The outcome of a kernel call that either produces a value or fails
      with a negative error number. */
  datatype Result<+T> = Ok(value: T) | Err(code: Errno)

  /** An unsigned 8-bit quantity (register contents, DPCD bytes). */
  type u8 = x: int | 0 <= x < 256

  const U32_MODULUS: nat := 0x1_0000_0000
  const U64_MODULUS: nat := 0x1_0000_0000_0000_0000

  /** 2 to the power `n`: the value of bit `n`, a shift by `n`. */
  function Pow2(n: nat): (r: nat)
    ensures r >= 1
  {
    if n == 0 then 1 else 2 * Pow2(n - 1)
  }

  /** Truncation of an unbounded value to an unsigned 32-bit field. */
  function ToU32(x: nat): (r: nat)
    ensures r < U32_MODULUS
    ensures x < U32_MODULUS ==> r == x
  {
    x % U32_MODULUS
  }

  /** Truncation of an unbounded value to an unsigned 64-bit `unsigned long`. */
  function ToU64(x: nat): (r: nat)
    ensures r < U64_MODULUS
    ensures x < U64_MODULUS ==> r == x
  {
    x % U64_MODULUS
  }

  // Linux error numbers (include/uapi/asm-generic/errno-base.h and errno.h).
  const EPERM: int := 1
  const EIO: int := 5
  const EBADF: int := 9
  const EAGAIN: int := 11
  const ENOMEM: int := 12
  const EFAULT: int := 14
  const EBUSY: int := 16
  const EINVAL: int := 22
  const ENAMETOOLONG: int := 36
  const ENODATA: int := 61
  const EOPNOTSUPP: int := 95
  const ETIMEDOUT: int := 110
  const ECANCELED: int := 125
}

=== FILE: hdcp_ake.dfy ===
/**
 Authentication and key exchange (AKE) of HDCP 2.2 over DisplayPort, as the
 transmitter drives it: AKE_Init, the receiver certificate, the master key
 (stored or not), H', and pairing.

 Every TEE call and DPCD access enters as its return code; `aborted` is the
 session-abort flag the steps consult. The driver is built with
 DISABLE_PAIRING, so no stored master key is ever found and the pairing
 steps always run; the stored-key branch it compiles out is not modelled.
 */
module HdcpAke {
  import opened Common
  import opened HdcpLink

  /** Polls of RxStatus while waiting for H' (about 1 s) and for pairing
      information (about 200 ms), 110 ms apart. */
  const H_PRIME_POLLS: nat := 10
  const PAIRING_POLLS: nat := 2

  /** The results an AKE step can have: success, cancelled because the
      session was aborted (checked before any call), or -EIO for the first
      failing call. */
  predicate StepRet(r: int) {
    r == 0 || r == -ECANCELED || r == -EIO
  }

  /** `do_send_ake_init`: TEE generates rtx, then rtx and TxCaps are sent. */
  function SendAkeInit(aborted: bool, genRtxRet: int, sendRtxRet: int, sendTxCapsRet: int): (r: int)
    ensures StepRet(r) && (aborted <==> r == -ECANCELED)
    ensures !aborted ==> (r == 0 <==> genRtxRet == 0 && sendRtxRet == 0 && sendTxCapsRet == 0)
  {
    if aborted then -ECANCELED
    else if genRtxRet != 0 then -EIO
    else if sendRtxRet != 0 then -EIO
    else if sendTxCapsRet != 0 then -EIO
    else 0
  }

  /** The shape `do_recv_ake_send_cert`, `do_recv_ake_send_h_prime` and
      `do_recv_ake_send_pairing_info` share: an abort check, a DPCD read of
      the receiver's message (the certificate, H' or E_kh(km)), then a TEE
      call on what was read (verify the certificate, compare H', store the
      pairing information). */
  function RecvThenTee(aborted: bool, recvRet: int, teeRet: int): (r: int)
    ensures StepRet(r) && (aborted <==> r == -ECANCELED)
    ensures !aborted ==> (r == 0 <==> recvRet == 0 && teeRet == 0)
  {
    if aborted then -ECANCELED
    else if recvRet != 0 then -EIO
    else if teeRet != 0 then -EIO
    else 0
  }

  /** A step's result and the `is_stored_km` it leaves (None: not written). */
  datatype KmOutcome = KmOutcome(ret: int, isStoredKm: Option<bool>)

  /** `do_send_ake_nostored_km`: the TEE generates a master key, E_kpub(km) is
      sent, and the key is marked as not stored. */
  function SendAkeNoStoredKm(aborted: bool, genRet: int, sendRet: int): (r: KmOutcome)
    ensures StepRet(r.ret) && (aborted <==> r.ret == -ECANCELED)
    ensures !aborted ==> (r.ret == 0 <==> genRet == 0 && sendRet == 0)
    ensures r.isStoredKm == (if r.ret == 0 then Some(false) else None)
  {
    if aborted then KmOutcome(-ECANCELED, None)
    else if genRet != 0 then KmOutcome(-EIO, None)
    else if sendRet != 0 then KmOutcome(-EIO, None)
    else KmOutcome(0, Some(false))
  }

  /** `do_send_ake_restore_km` as built: with pairing disabled `found_km` stays
      0, so after the abort check it falls back to the no-stored-km path. */
  function SendAkeRestoreKm(aborted: bool, genRet: int, sendRet: int): (r: KmOutcome)
    ensures r == SendAkeNoStoredKm(aborted, genRet, sendRet)
    ensures r.isStoredKm != Some(true)
  {
    if aborted then KmOutcome(-ECANCELED, None)
    else SendAkeNoStoredKm(aborted, genRet, sendRet)
  }

  /** How a wait for an RxStatus bit ends, as the AKE reports it: a timeout
      is an I/O error, a failed read passes the link's code through. */
  function WaitRet(r: PollResult): int {
    match r
    case Ready => 0
    case Cancelled => -ECANCELED
    case ReadError(c) => c
    case Unexpected(_) => -EIO
    case TimedOut => -EIO
  }

  /** `check_h_prime_ready`: an abort check, then up to 10 polls for the H'
      bit. */
  function CheckHPrimeReady(aborted: bool, polls: nat -> Poll): (r: int)
    ensures aborted ==> r == -ECANCELED
    ensures !aborted && (forall k :: 0 <= k < H_PRIME_POLLS ==> Idle(polls(k))) ==> r == -EIO
    ensures !aborted ==> forall j: nat :: j < H_PRIME_POLLS && StopsAt(polls, 0, j) ==>
              match polls(j)
              case Aborted => r == -ECANCELED
              case ReadFail(c) => r == c
              case Status(s) => r == (if Bit(s, RXSTATUS_H_PRIME) then 0 else -EIO)
  {
    PollUntilSpec(polls, 0, H_PRIME_POLLS, RXSTATUS_H_PRIME);
    if aborted then -ECANCELED else WaitRet(PollUntil(polls, 0, H_PRIME_POLLS, RXSTATUS_H_PRIME))
  }

  /** `check_pairing_ready`: the same wait for the PAIRING bit, 2 polls. */
  function CheckPairingReady(aborted: bool, polls: nat -> Poll): (r: int)
    ensures aborted ==> r == -ECANCELED
    ensures !aborted && (forall k :: 0 <= k < PAIRING_POLLS ==> Idle(polls(k))) ==> r == -EIO
    ensures !aborted ==> forall j: nat :: j < PAIRING_POLLS && StopsAt(polls, 0, j) ==>
              match polls(j)
              case Aborted => r == -ECANCELED
              case ReadFail(c) => r == c
              case Status(s) => r == (if Bit(s, RXSTATUS_PAIRING) then 0 else -EIO)
  {
    PollUntilSpec(polls, 0, PAIRING_POLLS, RXSTATUS_PAIRING);
    if aborted then -ECANCELED else WaitRet(PollUntil(polls, 0, PAIRING_POLLS, RXSTATUS_PAIRING))
  }

  datatype AkeStep = AkeInit | AkeCert | AkeRestoreKm | AkeHPrimeReady | AkeHPrime | AkePairingReady | AkePairingInfo

  /** The order of the steps. */
  function FullOrder(): seq<AkeStep> {
    [AkeInit, AkeCert, AkeRestoreKm, AkeHPrimeReady, AkeHPrime, AkePairingReady, AkePairingInfo]
  }

  /** The link and TEE results each step would see. */
  datatype AkeInputs = AkeInputs(
    aborted: bool,
    genRtxRet: int, sendRtxRet: int, sendTxCapsRet: int,
    recvCertRet: int, verifyCertRet: int,
    genKmRet: int, sendKmRet: int,
    hPrimePolls: nat -> Poll,
    recvHPrimeRet: int, compareHPrimeRet: int,
    pairingPolls: nat -> Poll,
    recvPairingRet: int, setPairingRet: int)

  /** What each step would return, in order. */
  function StepResults(io: AkeInputs): (rs: seq<int>)
    ensures |rs| == |FullOrder()|
  {
    [SendAkeInit(io.aborted, io.genRtxRet, io.sendRtxRet, io.sendTxCapsRet),
     RecvThenTee(io.aborted, io.recvCertRet, io.verifyCertRet),
     SendAkeRestoreKm(io.aborted, io.genKmRet, io.sendKmRet).ret,
     CheckHPrimeReady(io.aborted, io.hPrimePolls),
     RecvThenTee(io.aborted, io.recvHPrimeRet, io.compareHPrimeRet),
     CheckPairingReady(io.aborted, io.pairingPolls),
     RecvThenTee(io.aborted, io.recvPairingRet, io.setPairingRet)]
  }

  /** The result of the exchange and the steps it ran, in order. */
  datatype Exchange = Exchange(ret: int, ran: seq<AkeStep>)

  /** `auth22_exchange_master_key`: the steps in order, stopping with -EIO at
      the first one that returns a negative value; the pairing steps are
      skipped only for a stored master key. */
  function ExchangeMasterKey(io: AkeInputs): (r: Exchange)
    ensures r.ret == 0 || r.ret == -EIO
    ensures 1 <= |r.ran| <= |FullOrder()| && r.ran == FullOrder()[..|r.ran|]
    ensures io.aborted ==> r.ret == -EIO
  {
    if SendAkeInit(io.aborted, io.genRtxRet, io.sendRtxRet, io.sendTxCapsRet) < 0 then Exchange(-EIO, [AkeInit])
    else if RecvThenTee(io.aborted, io.recvCertRet, io.verifyCertRet) < 0 then Exchange(-EIO, FullOrder()[..2])
    else
      var km := SendAkeRestoreKm(io.aborted, io.genKmRet, io.sendKmRet);
      if km.ret < 0 then Exchange(-EIO, FullOrder()[..3])
      else if CheckHPrimeReady(io.aborted, io.hPrimePolls) < 0 then Exchange(-EIO, FullOrder()[..4])
      else if RecvThenTee(io.aborted, io.recvHPrimeRet, io.compareHPrimeRet) < 0 then Exchange(-EIO, FullOrder()[..5])
      else if km.isStoredKm == Some(true) then Exchange(0, [AkeInit, AkeCert, AkeRestoreKm, AkeHPrimeReady, AkeHPrime])
      else if CheckPairingReady(io.aborted, io.pairingPolls) < 0 then Exchange(-EIO, FullOrder()[..6])
      else if RecvThenTee(io.aborted, io.recvPairingRet, io.setPairingRet) < 0 then Exchange(-EIO, FullOrder())
      else Exchange(0, FullOrder())
  }

  /** The exchange runs the steps in their fixed order up to and including
      the first that fails, and then returns -EIO; when none fails it runs all
      seven, pairing included, and returns 0. */
  lemma ExchangeMasterKeySpec(io: AkeInputs)
    ensures var r := ExchangeMasterKey(io);
            var rs := StepResults(io);
            && 1 <= |r.ran| <= |FullOrder()| && r.ran == FullOrder()[..|r.ran|]
            && (r.ret == 0 || r.ret == -EIO)
            && (r.ret == -EIO <==> exists i :: 0 <= i < |rs| && rs[i] < 0)
            && (r.ret == -EIO ==> rs[|r.ran| - 1] < 0 && forall i :: 0 <= i < |r.ran| - 1 ==> rs[i] >= 0)
            && (r.ret == 0 ==> r.ran == FullOrder())
  {
    var rs := StepResults(io);
    var r := ExchangeMasterKey(io);
    var full := FullOrder();
    assert full[..|full|] == full;
    if rs[0] < 0 {
      assert r == Exchange(-EIO, [AkeInit]) && [AkeInit] == full[..1];
    } else if rs[1] < 0 {
      assert r == Exchange(-EIO, full[..2]);
    } else if rs[2] < 0 {
      assert r == Exchange(-EIO, full[..3]);
    } else if rs[3] < 0 {
      assert r == Exchange(-EIO, full[..4]);
    } else if rs[4] < 0 {
      assert r == Exchange(-EIO, full[..5]);
    } else if rs[5] < 0 {
      assert r == Exchange(-EIO, full[..6]);
    } else if rs[6] < 0 {
      assert r == Exchange(-EIO, full);
    } else {
      assert r == Exchange(0, full);
    }
  }

  /** An aborted session fails at the first step, before any TEE or link call
      is made. */
  lemma AbortStopsAtInit(io: AkeInputs)
    requires io.aborted
    ensures ExchangeMasterKey(io) == Exchange(-EIO, [AkeInit])
  {
    assert SendAkeInit(io.aborted, io.genRtxRet, io.sendRtxRet, io.sendTxCapsRet) == -ECANCELED;
  }

  /** Pairing runs whenever H' has been received, because no stored master
      key is ever found. */
  lemma PairingAfterHPrime(io: AkeInputs)
    requires AkeHPrime in ExchangeMasterKey(io).ran
    requires StepResults(io)[4] >= 0
    ensures AkePairingReady in ExchangeMasterKey(io).ran
  {
    ExchangeMasterKeySpec(io);
    var r := ExchangeMasterKey(io);
    var full := FullOrder();
    var k :| 0 <= k < |r.ran| && r.ran[k] == AkeHPrime;
    assert full[k] == AkeHPrime;
    assert k == 4;
    if r.ret == -EIO {
      assert StepResults(io)[|r.ran| - 1] < 0;
      assert |r.ran| > 5;
    } else {
      assert r.ran == full;
    }
    assert r.ran[5] == AkePairingReady;
  }
}

=== FILE: hdcp_auth.dfy ===
/**
 The top of HDCP 2.2 authentication over DisplayPort: the receiver capability
 check, the two authentication stages with their error mapping, the
 three-attempt retry loop, and the classification of an HDCP interrupt.

 The steps the stages call (master-key exchange, locality check, session-key
 exchange, receiver-ID list wait and verification, stream management) enter
 as their return codes. The authentication state store
 SET_HDCP_STATE_OR_RETURN is taken to succeed; its refusal path is not part
 of this model.
 */
module HdcpAuth {
  import opened Common
  import opened HdcpLink

  /** RxCaps bits and the version byte that identifies HDCP 2.2. */
  const RXCAPS_REPEATER_BIT: nat := 0
  const RXCAPS_HDCP_CAPABLE_BIT: nat := 1
  const RXCAPS_HDCP_VERSION_2: int := 0x02
  /** Length of the RxCaps register in DPCD. */
  const HDCP_CAPS_BYTE_LEN: nat := 3
  /** Full authentication attempts. */
  const AUTH_ATTEMPTS: nat := 3

  datatype AuthState = AuthIdle | AuthProgress | AuthDone | AuthRp

  /** `auth22_determine_rx_hdcp_cap`: whether the receiver is an HDCP 2.2
      receiver, and then whether it is a repeater. */
  function DetermineRxHdcpCap(recvRet: int, rxcaps: seq<u8>): (r: Result<bool>)
    requires |rxcaps| == HDCP_CAPS_BYTE_LEN
    ensures r.Err? ==> r.code == -EIO
    ensures r.Ok? <==> recvRet == 0 && Bit(rxcaps[2], RXCAPS_HDCP_CAPABLE_BIT) && rxcaps[0] == RXCAPS_HDCP_VERSION_2
    ensures r.Ok? ==> (r.value <==> Bit(rxcaps[2], RXCAPS_REPEATER_BIT))
  {
    if recvRet != 0 then Err(-EIO)
    else if !Bit(rxcaps[2], RXCAPS_HDCP_CAPABLE_BIT) then Err(-EIO)
    else if rxcaps[0] != RXCAPS_HDCP_VERSION_2 then Err(-EIO)
    else Ok(Bit(rxcaps[2], RXCAPS_REPEATER_BIT))
  }

  /** Capability bytes of an HDCP 2.2 receiver: version 2, capable, and the
      repeater bit as given. */
  lemma CapableReceiverAccepted(isRepeater: bool)
    ensures var caps := [RXCAPS_HDCP_VERSION_2, 0, if isRepeater then 3 else 2];
            DetermineRxHdcpCap(0, caps) == Ok(isRepeater)
  {
    assert Pow2(1) == 2;
  }

  /** What a stage returned and how many of its steps ran. */
  datatype StageOutcome = StageOutcome(ret: int, stepsRun: nat)

  /** `hdcp22_dplink_repeater_auth`: wait for the receiver-ID list, verify it,
      manage streams; the first two failures are worth a retry, the last is
      not. */
  function RepeaterAuth(waitRet: int, verifyRet: int, streamRet: int): (r: StageOutcome)
    ensures r.ret == 0 || r.ret == -EAGAIN || r.ret == -EIO
    ensures r.ret == 0 <==> waitRet == 0 && verifyRet == 0 && streamRet == 0
    ensures r.ret == -EAGAIN <==> waitRet != 0 || (waitRet == 0 && verifyRet != 0)
    ensures 1 <= r.stepsRun <= 3 && (r.stepsRun == 3 <==> waitRet == 0 && verifyRet == 0)
  {
    if waitRet != 0 then StageOutcome(-EAGAIN, 1)
    else if verifyRet != 0 then StageOutcome(-EAGAIN, 2)
    else if streamRet != 0 then StageOutcome(-EIO, 3)
    else StageOutcome(0, 3)
  }

  /** What the first stage returned and whether a repeater stage must
      follow. */
  datatype AuthOutcome = AuthOutcome(ret: int, secondStage: bool, stepsRun: nat)

  /** `hdcp22_dplink_authenticate`: capability check, master-key exchange,
      locality check, session-key exchange. An unsupported receiver is final,
      key-exchange and locality failures are worth a retry, a session-key
      failure is an I/O error. */
  function Authenticate(cap: Result<bool>, masterKeyRet: int, localityRet: int, sessionKeyRet: int): (r: AuthOutcome)
    ensures r.ret == 0 || r.ret == -EOPNOTSUPP || r.ret == -EAGAIN || r.ret == -EIO
    ensures r.ret == -EOPNOTSUPP <==> cap.Err?
    ensures r.ret == -EAGAIN <==> cap.Ok? && (masterKeyRet != 0 || localityRet != 0)
    ensures r.ret == 0 <==> cap.Ok? && masterKeyRet == 0 && localityRet == 0 && sessionKeyRet == 0
    ensures cap.Ok? ==> r.secondStage == cap.value
    ensures r.stepsRun == 4 <==> cap.Ok? && masterKeyRet == 0 && localityRet == 0
  {
    match cap
    case Err(_) => AuthOutcome(-EOPNOTSUPP, false, 1)
    case Ok(isRepeater) =>
      if masterKeyRet != 0 then AuthOutcome(-EAGAIN, isRepeater, 2)
      else if localityRet != 0 then AuthOutcome(-EAGAIN, isRepeater, 3)
      else if sessionKeyRet != 0 then AuthOutcome(-EIO, isRepeater, 4)
      else AuthOutcome(0, isRepeater, 4)
  }

  /** What one full attempt of the retry loop sees: the first stage's result,
      whether the receiver is a repeater, and the repeater stage's result
      (only used for repeaters). */
  datatype Attempt = Attempt(auth: int, secondStage: bool, repeater: int)

  /** The result one attempt produces. */
  function AttemptRet(a: Attempt): int {
    if a.auth != 0 then a.auth else if !a.secondStage then 0 else a.repeater
  }

  datatype RunOutcome = RunOutcome(ret: int, state: AuthState, attempts: nat)

  /** The retry loop from attempt `i` on; `last` is the result to report if
      no attempt is left. */
  function Tries(attempts: nat -> Attempt, i: nat, last: int): (r: RunOutcome)
    requires i <= AUTH_ATTEMPTS
    ensures i <= r.attempts <= AUTH_ATTEMPTS
    ensures r.state == AuthDone ==> r.ret == 0 && i < r.attempts
    ensures r.attempts == i ==> i == AUTH_ATTEMPTS && r.ret == last
    decreases AUTH_ATTEMPTS - i
  {
    if i == AUTH_ATTEMPTS then RunOutcome(last, AuthIdle, i)
    else
      var a := attempts(i);
      if a.auth != 0 then
        if a.auth == -EAGAIN then Tries(attempts, i + 1, a.auth) else RunOutcome(a.auth, AuthIdle, i + 1)
      else if !a.secondStage then RunOutcome(0, AuthDone, i + 1)
      else if a.repeater != 0 then
        if a.repeater == -EAGAIN then Tries(attempts, i + 1, a.repeater) else RunOutcome(a.repeater, AuthIdle, i + 1)
      else RunOutcome(0, AuthDone, i + 1)
  }

  /** The loop stops after the first attempt that does not ask for a retry
      or after the last attempt, and reports that attempt's result. */
  lemma {:induction false} TriesSpec(attempts: nat -> Attempt, i: nat, last: int)
    requires i < AUTH_ATTEMPTS
    ensures var r := Tries(attempts, i, last);
            && i < r.attempts <= AUTH_ATTEMPTS
            && (forall j :: i <= j < r.attempts - 1 ==> AttemptRet(attempts(j)) == -EAGAIN)
            && r.ret == AttemptRet(attempts(r.attempts - 1))
            && (r.attempts < AUTH_ATTEMPTS ==> r.ret != -EAGAIN)
            && (r.state == AuthDone <==> r.ret == 0)
            && (r.state == AuthIdle <==> r.ret != 0)
    decreases AUTH_ATTEMPTS - i
  {
    var a := attempts(i);
    if AttemptRet(a) == -EAGAIN && i + 1 < AUTH_ATTEMPTS {
      TriesSpec(attempts, i + 1, -EAGAIN);
    }
  }

  /** `run_hdcp2_auth`. When an interrupt has left the state at RP, the
      repeater stage (with result `rpRet`) is tried first; success ends there,
      and only a retry request falls through to full authentication. */
  function RunHdcp2Auth(state: AuthState, rpRet: int, attempts: nat -> Attempt): (r: RunOutcome)
    ensures r.attempts <= AUTH_ATTEMPTS
    ensures r.state == AuthDone <==> r.ret == 0
    ensures r.state == AuthIdle <==> r.ret != 0
    ensures state == AuthRp && rpRet == 0 ==> r == RunOutcome(0, AuthDone, 0)
    ensures state == AuthRp && rpRet != 0 && rpRet != -EAGAIN ==> r == RunOutcome(rpRet, AuthIdle, 0)
    ensures state != AuthRp || rpRet == -EAGAIN ==>
              && r.attempts >= 1
              && (forall j :: 0 <= j < r.attempts - 1 ==> AttemptRet(attempts(j)) == -EAGAIN)
              && r.ret == AttemptRet(attempts(r.attempts - 1))
              && (r.attempts < AUTH_ATTEMPTS ==> r.ret != -EAGAIN)
  {
    if state == AuthRp && rpRet == 0 then RunOutcome(0, AuthDone, 0)
    else if state == AuthRp && rpRet != -EAGAIN then RunOutcome(rpRet, AuthIdle, 0)
    else
      TriesSpec(attempts, 0, rpRet);
      Tries(attempts, 0, rpRet)
  }

  /** Three retry requests in a row give up with -EAGAIN. */
  lemma RetryExhaustion(attempts: nat -> Attempt)
    requires forall j :: 0 <= j < AUTH_ATTEMPTS ==> AttemptRet(attempts(j)) == -EAGAIN
    ensures RunHdcp2Auth(AuthIdle, 0, attempts) == RunOutcome(-EAGAIN, AuthIdle, AUTH_ATTEMPTS)
  {
    var r := RunHdcp2Auth(AuthIdle, 0, attempts);
    assert AttemptRet(attempts(r.attempts - 1)) == -EAGAIN;
  }

  /** What an HDCP interrupt means, and whether it moved the state to RP. */
  datatype IrqOutcome = IrqOutcome(ret: int, setRp: bool)

  /** `hdcp22_dplink_handle_irq`: a link-integrity failure wins over a
      re-authentication request, which wins over READY (a repeater's topology
      changed: re-run the repeater stage). */
  function HandleIrq(recvRet: int, rxstatus: u8): (r: IrqOutcome)
    ensures r.setRp <==> r.ret == -EAGAIN
    ensures recvRet != 0 ==> r == IrqOutcome(-EIO, false)
    ensures recvRet == 0 ==>
              && (Bit(rxstatus, RXSTATUS_LINK_FAILED) || Bit(rxstatus, RXSTATUS_REAUTH_REQ) <==> r.ret == -EFAULT)
              && (r.setRp <==>
                    (!Bit(rxstatus, RXSTATUS_LINK_FAILED) && !Bit(rxstatus, RXSTATUS_REAUTH_REQ)
                     && Bit(rxstatus, RXSTATUS_READY)))
              && (r.ret == -EINVAL <==>
                    (!Bit(rxstatus, RXSTATUS_LINK_FAILED) && !Bit(rxstatus, RXSTATUS_REAUTH_REQ)
                     && !Bit(rxstatus, RXSTATUS_READY)))
  {
    if recvRet != 0 then IrqOutcome(-EIO, false)
    else if Bit(rxstatus, RXSTATUS_LINK_FAILED) then IrqOutcome(-EFAULT, false)
    else if Bit(rxstatus, RXSTATUS_REAUTH_REQ) then IrqOutcome(-EFAULT, false)
    else if Bit(rxstatus, RXSTATUS_READY) then IrqOutcome(-EAGAIN, true)
    else IrqOutcome(-EINVAL, false)
  }

  /** After a READY interrupt, a successful repeater stage completes
      authentication without any full attempt. */
  lemma ReadyIrqThenRepeaterStage(rxstatus: u8, attempts: nat -> Attempt)
    requires HandleIrq(0, rxstatus).setRp
    ensures RunHdcp2Auth(AuthRp, 0, attempts) == RunOutcome(0, AuthDone, 0)
    ensures Bit(rxstatus, RXSTATUS_READY) && !Bit(rxstatus, RXSTATUS_LINK_FAILED)
  {
  }
}

=== FILE: hdcp_link.dfy ===
/**
 What the HDCP 2.2 DisplayPort driver reads from the receiver: the RxStatus
 byte with its flag bits, and the bounded polling of that byte that several
 authentication steps share.

 The RxStatus bit positions follow the HDCP 2.2 mapping to DisplayPort as the
 kernel's drm_hdcp.h encodes it: READY bit 0, H' available bit 1, PAIRING
 available bit 2, REAUTH_REQ bit 3, LINK_INTEGRITY_FAILURE bit 4.
 */
module HdcpLink {
  import opened Common

  const RXSTATUS_READY: nat := 0
  const RXSTATUS_H_PRIME: nat := 1
  const RXSTATUS_PAIRING: nat := 2
  const RXSTATUS_REAUTH_REQ: nat := 3
  const RXSTATUS_LINK_FAILED: nat := 4

  /** Bit `n` of `x`. */
  function Bit(x: nat, n: nat): bool {
    (x / Pow2(n)) % 2 == 1
  }

  lemma BitOfZero(n: nat)
    ensures !Bit(0, n)
  {
  }

  /** A failed DPCD access: a nonzero return of the link layer. */
  type Failure = x: int | x != 0 witness -5

  /** What one iteration of a polling loop observes: the session was aborted,
      the RxStatus read failed, or the byte that was read. */
  datatype Poll = Aborted | ReadFail(code: Failure) | Status(s: u8)

  /** How a polling loop ended. */
  datatype PollResult = Ready | Cancelled | ReadError(code: Failure) | Unexpected(s: u8) | TimedOut

  /** Whether an iteration leaves the loop going: a successful read of an
      all-zero status. */
  predicate Idle(p: Poll) {
    p == Status(0)
  }

  /** The loop shape shared by the receiver-ID-list, H' and pairing waits:
      iterations `i` to `limit - 1` of polling RxStatus for bit `want`. Each
      iteration checks for an abort, then reads RxStatus; the wanted bit ends
      the wait, any other nonzero status is an error, and zero sleeps and
      polls again. */
  function PollUntil(polls: nat -> Poll, i: nat, limit: nat, want: nat): (r: PollResult)
    ensures r.Cancelled? ==> exists k :: i <= k < limit && polls(k).Aborted?
    ensures r.Ready? ==> exists k :: i <= k < limit && polls(k).Status? && Bit(polls(k).s, want)
    ensures r.Unexpected? ==> r.s != 0 && !Bit(r.s, want)
    decreases limit - i
  {
    if i >= limit then TimedOut
    else match polls(i)
      case Aborted => Cancelled
      case ReadFail(c) => ReadError(c)
      case Status(s) =>
        if Bit(s, want) then Ready
        else if s != 0 then Unexpected(s)
        else PollUntil(polls, i + 1, limit, want)
  }

  /** The first iteration that does not just poll again. */
  predicate StopsAt(polls: nat -> Poll, i: nat, j: nat) {
    i <= j && !Idle(polls(j)) && forall k :: i <= k < j ==> Idle(polls(k))
  }

  /** The wait times out exactly when every iteration reads a zero status, and
      otherwise ends with the first iteration that does not, classified by
      what it observed. */
  lemma {:induction false} PollUntilSpec(polls: nat -> Poll, i: nat, limit: nat, want: nat)
    ensures PollUntil(polls, i, limit, want).TimedOut? <==> forall k :: i <= k < limit ==> Idle(polls(k))
    ensures forall j: nat :: j < limit && StopsAt(polls, i, j) ==>
              PollUntil(polls, i, limit, want) == Classify(polls(j), want)
    decreases limit - i
  {
    if i < limit {
      PollUntilSpec(polls, i + 1, limit, want);
      if Idle(polls(i)) {
        BitOfZero(want);
        forall j: nat | j < limit && StopsAt(polls, i, j)
          ensures PollUntil(polls, i, limit, want) == Classify(polls(j), want)
        {
          assert j != i;
          assert StopsAt(polls, i + 1, j);
        }
      } else {
        assert forall j: nat :: StopsAt(polls, i, j) ==> j == i;
      }
    }
  }

  /** How an iteration that does not poll again ends the wait. */
  function Classify(p: Poll, want: nat): (r: PollResult)
    requires !Idle(p)
    ensures r != TimedOut
  {
    match p
    case Aborted => Cancelled
    case ReadFail(c) => ReadError(c)
    case Status(s) => if Bit(s, want) then Ready else Unexpected(s)
  }

  /** The wait reads RxStatus at most `limit` times: it does not look at
      iterations from `limit` on. */
  lemma {:induction false} PollUntilBounded(p1: nat -> Poll, p2: nat -> Poll, i: nat, limit: nat, want: nat)
    requires forall k :: i <= k < limit ==> p1(k) == p2(k)
    ensures PollUntil(p1, i, limit, want) == PollUntil(p2, i, limit, want)
    decreases limit - i
  {
    if i < limit {
      PollUntilBounded(p1, p2, i + 1, limit, want);
    }
  }
}

=== FILE: hdcp_repeater.dfy ===
/**
 The repeater stage of HDCP 2.2 authentication over DisplayPort: waiting for
 the repeater's RepeaterAuth_Send_ReceiverID_List message, decoding its 2-byte
 RxInfo field, and checking the topology it reports before the TEE verifies V'.

 RCV_ID_LEN is the 5-byte receiver ID of the HDCP 2.2 specification and
 RCV_DEVS_COUNT_MAX the device limit the driver checks (31, the most the 5-bit
 DEVICE_COUNT field can hold).
 */
module HdcpRepeater {
  import opened Common
  import opened HdcpLink

  const RCV_ID_LEN: nat := 5
  const RCV_DEVS_COUNT_MAX: nat := 31
  /** Polls of RxStatus while waiting for the list (110 ms apart). */
  const RECEIVER_ID_LIST_POLLS: nat := 30

  /** The decoded RxInfo field. Each member is a `uint8_t` in the driver. */
  datatype RxInfo = RxInfo(
    depth: nat,
    devCount: nat,
    maxDevExd: nat,
    maxCascadeExd: nat,
    hdcp20Downstream: nat,
    hdcp1xDownstream: nat)
  {
    /** Whether every field fits its width in the 16-bit RxInfo word. */
    predicate WellFormed() {
      depth < 8 && devCount < 32 && maxDevExd < 2 && maxCascadeExd < 2
      && hdcp20Downstream < 2 && hdcp1xDownstream < 2
    }
  }

  /** `rxinfo_convert_arr2st`: the two bytes as a big-endian word, cut into
      DEPTH (bits 11..9), DEVICE_COUNT (bits 8..4), MAX_DEVS_EXCEEDED (bit 3),
      MAX_CASCADE_EXCEEDED (bit 2), HDCP2_0_REPEATER_DOWNSTREAM (bit 1) and
      HDCP1_DEVICE_DOWNSTREAM (bit 0). */
  function ConvertArr2St(arr: seq<u8>): (st: RxInfo)
    requires |arr| == 2
    ensures st.WellFormed()
  {
    var v: nat := arr[0] as nat * 256 + arr[1] as nat;
    RxInfo((v / 512) % 8, (v / 16) % 32, (v / 8) % 2, (v / 4) % 2, (v / 2) % 2, v % 2)
  }

  /** The RxInfo bytes a repeater sends for a given topology; bits 15..12
      are reserved and zero. */
  function Encode(st: RxInfo): (arr: seq<u8>)
    requires st.WellFormed()
    ensures |arr| == 2 && arr[0] < 16
  {
    var v := Word(st);
    [v / 256, v % 256]
  }

  /** Division by a positive constant, stated by its quotient and remainder. */
  lemma DivMod(x: int, d: int, q: int, r: int)
    requires d > 0 && 0 <= r < d && x == q * d + r
    ensures x / d == q && x % d == r
  {
    var k := x / d - q;
    assert k * d == (x / d) * d - q * d;
    OnlyZeroMultipleBelow(k, d);
  }

  lemma OnlyZeroMultipleBelow(k: int, d: int)
    requires d > 0 && -d < k * d < d
    ensures k == 0
  {
    if k >= 1 {
      MulAtLeast(k, d);
    } else if k <= -1 {
      MulAtLeast(-k, d);
    }
  }

  lemma {:induction false} MulAtLeast(k: int, d: int)
    requires k >= 1 && d > 0
    ensures k * d >= d
    decreases k
  {
    if k > 1 {
      MulAtLeast(k - 1, d);
      assert k * d == (k - 1) * d + d;
    }
  }

  /** Decoding recovers every field a repeater encodes. */
  lemma DecodeEncode(st: RxInfo)
    requires st.WellFormed()
    ensures ConvertArr2St(Encode(st)) == st
  {
    var v := Word(st);
    var arr := Encode(st);
    DivMod(v, 256, v / 256, v % 256);
    assert arr[0] as nat * 256 + arr[1] as nat == v;
    WordHigh(st);
    WordMiddle(st);
    WordLow(st);
  }

  lemma WordHigh(st: RxInfo)
    requires st.WellFormed()
    ensures (Word(st) / 512) % 8 == st.depth && (Word(st) / 16) % 32 == st.devCount
  {
    var d, c := st.depth, st.devCount;
    var low := st.maxDevExd * 8 + st.maxCascadeExd * 4 + st.hdcp20Downstream * 2 + st.hdcp1xDownstream;
    DivMod(Word(st), 512, d, c * 16 + low);
    DivMod(d, 8, 0, d);
    DivMod(Word(st), 16, d * 32 + c, low);
    DivMod(d * 32 + c, 32, d, c);
  }

  lemma WordMiddle(st: RxInfo)
    requires st.WellFormed()
    ensures (Word(st) / 8) % 2 == st.maxDevExd && (Word(st) / 4) % 2 == st.maxCascadeExd
  {
    var d, c, b3, b2 := st.depth, st.devCount, st.maxDevExd, st.maxCascadeExd;
    var b1, b0 := st.hdcp20Downstream, st.hdcp1xDownstream;
    DivMod(Word(st), 8, d * 64 + c * 2 + b3, b2 * 4 + b1 * 2 + b0);
    DivMod(d * 64 + c * 2 + b3, 2, d * 32 + c, b3);
    DivMod(Word(st), 4, d * 128 + c * 4 + b3 * 2 + b2, b1 * 2 + b0);
    DivMod(d * 128 + c * 4 + b3 * 2 + b2, 2, d * 64 + c * 2 + b3, b2);
  }

  lemma WordLow(st: RxInfo)
    requires st.WellFormed()
    ensures (Word(st) / 2) % 2 == st.hdcp20Downstream && Word(st) % 2 == st.hdcp1xDownstream
  {
    var d, c, b3, b2 := st.depth, st.devCount, st.maxDevExd, st.maxCascadeExd;
    var b1, b0 := st.hdcp20Downstream, st.hdcp1xDownstream;
    var h := d * 256 + c * 8 + b3 * 4 + b2 * 2;
    DivMod(Word(st), 2, h + b1, b0);
    DivMod(h + b1, 2, d * 128 + c * 4 + b3 * 2 + b2, b1);
  }

  /** The value of a well-formed RxInfo as a 12-bit word. */
  function Word(st: RxInfo): nat {
    st.depth * 512 + st.devCount * 16 + st.maxDevExd * 8 + st.maxCascadeExd * 4
    + st.hdcp20Downstream * 2 + st.hdcp1xDownstream
  }

  /** Decoding keeps exactly the low 12 bits of the word. */
  lemma ConvertKeepsLowBits(v: nat, st: RxInfo)
    requires st == RxInfo((v / 512) % 8, (v / 16) % 32, (v / 8) % 2, (v / 4) % 2, (v / 2) % 2, v % 2)
    ensures Word(st) == v % 4096
  {
    var u := v % 4096;
    var hi := v / 4096;
    DivMod(v, 4096, hi, u);
    var d, rd := u / 512, u % 512;
    DivMod(u, 512, d, rd);
    DivMod(v, 512, hi * 8 + d, rd);
    DivMod(hi * 8 + d, 8, hi, d);
    var c, rc := rd / 16, rd % 16;
    DivMod(rd, 16, c, rc);
    DivMod(v, 16, hi * 256 + d * 32 + c, rc);
    DivMod(hi * 256 + d * 32 + c, 32, hi * 8 + d, c);
    var e, re := rc / 8, rc % 8;
    DivMod(rc, 8, e, re);
    DivMod(v, 8, hi * 512 + d * 64 + c * 2 + e, re);
    DivMod(hi * 512 + d * 64 + c * 2 + e, 2, hi * 256 + d * 32 + c, e);
    var f, rf := re / 4, re % 4;
    DivMod(re, 4, f, rf);
    DivMod(v, 4, hi * 1024 + d * 128 + c * 4 + e * 2 + f, rf);
    DivMod(hi * 1024 + d * 128 + c * 4 + e * 2 + f, 2, hi * 512 + d * 64 + c * 2 + e, f);
    var g, rg := rf / 2, rf % 2;
    DivMod(rf, 2, g, rg);
    DivMod(v, 2, hi * 2048 + d * 256 + c * 8 + e * 4 + f * 2 + g, rg);
    DivMod(hi * 2048 + d * 256 + c * 8 + e * 4 + f * 2 + g, 2, hi * 1024 + d * 128 + c * 4 + e * 2 + f, g);
  }

  /** Encoding the decoded field gives the bytes back exactly when the
      reserved bits 15..12 were zero: decoding loses only those. */
  lemma EncodeDecode(arr: seq<u8>)
    requires |arr| == 2
    ensures Encode(ConvertArr2St(arr)) == arr <==> arr[0] < 16
  {
    var v: nat := arr[0] as nat * 256 + arr[1] as nat;
    var st := ConvertArr2St(arr);
    ConvertKeepsLowBits(v, st);
    var w := Word(st);
    assert Encode(st) == [w / 256, w % 256];
    DivMod(v, 256, arr[0], arr[1]);
    if arr[0] < 16 {
      DivMod(v, 4096, 0, v);
    } else {
      DivMod(w, 256, w / 256, w % 256);
    }
  }

  /** `cal_rcvid_list_size`: the receiver-ID list is one ID per device. */
  function ListSize(st: RxInfo): (n: nat)
    requires st.WellFormed()
    ensures n % RCV_ID_LEN == 0 && n / RCV_ID_LEN == st.devCount
    ensures n <= RCV_DEVS_COUNT_MAX * RCV_ID_LEN
  {
    RCV_ID_LEN * st.devCount
  }

  /** `auth22_wait_for_receiver_id_list`: up to 30 polls of RxStatus for the
      READY bit. */
  function WaitForReceiverIdList(polls: nat -> Poll): (ret: int)
    ensures ret == 0 || ret == -ECANCELED || ret == -EIO || ret == -ETIMEDOUT
            || PollUntil(polls, 0, RECEIVER_ID_LIST_POLLS, RXSTATUS_READY).ReadError?
    ensures ret == -ETIMEDOUT <== forall k :: 0 <= k < RECEIVER_ID_LIST_POLLS ==> Idle(polls(k))
    ensures forall j: nat :: j < RECEIVER_ID_LIST_POLLS && StopsAt(polls, 0, j) ==>
              match polls(j)
              case Aborted => ret == -ECANCELED
              case ReadFail(c) => ret == c
              case Status(s) => ret == (if Bit(s, RXSTATUS_READY) then 0 else -EIO)
  {
    PollUntilSpec(polls, 0, RECEIVER_ID_LIST_POLLS, RXSTATUS_READY);
    match PollUntil(polls, 0, RECEIVER_ID_LIST_POLLS, RXSTATUS_READY)
    case Ready => 0
    case Cancelled => -ECANCELED
    case ReadError(c) => c
    case Unexpected(_) => -EIO
    case TimedOut => -ETIMEDOUT
  }

  /** The link and TEE results the verification step sees, in call order:
      the abort flag, the reads of RxInfo, seq_num_V, V' and the receiver-ID
      list, the TEE's V computation with its `valid` verdict, and the write of
      V. Nonzero means failure. */
  datatype VerifyInputs = VerifyInputs(
    aborted: bool,
    rxInfoRet: int,
    rxInfo: seq<u8>,
    seqNumVRet: int,
    vPrimeRet: int,
    listRet: int,
    teeRet: int,
    valid: u8,
    sendVRet: int)

  /** What verification did: its result, how many bytes of receiver-ID list
      it asked for, whether it consulted the TEE and whether it sent V. */
  datatype VerifyOutcome = VerifyOutcome(ret: int, listLen: nat, teeConsulted: bool, vSent: bool)

  /** The topology checks of auth22-repeater.c lines 145-160: too many devices, a depth or
      device overflow, or a legacy device downstream. */
  predicate TopologyRejected(st: RxInfo) {
    || st.devCount >= RCV_DEVS_COUNT_MAX || st.maxDevExd != 0
    || st.maxCascadeExd != 0
    || st.hdcp20Downstream != 0 || st.hdcp1xDownstream != 0
  }

  /** `auth22_verify_receiver_id_list`. */
  function VerifyReceiverIdList(io: VerifyInputs): (r: VerifyOutcome)
    requires |io.rxInfo| == 2
    ensures r.ret == 0 || r.ret == -ECANCELED || r.ret == -EIO
    ensures r.vSent ==> r.teeConsulted && io.teeRet == 0 && io.valid != 0
    ensures r.ret == 0 <==>
              && !io.aborted && io.rxInfoRet == 0 && io.seqNumVRet == 0 && io.vPrimeRet == 0
              && io.listRet == 0 && !TopologyRejected(ConvertArr2St(io.rxInfo))
              && io.teeRet == 0 && io.valid != 0 && io.sendVRet == 0
    ensures r.ret == 0 ==> r.vSent && r.listLen == ListSize(ConvertArr2St(io.rxInfo))
    ensures io.aborted ==> r == VerifyOutcome(-ECANCELED, 0, false, false)
    ensures TopologyRejected(ConvertArr2St(io.rxInfo)) ==> r.ret != 0 && !r.teeConsulted && !r.vSent
  {
    if io.aborted then VerifyOutcome(-ECANCELED, 0, false, false)
    else if io.rxInfoRet != 0 || io.seqNumVRet != 0 || io.vPrimeRet != 0 then VerifyOutcome(-EIO, 0, false, false)
    else
      var st := ConvertArr2St(io.rxInfo);
      var len := ListSize(st);
      if io.listRet != 0 then VerifyOutcome(-EIO, len, false, false)
      else if st.devCount >= RCV_DEVS_COUNT_MAX || st.maxDevExd != 0 then VerifyOutcome(-EIO, len, false, false)
      else if st.maxCascadeExd != 0 then VerifyOutcome(-EIO, len, false, false)
      else if st.hdcp20Downstream != 0 || st.hdcp1xDownstream != 0 then VerifyOutcome(-EIO, len, false, false)
      else if io.teeRet != 0 then VerifyOutcome(-EIO, len, true, false)
      else if io.valid == 0 then VerifyOutcome(-EIO, len, true, false)
      else if io.sendVRet != 0 then VerifyOutcome(-EIO, len, true, true)
      else VerifyOutcome(0, len, true, true)
  }

  /** Only a direct topology passes: a repeater reporting any downstream
      device beyond the limit, any overflow or any legacy device is refused
      whatever the TEE would say. */
  lemma AcceptedTopology(io: VerifyInputs)
    requires |io.rxInfo| == 2
    requires VerifyReceiverIdList(io).ret == 0
    ensures var st := ConvertArr2St(io.rxInfo);
            st.devCount < RCV_DEVS_COUNT_MAX && st.maxDevExd == 0 && st.maxCascadeExd == 0
            && st.hdcp20Downstream == 0 && st.hdcp1xDownstream == 0
            && ListSize(st) < RCV_DEVS_COUNT_MAX * RCV_ID_LEN
  {
  }
}

=== FILE: hl7132.dfy ===
/**
 The pure helpers of the HL7132 direct charger: the input current limit read
 back from its register, the register range regmap may access, the
 power-supply properties user space may write, the device-tree defaulting of
 the platform data, and two debugfs setters.

 The register numbers HL7132_REG_DEVICE_ID and HL7132_REG_ADC_TDIE_1, the
 field mask HL7132_BITS_IIN_REG_TH, HL7132_MAX_INIT_RETRY_DFT,
 TA_TYPE_USBPD and CHG_2TO1_DC_MODE are defined outside this file; the
 first four enter as parameters. Device-tree reads enter as their outcome:
 None when the property is missing, otherwise the `u32` read.
 */
module Hl7132 {
  import opened Common

  type u32 = x: int | 0 <= x < U32_MODULUS

  /** Input current limit register: 50 mA per step, at least 1 A. */
  const IIN_STEP_UA: nat := 50000
  const IIN_MIN_UA: nat := 1000000

  /** An `int` holding an `unsigned int`: values from 2^31 on wrap to
      negative. */
  function AsInt32(x: u32): (r: int)
    ensures -0x8000_0000 <= r < 0x8000_0000
    ensures x < 0x8000_0000 ==> r == x
  {
    if x < 0x8000_0000 then x else x - U32_MODULUS
  }

  /** `val & mask` on two `unsigned int`s. */
  function And32(val: u32, mask: u32): (f: u32) {
    ((val as bv32) & (mask as bv32)) as int
  }

  /** The current the IIN_REG field selects, formed in `unsigned int` and
      stored in an `int`, raised to the 1 A minimum. */
  function FieldCurrent(f: u32): (r: int)
    ensures r >= IIN_MIN_UA
  {
    var intval := AsInt32(ToU32(f * IIN_STEP_UA));
    if intval < IIN_MIN_UA then IIN_MIN_UA else intval
  }

  /** `hl7132_input_current_limit`: -ENODATA while the mains are online, the
      read's error when it fails, and otherwise the current of the field
      under `iinRegTh`, at least 1 A. */
  function InputCurrentLimit(mainsOnline: bool, readRet: int, val: u32, iinRegTh: u32): (r: int)
    ensures mainsOnline ==> r == -ENODATA
    ensures !mainsOnline && readRet < 0 ==> r == readRet
    ensures !mainsOnline && readRet >= 0 ==> r == FieldCurrent(And32(val, iinRegTh)) && r >= IIN_MIN_UA
  {
    if mainsOnline then -ENODATA
    else if readRet < 0 then readRet
    else FieldCurrent(And32(val, iinRegTh))
  }

  /** While the product stays below 2^31 the limit is the larger of the
      field's current (50 mA per step) and 1 A. */
  lemma FieldCurrentValue(f: u32)
    requires f * IIN_STEP_UA < 0x8000_0000
    ensures f * IIN_STEP_UA >= IIN_MIN_UA ==> FieldCurrent(f) == f * IIN_STEP_UA
    ensures f * IIN_STEP_UA < IIN_MIN_UA ==> FieldCurrent(f) == IIN_MIN_UA
  {
    var p := f * IIN_STEP_UA;
    assert ToU32(p) == p && AsInt32(ToU32(p)) == p;
  }

  /** A wider field never reads back as a smaller limit, as long as the
      product stays below 2^31. */
  lemma FieldCurrentMonotone(f1: u32, f2: u32)
    requires f1 <= f2 && f2 * IIN_STEP_UA < 0x8000_0000
    ensures FieldCurrent(f1) <= FieldCurrent(f2)
  {
    FieldCurrentValue(f1);
    FieldCurrentValue(f2);
  }

  /** `hl7132_is_reg`, the regmap readable and volatile predicate: the
      registers from DEVICE_ID to ADC_TDIE_1, both included. */
  function IsReg(deviceId: nat, adcTdie1: nat, reg: nat): (b: bool)
    ensures b ==> deviceId <= reg <= adcTdie1
    ensures deviceId <= reg <= adcTdie1 ==> b
  {
    deviceId <= reg <= adcTdie1
  }

  /** The power-supply and GBMS properties the mains supply names. */
  datatype Property =
    | PropOnline | PropConstantChargeCurrentMax | PropConstantChargeVoltage
    | PropConstantChargeVoltageMax | PropCurrentMax
    | GbmsPropChargingEnabled | GbmsPropChargeDisable
    | OtherProp(code: int)

  /** `hl7132_mains_is_writeable`. */
  function MainsIsWriteable(p: Property): (w: bool)
    ensures w <==> p in {PropOnline, PropConstantChargeCurrentMax, PropConstantChargeVoltage,
                         PropConstantChargeVoltageMax, PropCurrentMax}
  {
    match p
    case PropOnline => true
    case PropConstantChargeCurrentMax => true
    case PropConstantChargeVoltage => true
    case PropConstantChargeVoltageMax => true
    case PropCurrentMax => true
    case _ => false
  }

  /** `hl7132_gbms_mains_is_writeable`. */
  function GbmsMainsIsWriteable(p: Property): (w: bool)
    ensures w <==> p in {PropOnline, PropConstantChargeCurrentMax, PropConstantChargeVoltage,
                         PropConstantChargeVoltageMax, PropCurrentMax,
                         GbmsPropChargingEnabled, GbmsPropChargeDisable}
  {
    match p
    case GbmsPropChargingEnabled => true
    case GbmsPropChargeDisable => true
    case _ => MainsIsWriteable(p)
  }

  /** The GBMS view can write everything the plain view can, and in addition
      exactly the two charging-enable properties. */
  lemma GbmsExtendsMains(p: Property)
    ensures MainsIsWriteable(p) ==> GbmsMainsIsWriteable(p)
    ensures GbmsMainsIsWriteable(p) && !MainsIsWriteable(p) <==>
              p == GbmsPropChargingEnabled || p == GbmsPropChargeDisable
    ensures forall n :: !GbmsMainsIsWriteable(OtherProp(n))
  {
  }

  // Device-tree defaults.
  const HL7132_IIN_CFG_DFT: nat := 2500000
  const HL7132_TA_MAX_VOL: nat := 9800000
  const HL7132_VBAT_REG_DFT: nat := 4350000
  const HL7132_IIN_DONE_DFT: nat := 500000
  const HL7132_FSW_CFG_DFT: nat := 3
  const HL7132_IIN_MAX_OFFSET: nat := 0
  const HL7132_IIN_CC_COMP_OFFSET: nat := 25000
  const HL7132_TA_VOL_PRE_OFFSET: nat := 500000

  /** The `hl7132,*` device-tree properties: None when missing. */
  datatype DtProps = DtProps(
    inputCurrentLimit: Option<u32>, taMaxVol: Option<u32>, taMaxVolCp: Option<u32>,
    vbatRegVoltage: Option<u32>, inputItopoff: Option<u32>, switchingFrequency: Option<u32>,
    iinMaxOffset: Option<u32>, iinCcCompOffset: Option<u32>, taVolOffset: Option<u32>,
    maxInitRetry: Option<u32>)

  /** The platform data `of_hl7132_dt` fills in. */
  datatype PlatformData = PlatformData(
    iinCfgMax: nat, iinCfg: nat, taMaxVol: nat, taMaxVolCp: nat, vbatRegDt: nat, vbatReg: nat,
    iinTopoff: nat, fswCfg: nat, iinMaxOffset: nat, iinCcCompOffset: nat, taVolOffset: nat,
    maxInitRetry: nat)

  /** Every field but the two offsets the ta-vol-offset block touches:
      present properties are taken, missing ones default, the configured
      input current and float voltage follow their maxima, and a missing
      `ta-max-vol-cp` follows `ta-max-vol`. */
  function CommonFields(dt: DtProps, maxInitRetryDft: u32): (p: PlatformData)
    ensures p.iinCfg == p.iinCfgMax && p.vbatReg == p.vbatRegDt
  {
    var taMaxVol := dt.taMaxVol.GetOr(HL7132_TA_MAX_VOL);
    var iinCfgMax := dt.inputCurrentLimit.GetOr(HL7132_IIN_CFG_DFT);
    var vbatRegDt := dt.vbatRegVoltage.GetOr(HL7132_VBAT_REG_DFT);
    PlatformData(
      iinCfgMax, iinCfgMax, taMaxVol, dt.taMaxVolCp.GetOr(taMaxVol), vbatRegDt, vbatRegDt,
      dt.inputItopoff.GetOr(HL7132_IIN_DONE_DFT), dt.switchingFrequency.GetOr(HL7132_FSW_CFG_DFT),
      dt.iinMaxOffset.GetOr(HL7132_IIN_MAX_OFFSET), dt.iinCcCompOffset.GetOr(HL7132_IIN_CC_COMP_OFFSET),
      0, dt.maxInitRetry.GetOr(maxInitRetryDft))
  }

  /** `of_hl7132_dt` as written, on the zeroed data probe hands it: a
      missing `ta-vol-offset` stores the TA voltage default into
      `iin_cc_comp_offset`, overwriting the compensation offset just read,
      and leaves `ta_vol_offset` at 0. No device-tree node is -EINVAL. */
  function OfHl7132DtAsWritten(node: Option<DtProps>, maxInitRetryDft: u32): (r: Result<PlatformData>)
    ensures node.None? <==> r == Err(-EINVAL)
    ensures node.Some? && node.value.taVolOffset.None? ==>
              r.Ok? && r.value.iinCcCompOffset == HL7132_TA_VOL_PRE_OFFSET && r.value.taVolOffset == 0
  {
    match node
    case None => Err(-EINVAL)
    case Some(dt) =>
      var p := CommonFields(dt, maxInitRetryDft);
      match dt.taVolOffset
      case Some(v) => Ok(p.(taVolOffset := v))
      case None => Ok(p.(iinCcCompOffset := HL7132_TA_VOL_PRE_OFFSET))
  }

  /** A board that sets `iin-cc_comp-offset` but not `ta-vol-offset` loses
      its compensation offset: it reads back as 500000, a voltage. */
  lemma CompOffsetOverwritten(dt: DtProps)
    requires dt.iinCcCompOffset == Some(30000) && dt.taVolOffset.None?
    ensures OfHl7132DtAsWritten(Some(dt), 0).value.iinCcCompOffset == 500000
    ensures OfHl7132DtAsWritten(Some(dt), 0).value.iinCcCompOffset != 30000
  {
  }

  /** `of_hl7132_dt` with the default going where the block's property and
      its log line point: a missing `ta-vol-offset` defaults
      `ta_vol_offset`. Every field is then the property when present and its
      own default when missing. */
  function OfHl7132Dt(node: Option<DtProps>, maxInitRetryDft: u32): (r: Result<PlatformData>)
    ensures node.None? <==> r == Err(-EINVAL)
    ensures node.Some? ==> r.Ok? && DefaultsApplied(node.value, maxInitRetryDft, r.value)
  {
    match node
    case None => Err(-EINVAL)
    case Some(dt) =>
      Ok(CommonFields(dt, maxInitRetryDft).(taVolOffset := dt.taVolOffset.GetOr(HL7132_TA_VOL_PRE_OFFSET)))
  }

  /** Field `f` is the property `prop` when present and `dft` otherwise. */
  predicate TakesOr(prop: Option<u32>, dft: nat, f: nat) {
    (prop.Some? ==> f == prop.value) && (prop.None? ==> f == dft)
  }

  /** The defaulting rule of the device-tree reader, field by field. */
  predicate DefaultsApplied(dt: DtProps, maxInitRetryDft: u32, p: PlatformData) {
    && TakesOr(dt.inputCurrentLimit, HL7132_IIN_CFG_DFT, p.iinCfgMax) && p.iinCfg == p.iinCfgMax
    && TakesOr(dt.taMaxVol, HL7132_TA_MAX_VOL, p.taMaxVol)
    && TakesOr(dt.taMaxVolCp, p.taMaxVol, p.taMaxVolCp)
    && TakesOr(dt.vbatRegVoltage, HL7132_VBAT_REG_DFT, p.vbatRegDt) && p.vbatReg == p.vbatRegDt
    && TakesOr(dt.inputItopoff, HL7132_IIN_DONE_DFT, p.iinTopoff)
    && TakesOr(dt.switchingFrequency, HL7132_FSW_CFG_DFT, p.fswCfg)
    && TakesOr(dt.iinMaxOffset, HL7132_IIN_MAX_OFFSET, p.iinMaxOffset)
    && TakesOr(dt.iinCcCompOffset, HL7132_IIN_CC_COMP_OFFSET, p.iinCcCompOffset)
    && TakesOr(dt.taVolOffset, HL7132_TA_VOL_PRE_OFFSET, p.taVolOffset)
    && TakesOr(dt.maxInitRetry, maxInitRetryDft, p.maxInitRetry)
  }

  /** The two readers differ only when `ta-vol-offset` is missing, and then
      only in the two offsets. */
  lemma DtReadersAgreeWithOffset(dt: DtProps, maxInitRetryDft: u32)
    ensures dt.taVolOffset.Some? ==> OfHl7132DtAsWritten(Some(dt), maxInitRetryDft) == OfHl7132Dt(Some(dt), maxInitRetryDft)
    ensures var a := OfHl7132DtAsWritten(Some(dt), maxInitRetryDft).value;
            var c := OfHl7132Dt(Some(dt), maxInitRetryDft).value;
            a.(iinCcCompOffset := 0, taVolOffset := 0) == c.(iinCcCompOffset := 0, taVolOffset := 0)
  {
  }

  /** The charger state the debugfs setters change. */
  datatype Charger = Charger(ftmMode: bool, taType: int, chgMode: nat, taMaxVol: nat, pdata: PlatformData)

  /** `debug_ftm_mode_set`: a nonzero value enters factory test mode with a
      USB-PD adapter in 2:1 direct-charging mode; zero only leaves factory
      test mode. Always returns 0. */
  function FtmModeSet(c: Charger, val: nat, taTypeUsbpd: int, chg2to1DcMode: nat): (r: (int, Charger))
    ensures r.0 == 0
    ensures val != 0 ==> r.1 == c.(ftmMode := true, taType := taTypeUsbpd, chgMode := chg2to1DcMode)
    ensures val == 0 ==> r.1 == c.(ftmMode := false)
  {
    if val != 0 then (0, c.(ftmMode := true, taType := taTypeUsbpd, chgMode := chg2to1DcMode))
    else (0, c.(ftmMode := false))
  }

  /** Leaving factory test mode keeps the adapter type and charging mode it
      set; entering it twice is the same as entering it once. */
  lemma FtmModeSetIdempotent(c: Charger, v1: nat, v2: nat, usbpd: int, dc: nat)
    ensures v1 != 0 && v2 != 0 ==>
              FtmModeSet(FtmModeSet(c, v1, usbpd, dc).1, v2, usbpd, dc).1 == FtmModeSet(c, v2, usbpd, dc).1
    ensures var on := FtmModeSet(c, v1, usbpd, dc).1;
            var off := FtmModeSet(on, 0, usbpd, dc).1;
            v1 != 0 ==> !off.ftmMode && off.taType == usbpd && off.chgMode == dc
  {
  }

  /** `debug_ta_max_vol_set`: both platform limits take the value written,
      kept to the `u32` they are declared as, and the working TA limit
      becomes that value times the charging mode's voltage ratio, taken as
      an `unsigned int`. Always returns 0. */
  function TaMaxVolSet(c: Charger, val: nat): (r: (int, Charger))
    ensures r.0 == 0
    ensures r.1.pdata.taMaxVol == r.1.pdata.taMaxVolCp
    ensures val < U32_MODULUS ==> r.1.pdata.taMaxVol == val
    ensures val * c.chgMode < U32_MODULUS ==> r.1.taMaxVol == val * c.chgMode
    ensures r.1.(taMaxVol := c.taMaxVol, pdata := c.pdata) == c
  {
    (0, c.(pdata := c.pdata.(taMaxVol := ToU32(val), taMaxVolCp := ToU32(val)), taMaxVol := ToU32(val * c.chgMode)))
  }

  /** In 2:1 mode a TA limit written through debugfs doubles on the charger
      side. */
  lemma TaMaxVolInDcMode(c: Charger, val: nat, usbpd: int)
    requires val < 0x8000_0000
    ensures var on := FtmModeSet(c, 1, usbpd, 2).1;
            TaMaxVolSet(on, val).1.taMaxVol == 2 * TaMaxVolSet(on, val).1.pdata.taMaxVol
  {
  }
}

=== FILE: lwis_fence.dfy ===
/**
 LWIS fences: a fence is a one-shot status cell with a table of per-client
 lists of transactions waiting for it. Transactions name the fences and events
 that trigger them in a trigger condition (an AND, OR or NONE over up to
 TRIGGER_NODES_MAX_NUM nodes), and carry completion fences that are signalled
 when they finish.

 File descriptors, locks, wait queues and the transaction engine are not
 modelled: a fence file is looked up in a map from descriptor to fence, and
 allocations that may fail are boolean inputs.
 */
module LwisFence {
  import opened Common

  /** Status of a fence nobody has signalled yet. */
  const NOT_SIGNALED: int := -1
  /** Bound on the nodes of one trigger condition. */
  const TRIGGER_NODES_MAX_NUM: nat := 16
  /** Completion-fence field value meaning "create one for me" (not yet done). */
  const CREATE_COMPLETION_FENCE: int := -2
  /** Event-counter wildcards of a trigger node. */
  const COUNTER_ON_NEXT_OCCURRENCE: int := -1
  const COUNTER_EVERY_TIME: int := -2
  /** Bytes of a fence status as user space writes it. */
  const STATUS_SIZE: int := 4

  /** Identity of the client that queued a transaction. */
  type Owner = nat

  /** The transactions one client waits on this fence with, newest first. */
  datatype TxList = TxList(owner: Owner, ids: seq<int>)

  datatype Fence = Fence(fd: int, status: int, txLists: seq<TxList>) {
    predicate Signaled() {
      status != NOT_SIGNALED
    }
  }

  /** Whether at most one list per client is kept, as the hash table keyed by
      owner intends. */
  predicate UniqueOwners(lists: seq<TxList>) {
    forall i, j :: 0 <= i < j < |lists| ==> lists[i].owner != lists[j].owner
  }

  // ---------------------------------------------------------------- one fence

  /** `lwis_fence_create`: the allocation may fail, and so may obtaining a
      descriptor; a new fence is unsignalled and has no waiters. */
  function Create(allocOk: bool, getFd: Result<nat>): (r: Result<Fence>)
    ensures r.Ok? <==> allocOk && getFd.Ok?
    ensures !allocOk ==> r == Err(-ENOMEM)
    ensures allocOk && getFd.Err? ==> r == Err(getFd.code)
    ensures r.Ok? ==> !r.value.Signaled() && r.value.txLists == [] && r.value.fd == getFd.value
  {
    if !allocOk then Err(-ENOMEM)
    else match getFd
      case Err(e) => Err(e)
      case Ok(fd) => Ok(Fence(fd, NOT_SIGNALED, []))
  }

  /** `lwis_fence_create` as written: the fence comes from `kmalloc`, and its
      waiter table is never initialised, so it holds whatever the memory
      held. `leftover` stands for that content, read as waiter lists. */
  function CreateAsWritten(allocOk: bool, getFd: Result<nat>, leftover: seq<TxList>): (r: Result<Fence>)
    ensures r.Ok? <==> allocOk && getFd.Ok?
    ensures r.Err? ==> r == Create(allocOk, getFd)
    ensures r.Ok? ==> r.value == Create(allocOk, getFd).value.(txLists := leftover)
  {
    if !allocOk then Err(-ENOMEM)
    else match getFd
      case Err(e) => Err(e)
      case Ok(fd) => Ok(Fence(fd, NOT_SIGNALED, leftover))
  }

  /** A fence created with an initialised table releases nothing when it is
      first signalled, while one created as written releases whatever the
      table's memory held: here transaction 99 of client 5, which nobody
      added. */
  lemma CreateThenSignalReleases(fd: nat, status: int)
    requires status != NOT_SIGNALED
    ensures Signal(Create(true, Ok(fd)).value, status).triggered == []
    ensures Signal(CreateAsWritten(true, Ok(fd), [TxList(5, [99])]).value, status).triggered == [TxList(5, [99])]
  {
  }

  /** The result of signalling: the return code, the fence afterwards, and the
      transaction lists handed to the transaction engine. */
  datatype Signalled = Signalled(ret: int, fence: Fence, triggered: seq<TxList>)

  /** `lwis_fence_signal` on an existing fence. */
  function Signal(f: Fence, status: int): (r: Signalled)
    ensures r.ret == 0 || r.ret == -EINVAL
    ensures r.ret == 0 <==> status != NOT_SIGNALED && !f.Signaled()
    ensures r.ret != 0 ==> r.fence == f && r.triggered == []
    ensures r.ret == 0 ==> r.fence.Signaled() && r.fence.status == status
                           && r.fence.fd == f.fd
                           && r.fence.txLists == [] && r.triggered == f.txLists
  {
    if status == NOT_SIGNALED then Signalled(-EINVAL, f, [])
    else if f.status != NOT_SIGNALED then Signalled(-EINVAL, f, [])
    else Signalled(0, Fence(f.fd, status, []), f.txLists)
  }

  /** A fence is signalled at most once: once a signal has succeeded, every
      further signal fails and keeps the first status. */
  lemma SignalOnce(f: Fence, first: int, later: seq<int>)
    requires Signal(f, first).ret == 0
    ensures forall i :: 0 <= i < |later| ==> Signal(Signal(f, first).fence, later[i]).ret == -EINVAL
    ensures Fold(Signal(f, first).fence, later).status == first
  {
    FoldSignaled(Signal(f, first).fence, later);
  }

  /** The fence after a sequence of signal attempts. */
  function Fold(f: Fence, statuses: seq<int>): Fence
    decreases |statuses|
  {
    if |statuses| == 0 then f else Fold(Signal(f, statuses[0]).fence, statuses[1..])
  }

  lemma {:induction false} FoldSignaled(f: Fence, statuses: seq<int>)
    requires f.Signaled()
    ensures Fold(f, statuses) == f
    decreases |statuses|
  {
    if |statuses| > 0 {
      FoldSignaled(Signal(f, statuses[0]).fence, statuses[1..]);
    }
  }

  /** The status never becomes NOT_SIGNALED again, whatever is written. */
  lemma {:induction false} FoldKeepsSignaled(f: Fence, statuses: seq<int>)
    ensures f.Signaled() ==> Fold(f, statuses).Signaled()
    ensures Fold(f, statuses).Signaled() ==> f.Signaled() || exists i :: 0 <= i < |statuses| && statuses[i] == Fold(f, statuses).status
    decreases |statuses|
  {
    if |statuses| > 0 {
      var g := Signal(f, statuses[0]).fence;
      FoldKeepsSignaled(g, statuses[1..]);
      if Fold(f, statuses).Signaled() && !f.Signaled() {
        if g.Signaled() {
          FoldSignaled(g, statuses[1..]);
          assert statuses[0] == Fold(f, statuses).status;
        } else {
          var i :| 0 <= i < |statuses[1..]| && statuses[1..][i] == Fold(f, statuses).status;
          assert statuses[i + 1] == Fold(f, statuses).status;
        }
      }
    }
  }

  datatype PollMask = PollErr | PollIn | NoEvents

  /** `lwis_fence_poll`: readable exactly once the fence is signalled. */
  function Poll(f: Option<Fence>): (r: PollMask)
    ensures f.None? <==> r == PollErr
    ensures f.Some? ==> (r == PollIn <==> f.value.Signaled())
  {
    match f
    case None => PollErr
    case Some(fence) => if fence.status != NOT_SIGNALED then PollIn else NoEvents
  }

  /** A fence reads as pending from creation until a signal succeeds. */
  lemma PollAfterCreateAndSignal(allocOk: bool, getFd: Result<nat>, status: int)
    requires Create(allocOk, getFd).Ok?
    ensures Poll(Some(Create(allocOk, getFd).value)) == NoEvents
    ensures status != NOT_SIGNALED ==>
              Poll(Some(Signal(Create(allocOk, getFd).value, status).fence)) == PollIn
  {
  }

  /** `lwis_fence_write_status`: user space writes exactly one status word.
      On success the number of bytes written is returned. */
  function WriteStatus(f: Option<Fence>, len: int, status: int): (r: (int, Option<Fence>))
    ensures f.None? ==> r == (-EFAULT, f)
    ensures f.Some? && len != STATUS_SIZE ==> r == (-EINVAL, f)
    ensures f.Some? && len == STATUS_SIZE ==>
              r.1.Some? && r.1.value == Signal(f.value, status).fence
              && (r.0 == STATUS_SIZE <==> Signal(f.value, status).ret == 0)
              && (r.0 != STATUS_SIZE ==> r.0 == -EINVAL)
  {
    match f
    case None => (-EFAULT, f)
    case Some(fence) =>
      if len != STATUS_SIZE then (-EINVAL, f)
      else
        var s := Signal(fence, status);
        if s.ret != 0 then (s.ret, Some(s.fence)) else (len, Some(s.fence))
  }

  // --------------------------------------------------- per-client waiter lists

  /** `transaction_list_find`: the list kept for `owner`, if any. */
  function FindList(lists: seq<TxList>, owner: Owner): (r: Option<nat>)
    ensures r.Some? ==> r.value < |lists| && lists[r.value].owner == owner
    ensures r.Some? ==> forall j :: 0 <= j < r.value ==> lists[j].owner != owner
    ensures r.None? <==> forall j :: 0 <= j < |lists| ==> lists[j].owner != owner
    decreases |lists|
  {
    if |lists| == 0 then None
    else if lists[0].owner == owner then Some(0)
    else match FindList(lists[1..], owner)
      case None => None
      case Some(k) => Some(k + 1)
  }

  /** `transaction_list_find_or_create`: the existing list, or a new empty one
      when the allocation succeeds; None when it fails. */
  function FindOrCreate(lists: seq<TxList>, owner: Owner, allocOk: bool): (r: Option<(seq<TxList>, nat)>)
    ensures r.None? <==> FindList(lists, owner).None? && !allocOk
    ensures r.Some? ==> var (ls, k) := r.value;
              && k < |ls| && ls[k].owner == owner
              && (|ls| == |lists| || (|ls| == |lists| + 1 && ls[k] == TxList(owner, [])))
              && ls[..|lists|] == lists
  {
    match FindList(lists, owner)
    case Some(k) => Some((lists, k))
    case None => if allocOk then Some((lists + [TxList(owner, [])], |lists|)) else None
  }

  /** Find-or-create never makes a second list for the same client. */
  lemma FindOrCreateKeepsUnique(lists: seq<TxList>, owner: Owner, allocOk: bool)
    requires UniqueOwners(lists)
    requires FindOrCreate(lists, owner, allocOk).Some?
    ensures UniqueOwners(FindOrCreate(lists, owner, allocOk).value.0)
  {
  }

  /** Puts `id` at the head of list `k` (`list_add`). */
  function AddId(lists: seq<TxList>, k: nat, id: int): (r: seq<TxList>)
    requires k < |lists|
    ensures |r| == |lists| && r[k].owner == lists[k].owner && r[k].ids == [id] + lists[k].ids
    ensures forall j :: 0 <= j < |lists| && j != k ==> r[j] == lists[j]
  {
    lists[k := TxList(lists[k].owner, [id] + lists[k].ids)]
  }

  // --------------------------------------------------------------- transactions

  datatype Operator = OpNone | OpAnd | OpOr | OpOther(code: int)

  /** A node of a trigger condition: an event occurrence, or a fence. */
  datatype TriggerNode =
    | EventNode(eventId: int, counter: int, preconditionFd: int)
    | FenceNode(fenceFd: int)

  /** A completion fence waiting to be signalled with `pendingStatus`. */
  datatype PendingSignal = PendingSignal(fd: int, pendingStatus: int)

  /** The parts of a transaction the fence code reads and writes. The trigger
      fences a transaction holds are the descriptors in `triggerFences`; their
      number is `num_trigger_fences`. */
  datatype Transaction = Transaction(
    id: int,
    op: Operator,
    nodes: seq<TriggerNode>,
    isLevelTriggered: bool,
    triggerFences: seq<int>,
    signaledCount: nat,
    queueImmediately: bool,
    errorCode: int,
    completion: seq<PendingSignal>)

  /** `lwis_fence_get`: the fence behind a descriptor, refused when the
      descriptor is no fence or the fence records another descriptor. */
  function FenceGet(fences: map<int, Fence>, fd: int): (r: Option<Fence>)
    ensures r.Some? <==> fd in fences && fences[fd].fd == fd
    ensures r.Some? ==> r.value == fences[fd]
  {
    if fd in fences && fences[fd].fd == fd then Some(fences[fd]) else None
  }

  /** `lwis_fence_triggered_condition_ready`: one fence of the condition has
      signalled with `fenceStatus`. The count of signalled nodes always goes up
      by one. */
  function FenceTriggeredConditionReady(tx: Transaction, fenceStatus: int): (r: (bool, Transaction))
    ensures r.1 == tx.(signaledCount := tx.signaledCount + 1)
    ensures r.0 <==>
              || ((tx.op.OpAnd? || tx.op.OpOr?) && tx.signaledCount + 1 == |tx.nodes|)
              || (tx.op.OpAnd? && fenceStatus != 0)
              || (tx.op.OpOr? && fenceStatus == 0)
              || tx.op.OpNone?
  {
    var t := tx.(signaledCount := tx.signaledCount + 1);
    if (t.op == OpAnd || t.op == OpOr) && t.signaledCount == |t.nodes| then (true, t)
    else if t.op == OpAnd && fenceStatus != 0 then (true, t)
    else if t.op == OpOr && fenceStatus == 0 then (true, t)
    else if t.op == OpNone then (true, t)
    else (false, t)
  }

  /** Readiness after each of a sequence of fence signals. */
  function FenceReadiness(tx: Transaction, statuses: seq<int>): (r: seq<bool>)
    ensures |r| == |statuses|
    decreases |statuses|
  {
    if |statuses| == 0 then []
    else
      var (ready, t) := FenceTriggeredConditionReady(tx, statuses[0]);
      [ready] + FenceReadiness(t, statuses[1..])
  }

  /** An AND over n fences that all succeed becomes ready with the last one
      and not before. */
  lemma {:induction false} AndReadyOnlyWhenAllSucceed(tx: Transaction, statuses: seq<int>)
    requires tx.op == OpAnd
    requires forall i :: 0 <= i < |statuses| ==> statuses[i] == 0
    requires tx.signaledCount + |statuses| == |tx.nodes|
    ensures forall i :: 0 <= i < |statuses| ==>
              (FenceReadiness(tx, statuses)[i] <==> i == |statuses| - 1)
    decreases |statuses|
  {
    if |statuses| > 0 {
      var t := FenceTriggeredConditionReady(tx, statuses[0]).1;
      AndReadyOnlyWhenAllSucceed(t, statuses[1..]);
      var r := FenceReadiness(tx, statuses);
      assert r == [FenceTriggeredConditionReady(tx, statuses[0]).0] + FenceReadiness(t, statuses[1..]);
      forall i | 0 <= i < |statuses|
        ensures r[i] <==> i == |statuses| - 1
      {
        if i > 0 {
          assert r[i] == FenceReadiness(t, statuses[1..])[i - 1];
        }
      }
    }
  }

  /** An AND is ready as soon as one of its fences reports an error, so that
      the transaction can be cancelled; an OR as soon as one succeeds. */
  lemma FirstFenceDecides(tx: Transaction, status: int)
    ensures tx.op == OpAnd && status != 0 ==> FenceTriggeredConditionReady(tx, status).0
    ensures tx.op == OpOr && status == 0 ==> FenceTriggeredConditionReady(tx, status).0
    ensures tx.op.OpOther? ==> !FenceTriggeredConditionReady(tx, status).0
  {
  }

  /** Whether a node is satisfied by an occurrence of `eventId` with
      `eventCounter`. `precondition` is the status of the weak transaction's
      precondition fence, None when it has none. */
  predicate NodeSignaled(n: TriggerNode, eventId: int, eventCounter: int, precondition: Option<int>) {
    && n.EventNode?
    && n.eventId == eventId
    && (|| n.counter == eventCounter
        || (n.counter == COUNTER_ON_NEXT_OCCURRENCE && precondition.None?)
        || (n.counter == COUNTER_ON_NEXT_OCCURRENCE && precondition == Some(0)))
  }

  /** `lwis_event_triggered_condition_ready`: the first node the occurrence
      satisfies is counted (at most one per call); with no such node the
      transaction is not ready. */
  method EventTriggeredConditionReady(tx: Transaction, eventId: int, eventCounter: int, precondition: Option<int>)
    returns (ready: bool, r: Transaction)
    ensures var hit := exists i :: 0 <= i < |tx.nodes| && NodeSignaled(tx.nodes[i], eventId, eventCounter, precondition);
            && r == tx.(signaledCount := tx.signaledCount + (if hit then 1 else 0))
            && (ready <==> hit && (tx.op.OpOr? || tx.op.OpNone? || (tx.op.OpAnd? && r.signaledCount == |tx.nodes|)))
  {
    r := tx;
    var i := 0;
    while i < |tx.nodes|
      invariant 0 <= i <= |tx.nodes|
      invariant forall j :: 0 <= j < i ==> !NodeSignaled(tx.nodes[j], eventId, eventCounter, precondition)
    {
      if NodeSignaled(tx.nodes[i], eventId, eventCounter, precondition) {
        r := r.(signaledCount := r.signaledCount + 1);
        break;
      }
      i := i + 1;
    }
    if i == |tx.nodes| {
      return false, r;
    }
    match tx.op
    case OpAnd => ready := r.signaledCount == |tx.nodes|;
    case OpOr => ready := true;
    case OpNone => ready := true;
    case OpOther(_) => ready := false;
  }

  /** Whether a counter names one particular occurrence rather than a wildcard. */
  predicate ExplicitCounter(c: int) {
    c != COUNTER_ON_NEXT_OCCURRENCE && c != COUNTER_EVERY_TIME
  }

  /** What adding a trigger node did: the return code, the transaction, the
      fences, and whether registering a weak transaction with the event was
      attempted (whatever that registration returned). */
  datatype Added = Added(ret: int, tx: Transaction, fences: map<int, Fence>, weakAdded: bool)

  /** `trigger_event_add_transaction`. `lastCounter` is the device's counter
      for the event (None when the event has never occurred); `weakRet` is
      what registering a weak transaction returns. A level-triggered
      transaction whose explicit counter has already been reached counts the
      node at once, unless a precondition fence has not succeeded. */
  function TriggerEventAddTransaction(tx: Transaction, node: TriggerNode, lastCounter: Option<int>,
                                      fences: map<int, Fence>, weakRet: int): (r: Added)
    requires node.EventNode?
    ensures r.fences == fences
    ensures var reached := lastCounter.Some? && tx.isLevelTriggered && ExplicitCounter(node.counter)
                           && node.counter == lastCounter.value;
            var pre := FenceGet(fences, node.preconditionFd);
            && (reached && node.preconditionFd >= 0 && pre.None? ==> r == Added(-EBADF, tx, fences, false))
            && (reached && (node.preconditionFd < 0 || (pre.Some? && pre.value.status == 0)) ==>
                  && r.ret == 0 && !r.weakAdded
                  && r.tx == tx.(signaledCount := tx.signaledCount + 1,
                                 queueImmediately := tx.op != OpAnd || tx.signaledCount + 1 == |tx.nodes|))
            && (!reached || (node.preconditionFd >= 0 && pre.Some? && pre.value.status != 0) ==>
                  r == Added(weakRet, tx, fences, true))
  {
    var reached := lastCounter.Some? && tx.isLevelTriggered && ExplicitCounter(node.counter)
                   && node.counter == lastCounter.value;
    if reached && node.preconditionFd >= 0 && FenceGet(fences, node.preconditionFd).None? then
      Added(-EBADF, tx, fences, false)
    else if reached && (node.preconditionFd < 0 || FenceGet(fences, node.preconditionFd).value.status == 0) then
      var t := tx.(signaledCount := tx.signaledCount + 1);
      Added(0, t.(queueImmediately := t.op != OpAnd || t.signaledCount == |t.nodes|), fences, false)
    else
      Added(weakRet, tx, fences, true)
  }

  /** Outcome of code that may dereference a NULL pointer. */
  datatype Outcome<+T> = Completed(value: T) | NullDeref

  /** `trigger_fence_add_transaction` as written. `idAllocOk` and `listAllocOk`
      are the two GFP_ATOMIC allocations. When the fence is unsignalled and the
      per-client list has to be created but cannot be, the code goes on to
      insert into the list it did not get. */
  function TriggerFenceAddTransactionAsWritten(fenceFd: int, owner: Owner, tx: Transaction,
                                               fences: map<int, Fence>,
                                               idAllocOk: bool, listAllocOk: bool): (r: Outcome<Added>)
    ensures r.NullDeref? <==>
              && |tx.triggerFences| < TRIGGER_NODES_MAX_NUM && idAllocOk
              && FenceGet(fences, fenceFd).Some? && !fences[fenceFd].Signaled()
              && FindOrCreate(fences[fenceFd].txLists, owner, listAllocOk).None?
    ensures r.Completed? ==>
              r.value == TriggerFenceAddTransaction(fenceFd, owner, tx, fences, idAllocOk, listAllocOk)
  {
    if |tx.triggerFences| >= TRIGGER_NODES_MAX_NUM then Completed(Added(-EINVAL, tx, fences, false))
    else if !idAllocOk then Completed(Added(-ENOMEM, tx, fences, false))
    else match FenceGet(fences, fenceFd)
      case None => Completed(Added(-EBADF, tx, fences, false))
      case Some(f) =>
        if !f.Signaled() then
          match FindOrCreate(f.txLists, owner, listAllocOk)
          case None => NullDeref
          case Some((ls, k)) =>
            var f' := f.(txLists := AddId(ls, k, tx.id));
            Completed(Added(0, tx.(triggerFences := tx.triggerFences + [fenceFd]), fences[fenceFd := f'], false))
        else
          Completed(SignaledFenceAdd(fenceFd, tx, fences, f))
  }

  /** A trigger fence that has already signalled: refused unless the
      transaction is level triggered; otherwise the fence counts at once. */
  function SignaledFenceAdd(fenceFd: int, tx: Transaction, fences: map<int, Fence>, f: Fence): (r: Added)
    requires f.Signaled()
    ensures r.fences == fences && !r.weakAdded
    ensures !tx.isLevelTriggered <==> r.ret == -EINVAL
    ensures !tx.isLevelTriggered ==> r.tx == tx
    ensures tx.isLevelTriggered ==>
              && r.ret == 0
              && r.tx.triggerFences == tx.triggerFences + [fenceFd]
              && r.tx.signaledCount == tx.signaledCount + 1
              && (r.tx.queueImmediately <==> tx.queueImmediately || FenceTriggeredConditionReady(tx, f.status).0)
              && (r.tx.errorCode == -ECANCELED <==>
                    tx.errorCode == -ECANCELED || (FenceTriggeredConditionReady(tx, f.status).0 && f.status != 0))
  {
    if !tx.isLevelTriggered then Added(-EINVAL, tx, fences, false)
    else
      var (ready, t) := FenceTriggeredConditionReady(tx.(triggerFences := tx.triggerFences + [fenceFd]), f.status);
      if ready then
        var t' := if f.status != 0 then t.(errorCode := -ECANCELED) else t;
        Added(0, t'.(queueImmediately := true), fences, false)
      else Added(0, t, fences, false)
  }

  /** `trigger_fence_add_transaction` with the failed list allocation reported
      as -ENOMEM, before anything is recorded. */
  function TriggerFenceAddTransaction(fenceFd: int, owner: Owner, tx: Transaction,
                                      fences: map<int, Fence>,
                                      idAllocOk: bool, listAllocOk: bool): (r: Added)
    ensures !r.weakAdded && r.fences.Keys == fences.Keys
    ensures |tx.triggerFences| >= TRIGGER_NODES_MAX_NUM ==> r == Added(-EINVAL, tx, fences, false)
    ensures |tx.triggerFences| < TRIGGER_NODES_MAX_NUM && !idAllocOk ==> r == Added(-ENOMEM, tx, fences, false)
    ensures |tx.triggerFences| < TRIGGER_NODES_MAX_NUM && idAllocOk && FenceGet(fences, fenceFd).None? ==>
              r == Added(-EBADF, tx, fences, false)
    ensures r.ret == 0 ==> |r.tx.triggerFences| == |tx.triggerFences| + 1 <= TRIGGER_NODES_MAX_NUM
    ensures r.ret != 0 ==> r.tx == tx && r.fences == fences
    ensures |tx.triggerFences| < TRIGGER_NODES_MAX_NUM && idAllocOk && FenceGet(fences, fenceFd).Some?
            && !fences[fenceFd].Signaled() && r.ret == 0 ==>
              && r.tx == tx.(triggerFences := tx.triggerFences + [fenceFd])
              && (forall fd :: fd in fences && fd != fenceFd ==> r.fences[fd] == fences[fd])
              && var k := FindList(r.fences[fenceFd].txLists, owner);
                 k.Some? && |r.fences[fenceFd].txLists[k.value].ids| > 0
                 && r.fences[fenceFd].txLists[k.value].ids[0] == tx.id
    ensures |tx.triggerFences| < TRIGGER_NODES_MAX_NUM && idAllocOk && FenceGet(fences, fenceFd).Some?
            && !fences[fenceFd].Signaled() ==>
              (r.ret == 0 <==> FindOrCreate(fences[fenceFd].txLists, owner, listAllocOk).Some?)
              && (r.ret != 0 ==> r.ret == -ENOMEM)
    ensures |tx.triggerFences| < TRIGGER_NODES_MAX_NUM && idAllocOk && FenceGet(fences, fenceFd).Some?
            && fences[fenceFd].Signaled() ==>
              r == SignaledFenceAdd(fenceFd, tx, fences, fences[fenceFd])
  {
    if |tx.triggerFences| >= TRIGGER_NODES_MAX_NUM then Added(-EINVAL, tx, fences, false)
    else if !idAllocOk then Added(-ENOMEM, tx, fences, false)
    else match FenceGet(fences, fenceFd)
      case None => Added(-EBADF, tx, fences, false)
      case Some(f) =>
        if !f.Signaled() then
          match FindOrCreate(f.txLists, owner, listAllocOk)
          case None => Added(-ENOMEM, tx, fences, false)
          case Some((ls, k)) =>
            var f' := f.(txLists := AddId(ls, k, tx.id));
            assert FindList(f'.txLists, owner) == Some(k) by {
              FindListAt(f'.txLists, owner, k);
            }
            Added(0, tx.(triggerFences := tx.triggerFences + [fenceFd]), fences[fenceFd := f'], false)
        else
          SignaledFenceAdd(fenceFd, tx, fences, f)
  }

  /** The lookup finds list k when k is for `owner` and no earlier list is. */
  lemma {:induction false} FindListAt(lists: seq<TxList>, owner: Owner, k: nat)
    requires k < |lists| && lists[k].owner == owner
    requires forall j :: 0 <= j < k ==> lists[j].owner != owner
    ensures FindList(lists, owner) == Some(k)
    decreases k
  {
    if k > 0 {
      FindListAt(lists[1..], owner, k - 1);
    }
  }

  /** A transaction waiting on an unsignalled fence is handed back when the
      fence is signalled. */
  lemma WaiterIsTriggered(fenceFd: int, owner: Owner, tx: Transaction, fences: map<int, Fence>,
                          idAllocOk: bool, listAllocOk: bool, status: int)
    requires FenceGet(fences, fenceFd).Some? && !fences[fenceFd].Signaled()
    requires TriggerFenceAddTransaction(fenceFd, owner, tx, fences, idAllocOk, listAllocOk).ret == 0
    requires status != NOT_SIGNALED
    ensures var f := TriggerFenceAddTransaction(fenceFd, owner, tx, fences, idAllocOk, listAllocOk).fences[fenceFd];
            exists l :: l in Signal(f, status).triggered && l.owner == owner && tx.id in l.ids
  {
    var f := TriggerFenceAddTransaction(fenceFd, owner, tx, fences, idAllocOk, listAllocOk).fences[fenceFd];
    var k := FindList(f.txLists, owner).value;
    assert f.txLists[k].ids[0] == tx.id;
    assert f.txLists[k] in Signal(f, status).triggered;
  }

  /** The environment a trigger condition is parsed in: the client, the
      device's event counters, and, per node index, what registering a weak
      transaction returns and whether the two GFP_ATOMIC allocations of a
      fence node succeed. */
  datatype ParseEnv = ParseEnv(
    owner: Owner,
    lastCounter: map<int, int>,
    weakRet: nat -> int,
    idAlloc: nat -> bool,
    listAlloc: nat -> bool)

  /** Node `i` of the condition, dispatched on its kind. A failing node
      changes nothing. */
  function AddNode(env: ParseEnv, tx: Transaction, fences: map<int, Fence>, node: TriggerNode, i: nat): (r: Added)
    ensures r.tx.nodes == tx.nodes
    ensures r.ret != 0 ==> r.tx == tx && r.fences == fences
    ensures r.ret == 0 && node.FenceNode? ==> |r.tx.triggerFences| == |tx.triggerFences| + 1
    ensures node.EventNode? ==> r.tx.triggerFences == tx.triggerFences
  {
    match node
    case EventNode(id, _, _) =>
      var last := if id in env.lastCounter then Some(env.lastCounter[id]) else None;
      TriggerEventAddTransaction(tx, node, last, fences, env.weakRet(i))
    case FenceNode(fd) =>
      TriggerFenceAddTransaction(fd, env.owner, tx, fences, env.idAlloc(i), env.listAlloc(i))
  }

  /** Steps `0 .. k-1` applied one after the other from `start`, the first
      failure kept: the reference for a loop that returns the first nonzero
      code. */
  function Run(step: (Added, nat) -> Added, start: Added, k: nat): Added
    decreases k
  {
    if k == 0 then start
    else
      var p := Run(step, start, k - 1);
      if p.ret != 0 then p else step(p, k - 1)
  }

  /** Step `k` succeeds when it is reached. */
  predicate StepOk(step: (Added, nat) -> Added, start: Added, k: nat) {
    step(Run(step, start, k), k).ret == 0
  }

  /** Once a step has failed, later steps change nothing. */
  lemma {:induction false} RunStaysFailed(step: (Added, nat) -> Added, start: Added, i: nat, k: nat)
    requires i <= k && Run(step, start, i).ret != 0
    ensures Run(step, start, k) == Run(step, start, i)
    decreases k
  {
    if k > i {
      RunStaysFailed(step, start, i, k - 1);
    }
  }

  /** From a successful start, the run has not failed exactly when every
      step so far succeeded. */
  lemma {:induction false} RunOkIff(step: (Added, nat) -> Added, start: Added, k: nat)
    requires start.ret == 0
    ensures Run(step, start, k).ret == 0 <==> forall j :: 0 <= j < k ==> StepOk(step, start, j)
    decreases k
  {
    if k > 0 {
      RunOkIff(step, start, k - 1);
      if Run(step, start, k - 1).ret != 0 {
        var j :| 0 <= j < k - 1 && !StepOk(step, start, j);
        assert Run(step, start, k) == Run(step, start, k - 1);
        assert !StepOk(step, start, j);
      } else {
        assert Run(step, start, k) == step(Run(step, start, k - 1), k - 1);
        assert StepOk(step, start, k - 1) <==> Run(step, start, k).ret == 0;
      }
    }
  }

  /** A failed run is the result of its first failing step. */
  lemma {:induction false} RunFirstFailure(step: (Added, nat) -> Added, start: Added, k: nat)
    requires start.ret == 0
    ensures Run(step, start, k).ret != 0 ==>
              exists j :: 0 <= j < k
                          && (forall i :: 0 <= i < j ==> StepOk(step, start, i))
                          && !StepOk(step, start, j)
                          && Run(step, start, k) == step(Run(step, start, j), j)
    decreases k
  {
    if k > 0 {
      if Run(step, start, k - 1).ret == 0 {
        RunOkIff(step, start, k - 1);
        assert Run(step, start, k) == step(Run(step, start, k - 1), k - 1);
      } else {
        RunFirstFailure(step, start, k - 1);
      }
    }
  }

  /** Parsing one node: node `i` added to the state so far. */
  function ParseStep(env: ParseEnv, tx: Transaction): (Added, nat) -> Added {
    (p: Added, i: nat) =>
      if i < |tx.nodes| then
        var a := AddNode(env, p.tx, p.fences, tx.nodes[i], i);
        a.(weakAdded := p.weakAdded || a.weakAdded)
      else p
  }

  /** The state before node `k` of `tx`'s condition. */
  function Before(env: ParseEnv, tx: Transaction, fences: map<int, Fence>, k: nat): Added {
    Run(ParseStep(env, tx), Added(0, tx, fences, false), k)
  }

  /** Parsing never changes the node list. */
  lemma {:induction false} BeforeKeepsNodes(env: ParseEnv, tx: Transaction, fences: map<int, Fence>, k: nat)
    ensures Before(env, tx, fences, k).tx.nodes == tx.nodes
    decreases k
  {
    if k > 0 {
      BeforeKeepsNodes(env, tx, fences, k - 1);
    }
  }

  /** Node `k` succeeds when it is reached. */
  predicate NodeOk(env: ParseEnv, tx: Transaction, fences: map<int, Fence>, k: nat) {
    StepOk(ParseStep(env, tx), Added(0, tx, fences, false), k)
  }

  /** `lwis_parse_trigger_condition`: more than TRIGGER_NODES_MAX_NUM nodes
      are refused; otherwise the nodes are added in order. The result is 0
      exactly when every node succeeds; otherwise it is the code of the first
      node that fails, and the nodes after it are never added. */
  function ParseTriggerCondition(env: ParseEnv, tx: Transaction, fences: map<int, Fence>): (r: Added)
    ensures |tx.nodes| > TRIGGER_NODES_MAX_NUM ==> r == Added(-EINVAL, tx, fences, false)
    ensures |tx.nodes| <= TRIGGER_NODES_MAX_NUM ==>
              (r.ret == 0 <==> forall k :: 0 <= k < |tx.nodes| ==> NodeOk(env, tx, fences, k))
    ensures |tx.nodes| <= TRIGGER_NODES_MAX_NUM && r.ret != 0 ==>
              exists k :: 0 <= k < |tx.nodes|
                          && (forall j :: 0 <= j < k ==> NodeOk(env, tx, fences, j))
                          && !NodeOk(env, tx, fences, k)
                          && var p := Before(env, tx, fences, k);
                             r.ret == AddNode(env, p.tx, p.fences, tx.nodes[k], k).ret
                             && r.tx == p.tx && r.fences == p.fences
  {
    if |tx.nodes| > TRIGGER_NODES_MAX_NUM then Added(-EINVAL, tx, fences, false)
    else
      var start := Added(0, tx, fences, false);
      RunOkIff(ParseStep(env, tx), start, |tx.nodes|);
      RunFirstFailure(ParseStep(env, tx), start, |tx.nodes|);
      FailedNodeKeepsState(env, tx, fences);
      Before(env, tx, fences, |tx.nodes|)
  }

  /** A node that fails leaves the state it was given, and reports the code
      of its add. */
  lemma FailedNodeKeepsState(env: ParseEnv, tx: Transaction, fences: map<int, Fence>)
    ensures forall k :: 0 <= k < |tx.nodes| && !NodeOk(env, tx, fences, k) ==>
              var p := Before(env, tx, fences, k);
              var q := ParseStep(env, tx)(p, k);
              q.ret == AddNode(env, p.tx, p.fences, tx.nodes[k], k).ret && q.tx == p.tx && q.fences == p.fences
  {
  }

  /** The bound check in parsing is what keeps the trigger-fence array in
      bounds: a transaction that starts with no trigger fences never holds
      more than TRIGGER_NODES_MAX_NUM of them. */
  lemma ParseBoundsTriggerFences(env: ParseEnv, tx: Transaction, fences: map<int, Fence>)
    requires tx.triggerFences == []
    ensures |ParseTriggerCondition(env, tx, fences).tx.triggerFences| <= TRIGGER_NODES_MAX_NUM
  {
    if |tx.nodes| <= TRIGGER_NODES_MAX_NUM {
      BeforeAddsOnePerNode(env, tx, fences, |tx.nodes|);
    }
  }

  /** Each node adds at most one trigger fence. */
  lemma {:induction false} BeforeAddsOnePerNode(env: ParseEnv, tx: Transaction, fences: map<int, Fence>, k: nat)
    ensures |Before(env, tx, fences, k).tx.triggerFences| <= |tx.triggerFences| + k
    decreases k
  {
    if k > 0 {
      BeforeAddsOnePerNode(env, tx, fences, k - 1);
    }
  }

  // ------------------------------------------------------------ completion fences

  /** `add_completion_fence`: the fence is looked up, a pending signal is
      allocated and put at the head of the transaction's list. */
  function AddCompletionFence(tx: Transaction, fences: map<int, Fence>, fd: int, allocOk: bool): (r: (int, Transaction))
    ensures r.0 == 0 || r.0 == -EBADF || r.0 == -ENOMEM
    ensures r.0 == 0 <==> FenceGet(fences, fd).Some? && allocOk
    ensures r.0 != 0 ==> r.1 == tx
    ensures r.0 == 0 ==> r.1 == tx.(completion := [PendingSignal(fd, NOT_SIGNALED)] + tx.completion)
  {
    if FenceGet(fences, fd).None? then (-EBADF, tx)
    else if !allocOk then (-ENOMEM, tx)
    else (0, tx.(completion := [PendingSignal(fd, NOT_SIGNALED)] + tx.completion))
  }

  /** Newest first: the pending signals for a run of descriptors added one by
      one at the head. */
  function PendingFor(fds: seq<int>): (r: seq<PendingSignal>)
    ensures |r| == |fds|
    ensures forall i :: 0 <= i < |fds| ==> r[i] == PendingSignal(fds[|fds| - 1 - i], NOT_SIGNALED)
    decreases |fds|
  {
    if |fds| == 0 then [] else PendingFor(fds[1..]) + [PendingSignal(fds[0], NOT_SIGNALED)]
  }

  /** The external completion fences from index `i` on; `alloc(i)` is whether
      the pending signal for the i-th one can be allocated. */
  function AddExternalFrom(tx: Transaction, fences: map<int, Fence>, fds: seq<int>, i: nat, alloc: nat -> bool): (r: (int, Transaction))
    requires i <= |fds|
    ensures r.0 == 0 ==> r.1 == tx.(completion := PendingFor(fds[i..]) + tx.completion)
    ensures r.0 == 0 <==> forall j :: i <= j < |fds| ==> fds[j] >= 0 && FenceGet(fences, fds[j]).Some? && alloc(j)
    decreases |fds| - i
  {
    if i == |fds| then (0, tx)
    else if fds[i] < 0 then (-EINVAL, tx)
    else
      var (ret, t) := AddCompletionFence(tx, fences, fds[i], alloc(i));
      if ret != 0 then (ret, t)
      else
        var rest := AddExternalFrom(t, fences, fds, i + 1, alloc);
        assert fds[i..] == [fds[i]] + fds[i + 1..];
        assert PendingFor(fds[i..]) == PendingFor(fds[i + 1..]) + [PendingSignal(fds[i], NOT_SIGNALED)];
        rest
  }

  /** `lwis_add_completion_fences_to_transaction`. `createFd` is the
      completion fence created for the transaction (CREATE_COMPLETION_FENCE
      when that has not happened yet, negative when none is wanted);
      `alloc(0)` is the allocation for it and `alloc(i+1)` the one for the
      i-th external fence. */
  function AddCompletionFences(tx: Transaction, fences: map<int, Fence>, createFd: int,
                               externalFds: seq<int>, alloc: nat -> bool): (r: (int, Transaction))
    ensures createFd == CREATE_COMPLETION_FENCE ==> r == (-EPERM, tx)
    ensures r.0 == 0 ==>
              r.1 == tx.(completion := PendingFor(Created(createFd) + externalFds) + tx.completion)
    ensures createFd != CREATE_COMPLETION_FENCE ==>
              (r.0 == 0 <==>
                 (createFd < 0 || (FenceGet(fences, createFd).Some? && alloc(0)))
                 && ExternalOk(fences, externalFds, alloc))
  {
    if createFd == CREATE_COMPLETION_FENCE then (-EPERM, tx)
    else
      if createFd >= 0 && AddCompletionFence(tx, fences, createFd, alloc(0)).0 != 0 then
        AddCompletionFence(tx, fences, createFd, alloc(0))
      else
        AddExternalRest(tx, fences, createFd, externalFds, alloc);
        AddExternalFrom(WithCreated(tx, fences, createFd, alloc), fences, externalFds, 0, Shift(alloc))
  }

  /** The transaction once the created fence, if any, has been added. */
  function WithCreated(tx: Transaction, fences: map<int, Fence>, createFd: int, alloc: nat -> bool): (t: Transaction)
    requires createFd >= 0 ==> AddCompletionFence(tx, fences, createFd, alloc(0)).0 == 0
    ensures t.completion == PendingFor(Created(createFd)) + tx.completion
    ensures t == tx.(completion := t.completion)
  {
    if createFd >= 0 then AddCompletionFence(tx, fences, createFd, alloc(0)).1 else tx
  }

  /** Once the created fence is in, adding the external ones succeeds iff
      they are all acceptable, and success leaves every signal pending. */
  lemma AddExternalRest(tx: Transaction, fences: map<int, Fence>, createFd: int, externalFds: seq<int>,
                        alloc: nat -> bool)
    requires createFd >= 0 ==> AddCompletionFence(tx, fences, createFd, alloc(0)).0 == 0
    ensures var r := AddExternalFrom(WithCreated(tx, fences, createFd, alloc), fences, externalFds, 0, Shift(alloc));
            && (r.0 == 0 <==> ExternalOk(fences, externalFds, alloc))
            && (r.0 == 0 ==> r.1 == tx.(completion := PendingFor(Created(createFd) + externalFds) + tx.completion))
  {
    var t := WithCreated(tx, fences, createFd, alloc);
    ExternalOkShift(t, fences, externalFds, alloc);
    AddExternalShape(t, tx, fences, createFd, externalFds, Shift(alloc));
  }

  /** Adding every external fence to a transaction holding the created
      one's signal leaves the signals of both pending, in list order. */
  lemma AddExternalShape(t: Transaction, tx: Transaction, fences: map<int, Fence>, createFd: int,
                         externalFds: seq<int>, alloc: nat -> bool)
    requires t == tx.(completion := PendingFor(Created(createFd)) + tx.completion)
    ensures var r := AddExternalFrom(t, fences, externalFds, 0, alloc);
            r.0 == 0 ==> r.1 == tx.(completion := PendingFor(Created(createFd) + externalFds) + tx.completion)
  {
    assert externalFds[0..] == externalFds;
    PendingForAppend(Created(createFd), externalFds);
  }

  /** Every external descriptor is non-negative and names a fence, and
      allocation `j + 1` (the one for external descriptor `j`) succeeds. */
  predicate ExternalOk(fences: map<int, Fence>, fds: seq<int>, alloc: nat -> bool) {
    forall j :: 0 <= j < |fds| ==> fds[j] >= 0 && FenceGet(fences, fds[j]).Some? && alloc(j + 1)
  }

  /** Adding the external fences from the first succeeds iff they are all
      acceptable, counting allocations from the second. */
  lemma ExternalOkShift(tx: Transaction, fences: map<int, Fence>, fds: seq<int>, alloc: nat -> bool)
    ensures AddExternalFrom(tx, fences, fds, 0, Shift(alloc)).0 == 0 <==> ExternalOk(fences, fds, alloc)
  {
    var sh := Shift(alloc);
    assert AddExternalFrom(tx, fences, fds, 0, sh).0 == 0 <==> ExternalOkFrom(fences, fds, sh);
    if ExternalOkFrom(fences, fds, sh) {
      forall j | 0 <= j < |fds|
        ensures fds[j] >= 0 && FenceGet(fences, fds[j]).Some? && alloc(j + 1)
      {
        assert sh(j) == alloc(j + 1);
      }
      assert ExternalOk(fences, fds, alloc);
    }
    if ExternalOk(fences, fds, alloc) {
      forall j | 0 <= j < |fds|
        ensures fds[j] >= 0 && FenceGet(fences, fds[j]).Some? && sh(j)
      {
        assert sh(j) == alloc(j + 1);
      }
      assert ExternalOkFrom(fences, fds, sh);
    }
  }

  /** Every external descriptor is acceptable, with allocation `j` for
      descriptor `j`. */
  predicate ExternalOkFrom(fences: map<int, Fence>, fds: seq<int>, alloc: nat -> bool) {
    forall j :: 0 <= j < |fds| ==> fds[j] >= 0 && FenceGet(fences, fds[j]).Some? && alloc(j)
  }

  /** The allocation outcomes of the external fences: `alloc` without the
      one for the created fence. */
  function Shift(alloc: nat -> bool): (r: nat -> bool)
    ensures forall i: nat :: r(i) == alloc(i + 1)
  {
    (i: nat) => alloc(i + 1)
  }

  /** The completion fence created for the transaction, if there is one. */
  function Created(createFd: int): (r: seq<int>)
    ensures |r| <= 1
  {
    if createFd >= 0 then [createFd] else []
  }

  /** A negative external descriptor is refused with -EINVAL once everything
      before it has been added. */
  lemma NegativeExternalRejected(tx: Transaction, fences: map<int, Fence>, createFd: int,
                                 externalFds: seq<int>, alloc: nat -> bool, j: nat)
    requires createFd != CREATE_COMPLETION_FENCE
    requires createFd < 0 || (FenceGet(fences, createFd).Some? && alloc(0))
    requires j < |externalFds| && externalFds[j] < 0
    requires forall k :: 0 <= k < j ==> externalFds[k] >= 0 && FenceGet(fences, externalFds[k]).Some? && alloc(k + 1)
    ensures AddCompletionFences(tx, fences, createFd, externalFds, alloc).0 == -EINVAL
  {
    var shifted := Shift(alloc);
    assert forall k :: 0 <= k < j ==> externalFds[k] >= 0 && FenceGet(fences, externalFds[k]).Some? && shifted(k);
    if createFd >= 0 {
      var t := AddCompletionFence(tx, fences, createFd, alloc(0)).1;
      FirstNegativeRejected(t, fences, externalFds, 0, shifted);
      assert AddExternalFrom(t, fences, externalFds, 0, shifted).0 == -EINVAL;
    } else {
      FirstNegativeRejected(tx, fences, externalFds, 0, shifted);
      assert AddExternalFrom(tx, fences, externalFds, 0, shifted).0 == -EINVAL;
    }
  }

  lemma PendingForAppend(a: seq<int>, b: seq<int>)
    ensures PendingFor(a + b) == PendingFor(b) + PendingFor(a)
  {
  }

  /** The first negative external descriptor is reported as -EINVAL when
      everything before it could be added. */
  lemma {:induction false} FirstNegativeRejected(tx: Transaction, fences: map<int, Fence>, fds: seq<int>, i: nat, alloc: nat -> bool)
    requires i <= |fds|
    ensures (exists j :: i <= j < |fds| && fds[j] < 0
              && forall k :: i <= k < j ==> fds[k] >= 0 && FenceGet(fences, fds[k]).Some? && alloc(k))
            ==> AddExternalFrom(tx, fences, fds, i, alloc).0 == -EINVAL
    decreases |fds| - i
  {
    if i < |fds| && fds[i] >= 0 {
      var (ret, t) := AddCompletionFence(tx, fences, fds[i], alloc(i));
      FirstNegativeRejected(t, fences, fds, i + 1, alloc);
      if exists j :: i <= j < |fds| && fds[j] < 0
           && forall k :: i <= k < j ==> fds[k] >= 0 && FenceGet(fences, fds[k]).Some? && alloc(k) {
        var j :| i <= j < |fds| && fds[j] < 0
                 && forall k :: i <= k < j ==> fds[k] >= 0 && FenceGet(fences, fds[k]).Some? && alloc(k);
        assert j != i;
        assert ret == 0;
      }
    }
  }

  /** `lwis_pending_fences_move_all`: every completion fence goes to the tail
      of the pending list, in order, to be signalled with `errorCode`. */
  function PendingFencesMoveAll(tx: Transaction, pending: seq<PendingSignal>, errorCode: int): (r: (Transaction, seq<PendingSignal>))
    ensures r.0 == tx.(completion := [])
    ensures |r.1| == |pending| + |tx.completion| && r.1[..|pending|] == pending
    ensures forall i :: 0 <= i < |tx.completion| ==>
              r.1[|pending| + i] == PendingSignal(tx.completion[i].fd, errorCode)
  {
    (tx.(completion := []), pending + seq(|tx.completion|, i requires 0 <= i < |tx.completion| => tx.completion[i].(pendingStatus := errorCode)))
  }

  /** Entry `j` is the first in the list to signal its fence with a real
      status: every earlier entry for the same fence carries NOT_SIGNALED,
      which `lwis_fence_signal` refuses. */
  predicate FirstSignal(pending: seq<PendingSignal>, j: nat)
    requires j < |pending|
  {
    && pending[j].pendingStatus != NOT_SIGNALED
    && forall i :: 0 <= i < j && pending[i].fd == pending[j].fd ==> pending[i].pendingStatus == NOT_SIGNALED
  }

  /** Whether no entry signals fence `fd` with a real status. */
  predicate NeverSignals(pending: seq<PendingSignal>, fd: int) {
    forall i :: 0 <= i < |pending| && pending[i].fd == fd ==> pending[i].pendingStatus == NOT_SIGNALED
  }

  /** The waiter lists the first `k` entries hand to the transaction engine:
      those of each fence that was unsignalled, at that fence's first real
      signal, in list order. */
  function Released(pending: seq<PendingSignal>, fences: map<int, Fence>, k: nat): (r: seq<TxList>)
    requires k <= |pending|
    requires forall i :: 0 <= i < |pending| ==> pending[i].fd in fences
    decreases k
  {
    if k == 0 then []
    else
      var f := fences[pending[k - 1].fd];
      Released(pending, fences, k - 1) + (if FirstSignal(pending, k - 1) && !f.Signaled() then f.txLists else [])
  }

  /** `lwis_fences_pending_signal_emit`: each pending fence is signalled with
      its status, in order; failures are only logged, and the pending list is
      consumed. Every pending entry holds a reference to its fence, so each
      descriptor is present in `fences`. A fence that was unsignalled takes
      the status of its first entry with a real status, later entries for it
      failing with -EINVAL; a fence no entry signals, or one already
      signalled, is left as it was. */
  method PendingSignalEmit(pending: seq<PendingSignal>, fences: map<int, Fence>)
    returns (r: map<int, Fence>, triggered: seq<TxList>)
    requires forall i :: 0 <= i < |pending| ==> pending[i].fd in fences
    ensures r.Keys == fences.Keys
    ensures forall fd :: fd in fences && NeverSignals(pending, fd) ==> r[fd] == fences[fd]
    ensures forall fd :: fd in fences && fences[fd].Signaled() ==> r[fd] == fences[fd]
    ensures forall j :: 0 <= j < |pending| && FirstSignal(pending, j) && !fences[pending[j].fd].Signaled() ==>
              r[pending[j].fd] == fences[pending[j].fd].(status := pending[j].pendingStatus, txLists := [])
    ensures triggered == Released(pending, fences, |pending|)
  {
    r := fences;
    triggered := [];
    var i := 0;
    assert pending[..0] == [];
    while i < |pending|
      invariant 0 <= i <= |pending|
      invariant EmitInv(pending, fences, r, triggered, i)
    {
      var s := Signal(r[pending[i].fd], pending[i].pendingStatus);
      EmitStep(pending, fences, r, triggered, i);
      r := r[pending[i].fd := s.fence];
      triggered := triggered + s.triggered;
      i := i + 1;
    }
    assert pending[..i] == pending;
  }

  /** What the first `i` entries of the emission have done to the fences
      and the released waiters. */
  predicate EmitInv(pending: seq<PendingSignal>, fences: map<int, Fence>, r: map<int, Fence>,
                    triggered: seq<TxList>, i: nat)
  {
    && i <= |pending|
    && (forall j :: 0 <= j < |pending| ==> pending[j].fd in fences)
    && r.Keys == fences.Keys
    && (forall fd :: fd in fences && NeverSignals(pending[..i], fd) ==> r[fd] == fences[fd])
    && (forall fd :: fd in fences && fences[fd].Signaled() ==> r[fd] == fences[fd])
    && (forall j :: 0 <= j < i && pending[j].pendingStatus != NOT_SIGNALED ==> r[pending[j].fd].Signaled())
    && (forall j :: 0 <= j < i && FirstSignal(pending, j) && !fences[pending[j].fd].Signaled() ==>
          r[pending[j].fd] == fences[pending[j].fd].(status := pending[j].pendingStatus, txLists := []))
    && triggered == Released(pending, fences, i)
  }

  /** Signalling entry `i` extends what the first `i` entries did. */
  lemma EmitStep(pending: seq<PendingSignal>, fences: map<int, Fence>, r: map<int, Fence>,
                 triggered: seq<TxList>, i: nat)
    requires i < |pending| && EmitInv(pending, fences, r, triggered, i)
    ensures var fd := pending[i].fd;
            var s := Signal(r[fd], pending[i].pendingStatus);
            EmitInv(pending, fences, r[fd := s.fence], triggered + s.triggered, i + 1)
  {
    var fd := pending[i].fd;
    var s := Signal(r[fd], pending[i].pendingStatus);
    EmitSignalSucceeds(pending, fences, r, triggered, i);
    if s.ret != 0 {
      EmitStepRefused(pending, fences, r, triggered, i);
    } else {
      EmitStepSignals(pending, fences, r, triggered, i);
    }
  }

  /** A refused signal changes nothing, and the invariant moves past it. */
  lemma EmitStepRefused(pending: seq<PendingSignal>, fences: map<int, Fence>, r: map<int, Fence>,
                        triggered: seq<TxList>, i: nat)
    requires i < |pending| && EmitInv(pending, fences, r, triggered, i)
    requires !(FirstSignal(pending, i) && !fences[pending[i].fd].Signaled())
    requires pending[i].pendingStatus != NOT_SIGNALED ==> r[pending[i].fd].Signaled()
    ensures EmitInv(pending, fences, r, triggered, i + 1)
  {
    EmitKeepsNever(pending, fences, r, r, i);
  }

  /** A first real signal of an unsignalled fence stores its status, empties
      its table and releases its original waiters. */
  lemma EmitStepSignals(pending: seq<PendingSignal>, fences: map<int, Fence>, r: map<int, Fence>,
                        triggered: seq<TxList>, i: nat)
    requires i < |pending| && EmitInv(pending, fences, r, triggered, i)
    requires FirstSignal(pending, i) && !fences[pending[i].fd].Signaled()
    requires r[pending[i].fd] == fences[pending[i].fd]
    ensures var fd := pending[i].fd;
            var f := fences[fd];
            EmitInv(pending, fences, r[fd := f.(status := pending[i].pendingStatus, txLists := [])],
                    triggered + f.txLists, i + 1)
  {
    var fd := pending[i].fd;
    var f := fences[fd];
    var r' := r[fd := f.(status := pending[i].pendingStatus, txLists := [])];
    assert r' == r[fd := Signal(r[fd], pending[i].pendingStatus).fence];
    EmitKeepsNever(pending, fences, r, r', i);
    EmitKeepsFirst(pending, fences, r, r', i);
  }

  /** When entry `i` signals its fence for the first time, the fences the
      earlier first signals set are left alone. */
  lemma EmitKeepsFirst(pending: seq<PendingSignal>, fences: map<int, Fence>, r: map<int, Fence>,
                       r': map<int, Fence>, i: nat)
    requires i < |pending| && forall j :: 0 <= j < |pending| ==> pending[j].fd in fences
    requires r.Keys == fences.Keys
    requires forall j :: 0 <= j < i && FirstSignal(pending, j) && !fences[pending[j].fd].Signaled() ==>
               r[pending[j].fd] == fences[pending[j].fd].(status := pending[j].pendingStatus, txLists := [])
    requires FirstSignal(pending, i) && !fences[pending[i].fd].Signaled()
    requires r' == r[pending[i].fd := fences[pending[i].fd].(status := pending[i].pendingStatus, txLists := [])]
    ensures forall j :: 0 <= j < i + 1 && FirstSignal(pending, j) && !fences[pending[j].fd].Signaled() ==>
              r'[pending[j].fd] == fences[pending[j].fd].(status := pending[j].pendingStatus, txLists := [])
  {
  }

  /** Entry `i`'s signal succeeds exactly when it is the first real signal of
      a fence that was unsignalled, and that fence is then still as it was. */
  lemma EmitSignalSucceeds(pending: seq<PendingSignal>, fences: map<int, Fence>, r: map<int, Fence>,
                           triggered: seq<TxList>, i: nat)
    requires i < |pending| && EmitInv(pending, fences, r, triggered, i)
    ensures var fd := pending[i].fd;
            Signal(r[fd], pending[i].pendingStatus).ret == 0 <==> FirstSignal(pending, i) && !fences[fd].Signaled()
    ensures var fd := pending[i].fd;
            FirstSignal(pending, i) && !fences[fd].Signaled() ==> r[fd] == fences[fd]
  {
    var fd := pending[i].fd;
    if FirstSignal(pending, i) {
      forall k | 0 <= k < |pending[..i]| && pending[..i][k].fd == fd
        ensures pending[..i][k].pendingStatus == NOT_SIGNALED
      {
        assert pending[..i][k] == pending[k];
      }
    } else if pending[i].pendingStatus != NOT_SIGNALED {
      var k :| 0 <= k < i && pending[k].fd == fd && pending[k].pendingStatus != NOT_SIGNALED;
      assert r[fd].Signaled();
    }
  }

  /** A fence none of the first `i + 1` entries signals is still as it was. */
  lemma EmitKeepsNever(pending: seq<PendingSignal>, fences: map<int, Fence>, r: map<int, Fence>,
                       r': map<int, Fence>, i: nat)
    requires i < |pending| && pending[i].fd in fences && r.Keys == fences.Keys
    requires forall fd :: fd in fences && NeverSignals(pending[..i], fd) ==> r[fd] == fences[fd]
    requires r' == r[pending[i].fd := Signal(r[pending[i].fd], pending[i].pendingStatus).fence]
    ensures forall fd :: fd in fences && NeverSignals(pending[..i + 1], fd) ==> r'[fd] == fences[fd]
  {
    forall fd | fd in fences && NeverSignals(pending[..i + 1], fd)
      ensures r'[fd] == fences[fd]
    {
      assert forall k :: 0 <= k < i ==> pending[..i][k] == pending[..i + 1][k];
      assert NeverSignals(pending[..i], fd);
      if fd == pending[i].fd {
        assert pending[..i + 1][i] == pending[i];
      }
    }
  }
}

=== FILE: mm_hint.dfy ===
/**
 The memory-management hint knobs: three module parameters (whether hints
 are enabled, the current hint mode, and a file-cache threshold in KiB), the
 setters user space writes them through, the mode other mm code reads, and
 the file-cache check against the threshold.

 The kernel's string parsers (`kstrtobool`, `kstrtoul`) enter as their
 result: None for a parse failure, otherwise the parsed value. The page
 counters enter as the two numbers read. Pages are 4 KiB (PAGE_SHIFT 12).
 */
module MmHint {
  import opened Common

  /** An `unsigned long`. */
  type u64 = x: int | 0 <= x < U64_MODULUS

  /** `enum mm_hint_mode`. */
  datatype Mode = MmHintNone | MmHintAppLaunch | MmHintCameraLaunch

  /** MM_HINT_NUM, the number of modes. */
  const MM_HINT_NUM: nat := 3
  const PAGE_SHIFT: nat := 12

  /** The mode numbered `n`, in enum order. */
  function ModeOf(n: nat): Mode
    requires n < MM_HINT_NUM
  {
    if n == 0 then MmHintNone else if n == 1 then MmHintAppLaunch else MmHintCameraLaunch
  }

  /** The three atomic parameters, as the numbers they hold. */
  datatype State = State(enable: u64, mode: u64, minFileCacheKb: u64)

  /** All three start at zero. */
  function Initial(): (s: State)
    ensures Inv(s)
  {
    State(0, 0, 0)
  }

  /** The stored mode always names a mode. */
  predicate Inv(s: State) {
    s.mode < MM_HINT_NUM
  }

  /** A setter's return and the parameters afterwards. */
  datatype SetOutcome = SetOutcome(ret: int, state: State)

  /** `mm_hint_enable_set`: store the parsed boolean as 0 or 1; a parse
      failure is -EINVAL and changes nothing. */
  function EnableSet(s: State, parsed: Option<bool>): (r: SetOutcome)
    ensures parsed.None? ==> r == SetOutcome(-EINVAL, s)
    ensures parsed.Some? ==> r.ret == 0 && r.state == s.(enable := if parsed.value then 1 else 0)
  {
    match parsed
    case None => SetOutcome(-EINVAL, s)
    case Some(b) => SetOutcome(0, s.(enable := if b then 1 else 0))
  }

  /** `mm_hint_mode_set`: only a parsed value below MM_HINT_NUM is stored;
      a parse failure or an out-of-range value is -EINVAL and changes
      nothing. */
  function ModeSet(s: State, parsed: Option<u64>): (r: SetOutcome)
    ensures r.ret == 0 || r.ret == -EINVAL
    ensures r.ret == 0 <==> parsed.Some? && parsed.value < MM_HINT_NUM
    ensures r.ret == 0 ==> r.state == s.(mode := parsed.value)
    ensures r.ret != 0 ==> r.state == s
  {
    match parsed
    case None => SetOutcome(-EINVAL, s)
    case Some(v) => if v < MM_HINT_NUM then SetOutcome(0, s.(mode := v)) else SetOutcome(-EINVAL, s)
  }

  /** `min_file_cache_kb_set`: any parsed value is stored; a parse failure is
      -EINVAL and changes nothing. */
  function MinFileCacheKbSet(s: State, parsed: Option<u64>): (r: SetOutcome)
    ensures parsed.None? ==> r == SetOutcome(-EINVAL, s)
    ensures parsed.Some? ==> r.ret == 0 && r.state == s.(minFileCacheKb := parsed.value)
  {
    match parsed
    case None => SetOutcome(-EINVAL, s)
    case Some(v) => SetOutcome(0, s.(minFileCacheKb := v))
  }

  /** Every setter keeps the stored mode in range, whatever it is given. */
  lemma SettersPreserveInv(s: State, b: Option<bool>, v: Option<u64>)
    requires Inv(s)
    ensures Inv(EnableSet(s, b).state)
    ensures Inv(ModeSet(s, v).state)
    ensures Inv(MinFileCacheKbSet(s, v).state)
  {
  }

  /** `get_mm_hint_mode`: NONE while hints are disabled, the stored mode
      otherwise. */
  function GetMode(s: State): (m: Mode)
    requires Inv(s)
    ensures s.enable == 0 ==> m == MmHintNone
    ensures s.enable != 0 ==> m == ModeOf(s.mode)
  {
    if s.enable != 0 then ModeOf(s.mode) else MmHintNone
  }

  /** Before any write, hints read as NONE. */
  lemma InitialModeIsNone()
    ensures GetMode(Initial()) == MmHintNone
  {
  }

  /** Enabling hints and setting a mode, in either order, makes that mode
      the one read; disabling hides it again without forgetting it. */
  lemma EnableThenModeRoundTrip(s: State, v: u64)
    requires Inv(s) && v < MM_HINT_NUM
    ensures var s1 := ModeSet(EnableSet(s, Some(true)).state, Some(v)).state;
            Inv(s1) && GetMode(s1) == ModeOf(v)
    ensures var s2 := EnableSet(ModeSet(s, Some(v)).state, Some(true)).state;
            Inv(s2) && GetMode(s2) == ModeOf(v)
    ensures var s3 := EnableSet(ModeSet(EnableSet(s, Some(true)).state, Some(v)).state, Some(false)).state;
            Inv(s3) && GetMode(s3) == MmHintNone && s3.mode == v
  {
  }

  /** A rejected mode write leaves the mode that is read unchanged. */
  lemma RejectedModeKeepsReading(s: State, parsed: Option<u64>)
    requires Inv(s) && (parsed.None? || parsed.value >= MM_HINT_NUM)
    ensures Inv(ModeSet(s, parsed).state) && GetMode(ModeSet(s, parsed).state) == GetMode(s)
  {
  }

  /** `K(x)`: pages to KiB, `x << (PAGE_SHIFT - 10)` in an `unsigned long`. */
  function K(x: u64): (kb: u64)
    ensures x < U64_MODULUS / 4 ==> kb * 1024 == x * Pow2(PAGE_SHIFT)
  {
    ToU64(x * Pow2(PAGE_SHIFT - 10))
  }

  /** `is_file_cache_enough`: whether the active and inactive file pages,
      summed in an `unsigned long` and converted to KiB, strictly exceed the
      threshold. */
  function IsFileCacheEnough(s: State, activeFile: u64, inactiveFile: u64): (b: bool)
    ensures activeFile + inactiveFile < U64_MODULUS / 4 ==>
              (b <==> (activeFile + inactiveFile) * 4 > s.minFileCacheKb)
  {
    K(ToU64(activeFile + inactiveFile)) > s.minFileCacheKb
  }

  /** Without wrap-around, more file pages never make the cache "not
      enough", and a higher threshold never makes it "enough"; a cache of
      exactly the threshold is not enough. */
  lemma FileCacheMonotone(s: State, a: u64, i: u64, a': u64, i': u64, t: u64)
    requires a' + i' < U64_MODULUS / 4 && a <= a' && i <= i'
    ensures IsFileCacheEnough(s, a, i) ==> IsFileCacheEnough(s, a', i')
    ensures t >= s.minFileCacheKb && IsFileCacheEnough(s.(minFileCacheKb := t), a, i) ==> IsFileCacheEnough(s, a, i)
    ensures (a + i) * 4 == s.minFileCacheKb ==> !IsFileCacheEnough(s, a, i)
  {
  }
}

=== FILE: smra.dfy ===
/**
 SMRA (Smart Readahead) page-fault recorder: a registry of target processes,
 each owning a fixed-capacity buffer of file-fault records, a hot-path
 recorder that appends or drops, a post-processor that turns a snapshot of
 each buffer into path/offset/time metadata, and the setup/start/stop/reset
 lifecycle.

 The kernel's global state (`smra_enable`, `smra_targets_list`) is one
 `State` value; the reference count that `get_file`/`fput` maintain on each
 `struct file` is the multiset `refs` of references the module holds.
 Locks are erased: every operation is one atomic step.
 */
module Smra {
  import opened Common

  /** Size of the buffer `d_path` writes a resolved path into. */
  const MAX_PATH_LEN: nat := 256

  /** Identity of an opened `struct file`. */
  type File = nat

  /** One recorded fault: the file (a reference is held on it), the page
      offset and the time of the fault. */
  datatype FaultInfo = FaultInfo(file: File, offset: nat, time: int)

  /** A recording buffer of capacity `size`. `faultInfo` holds exactly the
      slots `0 .. cur-1` of the kernel array; the slots beyond the cursor are
      never read and are not modelled. */
  datatype InfoBuffer = InfoBuffer(faultInfo: seq<FaultInfo>, size: int) {
    /** The write cursor `cur`. */
    function Cur(): nat {
      |faultInfo|
    }

    /** `0 <= cur <= size`. */
    predicate Valid() {
      Cur() <= size
    }

    predicate Full() {
      Cur() >= size
    }
  }

  /** A traced process and the buffer it owns. */
  datatype Target = Target(pid: int, buf: InfoBuffer)

  /** The module's global state: the enable flag, the target list in list
      order, and the file references the recorder has taken and not yet
      released. */
  datatype State = State(enabled: bool, targets: seq<Target>, refs: multiset<File>)

  /** Human-readable form of a record. */
  datatype Metadata = Metadata(path: string, offset: nat, time: int)

  /** What allocating a metadata entry and calling `d_path` on a file yields:
      the file's full path name, or an error. */
  datatype Resolution = Resolved(path: string) | Unresolved(err: Errno)

  /** The files a sequence of records refers to, in record order. */
  function FilesOf(infos: seq<FaultInfo>): (fs: seq<File>)
    ensures |fs| == |infos|
    ensures forall i :: 0 <= i < |infos| ==> fs[i] == infos[i].file
  {
    seq(|infos|, i requires 0 <= i < |infos| => infos[i].file)
  }

  /** Every file reference held by the records of `targets`. */
  function HeldFiles(targets: seq<Target>): multiset<File>
    decreases |targets|
  {
    if |targets| == 0 then multiset{}
    else multiset(FilesOf(targets[0].buf.faultInfo)) + HeldFiles(targets[1..])
  }

  /** Every buffer respects its capacity, and the module holds exactly one
      file reference per recorded fault. */
  ghost predicate Inv(s: State) {
    && (forall i :: 0 <= i < |s.targets| ==> s.targets[i].buf.Valid())
    && s.refs == HeldFiles(s.targets)
  }

  // ---------------------------------------------------------------------
  // Buffers
  // ---------------------------------------------------------------------

  /** smra_buffer_setup: allocate a buffer of capacity `size`. `allocOk`
      says whether the allocator satisfies both requests; a negative `size`
      converts to a huge `size_t` that `kmalloc_array` always refuses. */
  function BufferSetup(size: int, allocOk: bool): (r: Option<InfoBuffer>)
    ensures r.Some? <==> allocOk && size >= 0
    ensures r.Some? ==> r.value.Cur() == 0 && r.value.size == size
  {
    if allocOk && size >= 0 then Some(InfoBuffer([], size)) else None
  }

  /** smra_buffer_copy: the snapshot takes the source's cursor, capacity and
      records. The `memcpy` copies `src->size` slots into an array of
      `dst->size` slots, and nothing checks that they fit: None stands for the
      copy writing past the end of the destination. */
  function BufferCopy(dst: InfoBuffer, src: InfoBuffer): (r: Option<InfoBuffer>)
    ensures r.None? <==> src.size > dst.size
    ensures r.Some? ==> r.value.Cur() == src.Cur() && r.value.size == src.size
    ensures r.Some? ==> forall i :: 0 <= i < src.Cur() ==> r.value.faultInfo[i] == src.faultInfo[i]
  {
    if src.size > dst.size then None else Some(InfoBuffer(src.faultInfo, src.size))
  }

  // ---------------------------------------------------------------------
  // Post-processing
  // ---------------------------------------------------------------------

  /** new_metadata_from_info: resolve the record's file into a path that
      must fit, with its terminating NUL, in MAX_PATH_LEN bytes, and copy the
      offset and time. */
  function NewMetadata(info: FaultInfo, resolve: File -> Resolution): (r: Result<Metadata>)
    ensures r.Ok? <==> resolve(info.file).Resolved? && |resolve(info.file).path| < MAX_PATH_LEN
    ensures r.Ok? ==> r.value == Metadata(resolve(info.file).path, info.offset, info.time)
    ensures r.Ok? ==> |r.value.path| < MAX_PATH_LEN
    ensures resolve(info.file).Unresolved? ==> r == Err(resolve(info.file).err)
    ensures resolve(info.file).Resolved? && !r.Ok? ==> r == Err(-ENAMETOOLONG)
  {
    match resolve(info.file)
    case Unresolved(e) => Err(e)
    case Resolved(p) =>
      if |p| + 1 > MAX_PATH_LEN then Err(-ENAMETOOLONG)
      else Ok(Metadata(p, info.offset, info.time))
  }

  /** Every record of `buf` resolves. */
  ghost predicate Resolvable(buf: InfoBuffer, resolve: File -> Resolution) {
    forall i :: 0 <= i < buf.Cur() ==> NewMetadata(buf.faultInfo[i], resolve).Ok?
  }

  /** The metadata list a resolvable buffer yields: one entry per record,
      in record order. */
  ghost function Footprint(buf: InfoBuffer, resolve: File -> Resolution): (ms: seq<Metadata>)
    requires Resolvable(buf, resolve)
    ensures |ms| == buf.Cur()
    ensures forall i :: 0 <= i < buf.Cur() ==> Ok(ms[i]) == NewMetadata(buf.faultInfo[i], resolve)
  {
    seq(buf.Cur(), i requires 0 <= i < buf.Cur() => NewMetadata(buf.faultInfo[i], resolve).value)
  }

  /** `i` is the first record of `buf` that fails to resolve, with error `err`. */
  ghost predicate FirstFailure(buf: InfoBuffer, resolve: File -> Resolution, i: int, err: int) {
    && 0 <= i < buf.Cur()
    && NewMetadata(buf.faultInfo[i], resolve).Err?
    && NewMetadata(buf.faultInfo[i], resolve).code == err
    && forall j :: 0 <= j < i ==> NewMetadata(buf.faultInfo[j], resolve).Ok?
  }

  /** do_post_processing: append one metadata per record to `footprint`, in
      order; on the first failure free the whole list and return the error. */
  method DoPostProcessing(buf: InfoBuffer, footprint: seq<Metadata>, resolve: File -> Resolution)
    returns (err: int, out: seq<Metadata>)
    ensures buf.Cur() == 0 ==> err == 0 && out == footprint
    ensures err == 0 <==> Resolvable(buf, resolve)
    ensures err == 0 ==> out == footprint + Footprint(buf, resolve)
    ensures err != 0 ==> err < 0 && out == [] && exists i :: FirstFailure(buf, resolve, i, err)
  {
    if buf.Cur() == 0 {
      return 0, footprint;
    }
    out := footprint;
    var i := 0;
    while i < buf.Cur()
      invariant 0 <= i <= buf.Cur()
      invariant forall j :: 0 <= j < i ==> NewMetadata(buf.faultInfo[j], resolve).Ok?
      invariant |out| == |footprint| + i
      invariant out[..|footprint|] == footprint
      invariant forall j :: 0 <= j < i ==> Ok(out[|footprint| + j]) == NewMetadata(buf.faultInfo[j], resolve)
    {
      var m := NewMetadata(buf.faultInfo[i], resolve);
      if m.Err? {
        assert FirstFailure(buf, resolve, i, m.code);
        return m.code, [];
      }
      out := out + [m.value];
      i := i + 1;
    }
    err := 0;
    assert out == footprint + Footprint(buf, resolve);
  }

  /** The outcome of smra_post_processing: an error code with one metadata
      list per requested pid, a `BUG_ON` because the registry does not list
      exactly the requested pids in order, or a snapshot copied past the end
      of the working buffer. */
  datatype PostOutcome = PostDone(err: int, footprints: seq<seq<Metadata>>) | PostBug | PostOverflow

  /** The registry lists `pids` (or a prefix of them) in order. */
  ghost predicate RegistryMatches(targets: seq<Target>, pids: seq<int>) {
    |targets| <= |pids| && forall i :: 0 <= i < |targets| ==> targets[i].pid == pids[i]
  }

  /** Every target's buffer fits in a working buffer of `bufferSize` slots. */
  ghost predicate Fits(targets: seq<Target>, bufferSize: int) {
    forall i :: 0 <= i < |targets| ==> targets[i].buf.size <= bufferSize
  }

  /** Post-processing reaches target `i` and its buffer does not fit: the
      targets before it match the pids and resolve, it matches its pid, and
      its capacity exceeds `bufferSize`. */
  ghost predicate TooLargeAt(targets: seq<Target>, pids: seq<int>, bufferSize: int,
                             resolve: File -> Resolution, i: int) {
    && 0 <= i < |targets| && i < |pids|
    && (forall j :: 0 <= j <= i ==> targets[j].pid == pids[j])
    && (forall j :: 0 <= j < i ==> Resolvable(targets[j].buf, resolve))
    && targets[i].buf.size > bufferSize
  }

  /** Post-processing reaches target `t` and fails on it with `err`: the
      targets up to `t` match the pids and fit, the ones before it resolve,
      and `err` is the error of the first record of target `t` that does
      not. */
  ghost predicate ResolveFailsAt(targets: seq<Target>, pids: seq<int>, bufferSize: int,
                                 resolve: File -> Resolution, t: int, err: int) {
    && 0 <= t < |targets| && t < |pids|
    && (forall j :: 0 <= j <= t ==> targets[j].pid == pids[j])
    && (forall j :: 0 <= j <= t ==> targets[j].buf.size <= bufferSize)
    && (forall j :: 0 <= j < t ==> Resolvable(targets[j].buf, resolve))
    && exists i :: FirstFailure(targets[t].buf, resolve, i, err)
  }

  /** The failing target and its error are determined by the inputs. */
  lemma ResolveFailsAtUnique(targets: seq<Target>, pids: seq<int>, bufferSize: int,
                             resolve: File -> Resolution, t: int, err: int, t': int, err': int)
    requires ResolveFailsAt(targets, pids, bufferSize, resolve, t, err)
    requires ResolveFailsAt(targets, pids, bufferSize, resolve, t', err')
    ensures t == t' && err == err'
  {
    var i :| FirstFailure(targets[t].buf, resolve, i, err);
    var i' :| FirstFailure(targets[t'].buf, resolve, i', err');
  }

  ghost predicate AllEmpty(footprints: seq<seq<Metadata>>) {
    forall i :: 0 <= i < |footprints| ==> footprints[i] == []
  }

  function EmptyLists(n: nat): (ls: seq<seq<Metadata>>)
    ensures |ls| == n
    ensures forall i :: 0 <= i < n ==> ls[i] == []
  {
    seq(n, i => [])
  }

  /** smra_post_processing: snapshot each target's buffer into a working
      buffer of capacity `bufferSize` and post-process it into the list for
      that target; on the first error, free every list produced so far and
      return the error. The registry itself is not changed. A target whose
      buffer is larger than the working buffer (set up by an earlier
      smra_setup with a larger size) is copied past the working buffer's
      end. */
  method PostProcessing(s: State, pids: seq<int>, bufferSize: int, allocOk: bool,
                        resolve: File -> Resolution)
    returns (r: PostOutcome)
    ensures !allocOk || bufferSize < 0 ==> r == PostDone(-ENOMEM, EmptyLists(|pids|))
    ensures r.PostDone? ==> |r.footprints| == |pids|
    ensures r.PostDone? && r.err != 0 ==> r.err < 0 && AllEmpty(r.footprints)
    ensures r.PostDone? && r.err == 0 <==>
              allocOk && bufferSize >= 0 && RegistryMatches(s.targets, pids) && Fits(s.targets, bufferSize)
              && forall i :: 0 <= i < |s.targets| ==> Resolvable(s.targets[i].buf, resolve)
    ensures r.PostDone? && r.err == 0 ==>
              (forall i :: 0 <= i < |s.targets| ==> r.footprints[i] == Footprint(s.targets[i].buf, resolve))
              && forall i :: |s.targets| <= i < |pids| ==> r.footprints[i] == []
    ensures r.PostBug? ==> !RegistryMatches(s.targets, pids)
    ensures r.PostOverflow? <==>
              allocOk && bufferSize >= 0 && exists i :: TooLargeAt(s.targets, pids, bufferSize, resolve, i)
    ensures allocOk && bufferSize >= 0 && r.PostDone? && r.err != 0 ==>
              exists t :: ResolveFailsAt(s.targets, pids, bufferSize, resolve, t, r.err)
  {
    var work := BufferSetup(bufferSize, allocOk);
    if work.None? {
      return PostDone(-ENOMEM, EmptyLists(|pids|));
    }
    var footprints := EmptyLists(|pids|);
    var i := 0;
    while i < |s.targets|
      invariant 0 <= i <= |s.targets|
      invariant i <= |pids|
      invariant |footprints| == |pids|
      invariant forall j :: 0 <= j < i ==> s.targets[j].pid == pids[j]
      invariant forall j :: 0 <= j < i ==> Resolvable(s.targets[j].buf, resolve)
      invariant forall j :: 0 <= j < i ==> s.targets[j].buf.size <= bufferSize
      invariant forall j :: 0 <= j < i ==> footprints[j] == Footprint(s.targets[j].buf, resolve)
      invariant forall j :: i <= j < |pids| ==> footprints[j] == []
    {
      if i >= |pids| || s.targets[i].pid != pids[i] {
        return PostBug;
      }
      var snapshot := BufferCopy(work.value, s.targets[i].buf);
      if snapshot.None? {
        assert TooLargeAt(s.targets, pids, bufferSize, resolve, i);
        return PostOverflow;
      }
      assert snapshot.value == s.targets[i].buf;
      var err, out := DoPostProcessing(snapshot.value, footprints[i], resolve);
      if err != 0 {
        assert ResolveFailsAt(s.targets, pids, bufferSize, resolve, i, err);
        return PostDone(err, EmptyLists(|pids|));
      }
      footprints := footprints[i := out];
      i := i + 1;
    }
    return PostDone(0, footprints);
  }

  /** smra_post_processing with the copy checked: a target whose buffer is
      larger than the working buffer is refused with -EINVAL, before anything
      is copied, instead of overflowing it. Otherwise it behaves as written. */
  method PostProcessingChecked(s: State, pids: seq<int>, bufferSize: int, allocOk: bool,
                               resolve: File -> Resolution)
    returns (r: PostOutcome)
    ensures !r.PostOverflow?
    ensures !allocOk || bufferSize < 0 ==> r == PostDone(-ENOMEM, EmptyLists(|pids|))
    ensures r.PostDone? ==> |r.footprints| == |pids|
    ensures r.PostDone? && r.err != 0 ==> r.err < 0 && AllEmpty(r.footprints)
    ensures r.PostDone? && r.err == 0 <==>
              allocOk && bufferSize >= 0 && RegistryMatches(s.targets, pids) && Fits(s.targets, bufferSize)
              && forall i :: 0 <= i < |s.targets| ==> Resolvable(s.targets[i].buf, resolve)
    ensures r.PostDone? && r.err == 0 ==>
              (forall i :: 0 <= i < |s.targets| ==> r.footprints[i] == Footprint(s.targets[i].buf, resolve))
              && forall i :: |s.targets| <= i < |pids| ==> r.footprints[i] == []
    ensures r.PostBug? ==> !RegistryMatches(s.targets, pids)
    ensures allocOk && bufferSize >= 0 && (exists i :: TooLargeAt(s.targets, pids, bufferSize, resolve, i)) ==>
              r == PostDone(-EINVAL, EmptyLists(|pids|))
    ensures allocOk && bufferSize >= 0 && r.PostDone? && r.err != 0
            && !(exists i :: TooLargeAt(s.targets, pids, bufferSize, resolve, i)) ==>
              exists t :: ResolveFailsAt(s.targets, pids, bufferSize, resolve, t, r.err)
  {
    var work := BufferSetup(bufferSize, allocOk);
    if work.None? {
      return PostDone(-ENOMEM, EmptyLists(|pids|));
    }
    var footprints := EmptyLists(|pids|);
    var i := 0;
    while i < |s.targets|
      invariant 0 <= i <= |s.targets|
      invariant i <= |pids|
      invariant |footprints| == |pids|
      invariant forall j :: 0 <= j < i ==> s.targets[j].pid == pids[j]
      invariant forall j :: 0 <= j < i ==> Resolvable(s.targets[j].buf, resolve)
      invariant forall j :: 0 <= j < i ==> s.targets[j].buf.size <= bufferSize
      invariant forall j :: 0 <= j < i ==> footprints[j] == Footprint(s.targets[j].buf, resolve)
      invariant forall j :: i <= j < |pids| ==> footprints[j] == []
    {
      if i >= |pids| || s.targets[i].pid != pids[i] {
        return PostBug;
      }
      if s.targets[i].buf.size > work.value.size {
        assert TooLargeAt(s.targets, pids, bufferSize, resolve, i);
        return PostDone(-EINVAL, EmptyLists(|pids|));
      }
      var snapshot := BufferCopy(work.value, s.targets[i].buf).value;
      assert snapshot == s.targets[i].buf;
      var err, out := DoPostProcessing(snapshot, footprints[i], resolve);
      if err != 0 {
        assert ResolveFailsAt(s.targets, pids, bufferSize, resolve, i, err);
        return PostDone(err, EmptyLists(|pids|));
      }
      footprints := footprints[i := out];
      i := i + 1;
    }
    return PostDone(0, footprints);
  }

  // ---------------------------------------------------------------------
  // Lifecycle
  // ---------------------------------------------------------------------

  /** Every allocation `smra_setup` makes for `n` pids succeeds. `alloc(i)`
      is the allocator's answer for the i-th target and its buffer. */
  ghost predicate SetupAllocates(n: nat, bufferSize: int, alloc: nat -> bool) {
    forall i :: 0 <= i < n ==> BufferSetup(bufferSize, alloc(i)).Some?
  }

  /** The targets `smra_setup` appends for `pids`: one per pid, in argument
      order, each with an empty buffer of capacity `bufferSize`. */
  function NewTargets(pids: seq<int>, bufferSize: int): (ts: seq<Target>)
    ensures |ts| == |pids|
    ensures forall i :: 0 <= i < |pids| ==> ts[i] == Target(pids[i], InfoBuffer([], bufferSize))
  {
    seq(|pids|, i requires 0 <= i < |pids| => Target(pids[i], InfoBuffer([], bufferSize)))
  }

  /** smra_setup as written: append one target per pid; if any allocation
      fails, remove and free every target on the list, including those of
      earlier calls, and return -ENOMEM. The freed buffers' records are not
      `fput`, so `refs` keeps them. */
  function Setup(s: State, pids: seq<int>, bufferSize: int, alloc: nat -> bool): (r: (State, int))
    ensures r.0.enabled == s.enabled && r.0.refs == s.refs
    ensures r.1 == 0 <==> SetupAllocates(|pids|, bufferSize, alloc)
    ensures r.1 == 0 ==>
              |r.0.targets| == |s.targets| + |pids|
              && r.0.targets[..|s.targets|] == s.targets
              && forall i :: 0 <= i < |pids| ==>
                   r.0.targets[|s.targets| + i] == Target(pids[i], InfoBuffer([], bufferSize))
    ensures r.1 != 0 ==> r.1 == -ENOMEM && r.0.targets == []
  {
    if forall i :: 0 <= i < |pids| ==> BufferSetup(bufferSize, alloc(i)).Some? then
      (s.(targets := s.targets + NewTargets(pids, bufferSize)), 0)
    else
      (s.(targets := []), -ENOMEM)
  }

  /** smra_setup with the evidently intended cleanup: the targets it frees
      release the file references their records hold, as smra_reset does.
      `released` lists the files put back. */
  function SetupReleasing(s: State, pids: seq<int>, bufferSize: int, alloc: nat -> bool)
    : (r: (State, int))
    ensures r.0.enabled == s.enabled
    ensures r.1 == 0 <==> SetupAllocates(|pids|, bufferSize, alloc)
    ensures r.1 == 0 ==> r.0 == Setup(s, pids, bufferSize, alloc).0
    ensures r.1 != 0 ==> r.1 == -ENOMEM && r.0.targets == [] && r.0.refs == s.refs - HeldFiles(s.targets)
  {
    var (t, ret) := Setup(s, pids, bufferSize, alloc);
    if ret == 0 then (t, ret) else (t.(refs := s.refs - HeldFiles(s.targets)), ret)
  }

  /** smra_start: set the enable flag and nothing else. */
  function Start(s: State): (r: State)
    ensures r.enabled
    ensures r.targets == s.targets && r.refs == s.refs
  {
    s.(enabled := true)
  }

  /** smra_stop: clear the enable flag and nothing else. */
  function Stop(s: State): (r: State)
    ensures !r.enabled
    ensures r.targets == s.targets && r.refs == s.refs
  {
    s.(enabled := false)
  }

  /** The file of every record of every target, target by target and, within
      a target, in record order: the order in which smra_reset calls `fput`. */
  function AllRecordFiles(targets: seq<Target>): seq<File>
    decreases |targets|
  {
    if |targets| == 0 then [] else FilesOf(targets[0].buf.faultInfo) + AllRecordFiles(targets[1..])
  }

  /** smra_reset: for every target `fput` each of its `cur` records, free
      it, and leave the registry empty. The enable flag is untouched.
      `released` is the sequence of files put back. */
  method Reset(s: State) returns (r: State, released: seq<File>)
    ensures r.enabled == s.enabled && r.targets == []
    ensures released == AllRecordFiles(s.targets)
    ensures multiset(released) == HeldFiles(s.targets)
    ensures r.refs == s.refs - multiset(released)
    ensures Inv(s) ==> r.refs == multiset{} && Inv(r)
  {
    released := [];
    var i := 0;
    while i < |s.targets|
      invariant 0 <= i <= |s.targets|
      invariant released == AllRecordFiles(s.targets[..i])
    {
      var buf := s.targets[i].buf;
      var j := 0;
      ghost var before := released;
      while j < buf.Cur()
        invariant 0 <= j <= buf.Cur()
        invariant released == before + FilesOf(buf.faultInfo[..j])
      {
        assert buf.faultInfo[..j + 1] == buf.faultInfo[..j] + [buf.faultInfo[j]];
        released := released + [buf.faultInfo[j].file];
        j := j + 1;
      }
      assert buf.faultInfo[..j] == buf.faultInfo;
      AllRecordFilesAppend(s.targets[..i], s.targets[i]);
      assert s.targets[..i + 1] == s.targets[..i] + [s.targets[i]];
      i := i + 1;
    }
    assert s.targets[..i] == s.targets;
    AllRecordFilesHeld(s.targets);
    r := State(s.enabled, [], s.refs - multiset(released));
  }

  lemma {:induction false} AllRecordFilesAppend(targets: seq<Target>, t: Target)
    ensures AllRecordFiles(targets + [t]) == AllRecordFiles(targets) + FilesOf(t.buf.faultInfo)
    decreases |targets|
  {
    if |targets| == 0 {
      assert AllRecordFiles([t][1..]) == [];
    } else {
      assert (targets + [t])[1..] == targets[1..] + [t];
      AllRecordFilesAppend(targets[1..], t);
    }
  }

  lemma {:induction false} AllRecordFilesHeld(targets: seq<Target>)
    ensures multiset(AllRecordFiles(targets)) == HeldFiles(targets)
    decreases |targets|
  {
    if |targets| > 0 {
      AllRecordFilesHeld(targets[1..]);
    }
  }

  // ---------------------------------------------------------------------
  // Recording
  // ---------------------------------------------------------------------

  /** find_target: the first target on the list whose pid is `pid`. */
  function FindTarget(targets: seq<Target>, pid: int): (r: Option<nat>)
    ensures r.Some? ==> r.value < |targets| && targets[r.value].pid == pid
                        && forall j :: 0 <= j < r.value ==> targets[j].pid != pid
    ensures r.None? ==> forall j :: 0 <= j < |targets| ==> targets[j].pid != pid
    decreases |targets|
  {
    if |targets| == 0 then None
    else if targets[0].pid == pid then Some(0)
    else match FindTarget(targets[1..], pid)
      case None => None
      case Some(k) => Some(k + 1)
  }

  /** rvh_do_read_fault: a file-backed fault at page `pgoff` by thread group
      `tgid` at time `now`. `file` is None for special mappings. */
  function ReadFault(s: State, file: Option<File>, pgoff: nat, tgid: int, now: int): (r: State)
    ensures r.enabled == s.enabled && |r.targets| == |s.targets|
    ensures !s.enabled || file.None? || FindTarget(s.targets, tgid).None? ==> r == s
    ensures s.enabled && file.Some? && FindTarget(s.targets, tgid).Some? ==>
              var k := FindTarget(s.targets, tgid).value;
              var buf := s.targets[k].buf;
              if buf.Full() then r == s
              else
                && r.targets == s.targets[k := Target(tgid, InfoBuffer(buf.faultInfo + [FaultInfo(file.value, pgoff, now)], buf.size))]
                && r.refs == s.refs + multiset{file.value}
  {
    if !s.enabled || file.None? then s
    else match FindTarget(s.targets, tgid)
      case None => s
      case Some(k) =>
        var t := s.targets[k];
        if t.buf.Full() then s
        else
          var buf' := InfoBuffer(t.buf.faultInfo + [FaultInfo(file.value, pgoff, now)], t.buf.size);
          State(s.enabled, s.targets[k := Target(t.pid, buf')], s.refs + multiset{file.value})
  }
}

=== FILE: smra_props.dfy ===
/**
 Properties of the SMRA recorder across operations: the reference-count and
 capacity invariant is kept by every operation except a failed `smra_setup`
 on a registry that already holds records; recording fills a buffer in
 arrival order and drops once it is full; a disabled recorder or an
 untraced process changes nothing.
 */
module SmraProps {
  import opened Common
  import opened Smra

  // ---------------------------------------------------------------------
  // Bookkeeping of held references
  // ---------------------------------------------------------------------

  lemma {:induction false} HeldFilesUpdate(ts: seq<Target>, k: nat, t: Target)
    requires k < |ts|
    ensures HeldFiles(ts[k := t]) + multiset(FilesOf(ts[k].buf.faultInfo))
            == HeldFiles(ts) + multiset(FilesOf(t.buf.faultInfo))
    decreases k
  {
    var ts' := ts[k := t];
    var old0, new0 := multiset(FilesOf(ts[k].buf.faultInfo)), multiset(FilesOf(t.buf.faultInfo));
    var a, a' := multiset(FilesOf(ts[0].buf.faultInfo)), multiset(FilesOf(ts'[0].buf.faultInfo));
    var rest, rest' := HeldFiles(ts[1..]), HeldFiles(ts'[1..]);
    assert HeldFiles(ts) == a + rest;
    assert HeldFiles(ts') == a' + rest';
    if k == 0 {
      assert ts'[1..] == ts[1..];
      assert a' == new0 && a == old0 && rest' == rest;
    } else {
      assert ts'[0] == ts[0];
      assert ts'[1..] == ts[1..][k - 1 := t];
      assert ts[1..][k - 1] == ts[k];
      HeldFilesUpdate(ts[1..], k - 1, t);
      assert rest' + old0 == rest + new0;
      MultisetShuffle(a, rest', old0, rest, new0);
    }
  }

  lemma MultisetShuffle<T>(a: multiset<T>, x: multiset<T>, y: multiset<T>, u: multiset<T>, v: multiset<T>)
    requires x + y == u + v
    ensures (a + x) + y == (a + u) + v
  {
    assert forall e :: ((a + x) + y)[e] == a[e] + (x + y)[e];
    assert forall e :: ((a + u) + v)[e] == a[e] + (u + v)[e];
  }

  lemma MultisetCancel<T>(a: multiset<T>, b: multiset<T>, c: multiset<T>)
    requires a + c == b + c
    ensures a == b
  {
    assert forall x :: (a + c)[x] == a[x] + c[x] && (b + c)[x] == b[x] + c[x];
  }

  lemma {:induction false} HeldFilesAppend(a: seq<Target>, b: seq<Target>)
    ensures HeldFiles(a + b) == HeldFiles(a) + HeldFiles(b)
    decreases |a|
  {
    if |a| == 0 {
      assert a + b == b;
    } else {
      assert (a + b)[1..] == a[1..] + b;
      HeldFilesAppend(a[1..], b);
    }
  }

  lemma {:induction false} HeldFilesOfEmptyBuffers(ts: seq<Target>)
    requires forall i :: 0 <= i < |ts| ==> ts[i].buf.faultInfo == []
    ensures HeldFiles(ts) == multiset{}
    decreases |ts|
  {
    if |ts| > 0 {
      assert FilesOf(ts[0].buf.faultInfo) == [];
      HeldFilesOfEmptyBuffers(ts[1..]);
    }
  }

  // ---------------------------------------------------------------------
  // The invariant across single operations
  // ---------------------------------------------------------------------

  /** An accepted fault takes exactly the one reference its new record holds,
      and never grows a buffer past its capacity. */
  lemma ReadFaultPreservesInv(s: State, file: Option<File>, pgoff: nat, tgid: int, now: int)
    requires Inv(s)
    ensures Inv(ReadFault(s, file, pgoff, tgid, now))
  {
    var r := ReadFault(s, file, pgoff, tgid, now);
    if s.enabled && file.Some? && FindTarget(s.targets, tgid).Some? {
      var k := FindTarget(s.targets, tgid).value;
      var buf := s.targets[k].buf;
      if !buf.Full() {
        var infos := buf.faultInfo + [FaultInfo(file.value, pgoff, now)];
        var t := Target(tgid, InfoBuffer(infos, buf.size));
        assert FilesOf(infos) == FilesOf(buf.faultInfo) + [file.value];
        assert multiset(FilesOf(infos)) == multiset(FilesOf(buf.faultInfo)) + multiset{file.value};
        assert r.targets == s.targets[k := t];
        HeldFilesUpdate(s.targets, k, t);
        var m := multiset(FilesOf(buf.faultInfo));
        assert HeldFiles(r.targets) + m == (s.refs + multiset{file.value}) + m;
        MultisetCancel(HeldFiles(r.targets), s.refs + multiset{file.value}, m);
      }
    }
  }

  /** A successful setup appends targets with empty buffers: no record, no
      reference. */
  lemma SetupSuccessPreservesInv(s: State, pids: seq<int>, bufferSize: int, alloc: nat -> bool)
    requires Inv(s)
    requires Setup(s, pids, bufferSize, alloc).1 == 0
    ensures Inv(Setup(s, pids, bufferSize, alloc).0)
  {
    var r := Setup(s, pids, bufferSize, alloc).0;
    var added := r.targets[|s.targets|..];
    assert r.targets == s.targets + added;
    assert BufferSetup(bufferSize, alloc(0)).Some? ==> bufferSize >= 0;
    if |pids| > 0 {
      assert bufferSize >= 0;
    }
    HeldFilesOfEmptyBuffers(added);
    HeldFilesAppend(s.targets, added);
  }

  /** A failed `smra_setup` drops every target, records included, without
      putting back their file references: when the registry held records,
      the module is left holding references that no record accounts for. */
  lemma SetupFailureLeaksReferences(s: State, pids: seq<int>, bufferSize: int, alloc: nat -> bool)
    requires Inv(s)
    requires Setup(s, pids, bufferSize, alloc).1 != 0
    ensures Setup(s, pids, bufferSize, alloc).0.targets == []
    ensures Setup(s, pids, bufferSize, alloc).0.refs == HeldFiles(s.targets)
    ensures Inv(Setup(s, pids, bufferSize, alloc).0) <==> HeldFiles(s.targets) == multiset{}
  {
    assert HeldFiles([]) == multiset{};
  }

  /** The concrete input: pid 7 has recorded one fault on file 1, and a
      setup for pid 8 fails to allocate. The registry is empty but the
      reference on file 1 is never released. */
  lemma SetupFailureLeakExample()
    ensures var s := State(true, [Target(7, InfoBuffer([FaultInfo(1, 0, 0)], 1))], multiset{1});
            && Inv(s)
            && var r := Setup(s, [8], 1, i => false).0;
            && r.targets == [] && r.refs == multiset{1} && !Inv(r)
  {
    var s := State(true, [Target(7, InfoBuffer([FaultInfo(1, 0, 0)], 1))], multiset{1});
    assert FilesOf(s.targets[0].buf.faultInfo) == [1];
    assert HeldFiles(s.targets[1..]) == multiset{};
    assert HeldFiles(s.targets) == multiset{1};
    assert Inv(s);
    var alloc: nat -> bool := i => false;
    assert !BufferSetup(1, alloc(0)).Some?;
    assert !SetupAllocates(1, 1, alloc);
    var r := Setup(s, [8], 1, alloc).0;
    assert r.targets == [];
    assert HeldFiles(r.targets) == multiset{};
  }

  /** Two setups with different sizes leave a registry that post-processing
      with the second size cannot snapshot: pid 7's buffer of 100 slots does
      not fit a working buffer of 50, so the copy as written overruns it and
      the checked copy refuses it. */
  lemma PostProcessingOverflowExample(resolve: File -> Resolution)
    ensures var s0 := State(false, [], multiset{});
            var s1 := Setup(s0, [7], 100, i => true).0;
            var s2 := Setup(s1, [8], 50, i => true).0;
            && s2.targets == [Target(7, InfoBuffer([], 100)), Target(8, InfoBuffer([], 50))]
            && TooLargeAt(s2.targets, [7, 8], 50, resolve, 0)
            && !Fits(s2.targets, 50)
  {
    var alloc: nat -> bool := i => true;
    assert SetupAllocates(1, 100, alloc) by {
      assert BufferSetup(100, alloc(0)).Some?;
    }
    assert SetupAllocates(1, 50, alloc) by {
      assert BufferSetup(50, alloc(0)).Some?;
    }
  }

  /** With the releasing cleanup every outcome of setup keeps the invariant. */
  lemma SetupReleasingPreservesInv(s: State, pids: seq<int>, bufferSize: int, alloc: nat -> bool)
    requires Inv(s)
    ensures Inv(SetupReleasing(s, pids, bufferSize, alloc).0)
  {
    if SetupReleasing(s, pids, bufferSize, alloc).1 == 0 {
      SetupSuccessPreservesInv(s, pids, bufferSize, alloc);
    }
  }

  lemma StartStopPreserveInv(s: State)
    requires Inv(s)
    ensures Inv(Start(s)) && Inv(Stop(s))
    ensures Start(Stop(s)) == Start(s) && Stop(Start(s)) == Stop(s)
  {
  }

  // ---------------------------------------------------------------------
  // Sequences of faults
  // ---------------------------------------------------------------------

  /** One call of the fault hook: file (None for special mappings), page
      offset, faulting thread group and the time `ktime_get` returns. */
  datatype FaultEvent = FaultEvent(file: Option<File>, pgoff: nat, tgid: int, time: int)

  /** The state after the hook has run for each event, in order. */
  function Replay(s: State, evs: seq<FaultEvent>): State
    decreases |evs|
  {
    if |evs| == 0 then s
    else Replay(ReadFault(s, evs[0].file, evs[0].pgoff, evs[0].tgid, evs[0].time), evs[1..])
  }

  /** While the recorder is disabled no fault changes anything. */
  lemma {:induction false} ReplayDisabled(s: State, evs: seq<FaultEvent>)
    requires !s.enabled
    ensures Replay(s, evs) == s
    decreases |evs|
  {
    if |evs| > 0 {
      ReplayDisabled(s, evs[1..]);
    }
  }

  /** Faults of processes that are not registered change nothing. */
  lemma {:induction false} ReplayUntracked(s: State, evs: seq<FaultEvent>)
    requires forall i :: 0 <= i < |evs| ==> FindTarget(s.targets, evs[i].tgid).None?
    ensures Replay(s, evs) == s
    decreases |evs|
  {
    if |evs| > 0 {
      ReplayUntracked(s, evs[1..]);
    }
  }

  lemma {:induction false} ReplayPreservesInv(s: State, evs: seq<FaultEvent>)
    requires Inv(s)
    ensures Inv(Replay(s, evs))
    decreases |evs|
  {
    if |evs| > 0 {
      ReadFaultPreservesInv(s, evs[0].file, evs[0].pgoff, evs[0].tgid, evs[0].time);
      ReplayPreservesInv(ReadFault(s, evs[0].file, evs[0].pgoff, evs[0].tgid, evs[0].time), evs[1..]);
    }
  }

  /** The records a sequence of file-backed faults would create. */
  function InfosOf(evs: seq<FaultEvent>): (infos: seq<FaultInfo>)
    requires forall i :: 0 <= i < |evs| ==> evs[i].file.Some?
    ensures |infos| == |evs|
    ensures forall i :: 0 <= i < |evs| ==>
              infos[i] == FaultInfo(evs[i].file.value, evs[i].pgoff, evs[i].time)
  {
    seq(|evs|, i requires 0 <= i < |evs| => FaultInfo(evs[i].file.value, evs[i].pgoff, evs[i].time))
  }

  function Min(a: int, b: int): int {
    if a <= b then a else b
  }

  lemma {:induction false} FindTargetSamePids(a: seq<Target>, b: seq<Target>, pid: int)
    requires |a| == |b|
    requires forall j :: 0 <= j < |a| ==> a[j].pid == b[j].pid
    ensures FindTarget(a, pid) == FindTarget(b, pid)
    decreases |a|
  {
    if |a| > 0 && a[0].pid != pid {
      FindTargetSamePids(a[1..], b[1..], pid);
    }
  }

  /** Recording is on and target `k` is the one that traces `pid`. */
  predicate Traces(s: State, pid: int, k: nat) {
    && s.enabled
    && FindTarget(s.targets, pid) == Some(k)
    && s.targets[k].buf.Valid()
  }

  /** Every event is a file-backed fault of `pid`. */
  predicate TracedFaults(evs: seq<FaultEvent>, pid: int) {
    forall i :: 0 <= i < |evs| ==> evs[i].tgid == pid && evs[i].file.Some?
  }

  /** Target `k` of `r` is target `k` of `s` with possibly more records;
      every other target is unchanged. */
  predicate OnlyTargetGrows(s: State, r: State, k: nat)
    requires k < |s.targets|
  {
    && |r.targets| == |s.targets|
    && (forall j :: 0 <= j < |s.targets| && j != k ==> r.targets[j] == s.targets[j])
    && r.targets[k].pid == s.targets[k].pid
    && r.targets[k].buf.size == s.targets[k].buf.size
  }

  /** One fault of the process that target `k` traces. */
  lemma OneTracedFault(s: State, pid: int, k: nat, e: FaultEvent)
    requires Traces(s, pid, k)
    requires e.tgid == pid && e.file.Some?
    ensures var r := ReadFault(s, e.file, e.pgoff, e.tgid, e.time);
            var buf := s.targets[k].buf;
            && Traces(r, pid, k)
            && OnlyTargetGrows(s, r, k)
            && r.targets[k].buf.faultInfo
               == (if buf.Full() then buf.faultInfo
                   else buf.faultInfo + [FaultInfo(e.file.value, e.pgoff, e.time)])
  {
    var r := ReadFault(s, e.file, e.pgoff, e.tgid, e.time);
    assert forall j :: 0 <= j < |s.targets| ==> r.targets[j].pid == s.targets[j].pid;
    FindTargetSamePids(r.targets, s.targets, pid);
  }

  /** One record offered to a buffer, then the first records of the rest
      into what room is left: together, a prefix of the whole offered to the
      original buffer. */
  lemma FifoStep(buf: InfoBuffer, buf1: InfoBuffer, x: FaultInfo, rest: seq<FaultInfo>)
    requires buf.Valid()
    requires buf.Full() ==> buf1 == buf
    requires !buf.Full() ==> buf1 == InfoBuffer(buf.faultInfo + [x], buf.size)
    ensures buf1.faultInfo + rest[..Min(|rest|, buf1.size - buf1.Cur())]
            == buf.faultInfo + ([x] + rest)[..Min(|rest| + 1, buf.size - buf.Cur())]
  {
    var room := buf.size - buf.Cur();
    if buf.Full() {
      assert Min(|rest|, room) == 0 == Min(|rest| + 1, room);
    } else {
      var n := Min(|rest| + 1, room);
      assert buf1.size - buf1.Cur() == room - 1;
      assert Min(|rest|, room - 1) == n - 1;
      assert ([x] + rest)[..n] == [x] + rest[..n - 1];
    }
  }

  /** Faults of a traced process touch only its own target, which keeps
      tracing it. */
  lemma {:induction false} ReplayFrame(s: State, pid: int, k: nat, evs: seq<FaultEvent>)
    requires Traces(s, pid, k) && TracedFaults(evs, pid)
    ensures Traces(Replay(s, evs), pid, k) && OnlyTargetGrows(s, Replay(s, evs), k)
    decreases |evs|
  {
    if |evs| > 0 {
      var e := evs[0];
      var s1 := ReadFault(s, e.file, e.pgoff, e.tgid, e.time);
      OneTracedFault(s, pid, k, e);
      var tail := evs[1..];
      assert forall i :: 0 <= i < |tail| ==> tail[i] == evs[i + 1];
      ReplayFrame(s1, pid, k, tail);
    }
  }

  /** First come, first kept: feeding file-backed faults of the process that
      target `k` traces appends them to its buffer in arrival order until the
      buffer is full and drops the rest (ReplayFrame: nothing else
      changes). */
  lemma {:induction false} ReplayFifo(s: State, pid: int, k: nat, evs: seq<FaultEvent>)
    requires Traces(s, pid, k) && TracedFaults(evs, pid)
    ensures var buf := s.targets[k].buf;
            && |Replay(s, evs).targets| == |s.targets|
            && Replay(s, evs).targets[k].buf.faultInfo == buf.faultInfo + InfosOf(evs)[..Min(|evs|, buf.size - buf.Cur())]
    decreases |evs|, 1
  {
    if |evs| == 0 {
      ReplayFrame(s, pid, k, evs);
      assert InfosOf(evs) == [];
    } else {
      ReplayFifoCons(s, pid, k, evs);
    }
  }

  /** The inductive step of ReplayFifo: the first fault, then the rest. */
  lemma {:induction false} ReplayFifoCons(s: State, pid: int, k: nat, evs: seq<FaultEvent>)
    requires Traces(s, pid, k) && TracedFaults(evs, pid) && |evs| > 0
    ensures var buf := s.targets[k].buf;
            && |Replay(s, evs).targets| == |s.targets|
            && Replay(s, evs).targets[k].buf.faultInfo == buf.faultInfo + InfosOf(evs)[..Min(|evs|, buf.size - buf.Cur())]
    decreases |evs|, 0
  {
    var e := evs[0];
    var s1 := ReadFault(s, e.file, e.pgoff, e.tgid, e.time);
    OneTracedFault(s, pid, k, e);
    var tail := evs[1..];
    assert TracedFaults(tail, pid) by {
      assert forall i :: 0 <= i < |tail| ==> tail[i] == evs[i + 1];
    }
    ReplayFifo(s1, pid, k, tail);
    assert Replay(s, evs) == Replay(s1, tail);
    var info := FaultInfo(e.file.value, e.pgoff, e.time);
    assert InfosOf(evs) == [info] + InfosOf(tail);
    FifoStep(s.targets[k].buf, s1.targets[k].buf, info, InfosOf(tail));
  }

  /** Registering pid 42 with capacity 3 on an idle recorder and starting it
      gives one empty buffer and no references. */
  lemma ScenarioStart()
    ensures Start(Setup(State(false, [], multiset{}), [42], 3, i => true).0)
            == State(true, [Target(42, InfoBuffer([], 3))], multiset{})
  {
    var e := State(false, [], multiset{});
    assert NewTargets([42], 3) == [Target(42, InfoBuffer([], 3))];
    assert HeldFiles(e.targets) == multiset{};
  }

  /** The four faults of the scenario below. */
  function ScenarioFaults(): seq<FaultEvent> {
    [FaultEvent(Some(1), 10, 42, 100), FaultEvent(Some(2), 11, 42, 101),
     FaultEvent(Some(3), 12, 42, 102), FaultEvent(Some(4), 13, 42, 103)]
  }

  /** Capacity 3, one target for pid 42, recording on, faults on files A=1,
      B=2, C=3, D=4 by pid 42: the buffer holds A, B, C in that order, D is
      dropped, and exactly A, B and C are referenced. */
  lemma CapacityThreeScenario()
    ensures var s0 := Start(Setup(State(false, [], multiset{}), [42], 3, i => true).0);
            var r := Replay(s0, ScenarioFaults());
            && FilesOf(r.targets[0].buf.faultInfo) == [1, 2, 3]
            && r.refs == multiset{1, 2, 3}
  {
    ScenarioStart();
    var evs := ScenarioFaults();
    var a, b, c := FaultInfo(1, 10, 100), FaultInfo(2, 11, 101), FaultInfo(3, 12, 102);
    var s0 := State(true, [Target(42, InfoBuffer([], 3))], multiset{});
    var s1 := State(true, [Target(42, InfoBuffer([a], 3))], multiset{1});
    var s2 := State(true, [Target(42, InfoBuffer([a, b], 3))], multiset{1, 2});
    var s3 := State(true, [Target(42, InfoBuffer([a, b, c], 3))], multiset{1, 2, 3});
    assert ReadFault(s0, evs[0].file, evs[0].pgoff, evs[0].tgid, evs[0].time) == s1 by {
      ScenarioStep(s0, evs[0], [], 3, multiset{});
      assert [] + [a] == [a];
    }
    assert ReadFault(s1, evs[1].file, evs[1].pgoff, evs[1].tgid, evs[1].time) == s2 by {
      ScenarioStep(s1, evs[1], [a], 3, multiset{1});
      assert [a] + [b] == [a, b];
    }
    assert ReadFault(s2, evs[2].file, evs[2].pgoff, evs[2].tgid, evs[2].time) == s3 by {
      ScenarioStep(s2, evs[2], [a, b], 3, multiset{1, 2});
      assert [a, b] + [c] == [a, b, c];
    }
    assert ReadFault(s3, evs[3].file, evs[3].pgoff, evs[3].tgid, evs[3].time) == s3;
    assert Replay(s3, evs[4..]) == s3;
    assert evs[3..][0] == evs[3] && evs[3..][1..] == evs[4..];
    assert Replay(s3, evs[3..]) == s3;
    assert evs[2..][0] == evs[2] && evs[2..][1..] == evs[3..];
    assert Replay(s2, evs[2..]) == s3;
    assert evs[1..][0] == evs[1] && evs[1..][1..] == evs[2..];
    assert Replay(s1, evs[1..]) == s3;
    assert Replay(s0, evs) == s3;
    assert FilesOf([a, b, c]) == [1, 2, 3];
  }

  /** One fault of pid 42 on a one-target recorder with room left. */
  lemma ScenarioStep(s: State, e: FaultEvent, infos: seq<FaultInfo>, size: int, refs: multiset<File>)
    requires s == State(true, [Target(42, InfoBuffer(infos, size))], refs)
    requires |infos| < size && e.tgid == 42 && e.file.Some?
    ensures ReadFault(s, e.file, e.pgoff, e.tgid, e.time)
            == State(true, [Target(42, InfoBuffer(infos + [FaultInfo(e.file.value, e.pgoff, e.time)], size))],
                     refs + multiset{e.file.value})
  {
    assert FindTarget(s.targets, 42) == Some(0);
  }

  /** After stop, a further fault of a traced process is
      dropped. */
  lemma {:induction false} StopDropsLaterFaults(s: State, evs: seq<FaultEvent>, later: seq<FaultEvent>)
    ensures Replay(Stop(Replay(s, evs)), later) == Stop(Replay(s, evs))
  {
    ReplayDisabled(Stop(Replay(s, evs)), later);
  }
}

=== FILE: vdroop.dfy ===
/**
 The MAX77779 voltage-droop glue of the battery current limiter: which
 brown-out interrupt the PMIC reports, which interrupt bits are cleared for
 it, when a VIMON conversion is requested, and which values the battery
 over-current thresholds and open timeout are programmed with.

 Register accesses enter as their return codes and the bytes they read. The
 bcl source numbers (UVLO1, UVLO2, BATOILO1, BATOILO2, NOT_USED), IRQ_NONE
 and the VDROOP_INT bit masks are defined outside this file, so the model
 takes the numbers as a `Codes` parameter and reads the register as its
 four flags. A register field setter is represented by the write it
 performs: the register's previous byte with one field replaced.
 */
module Vdroop {
  import opened Common

  /** The VDROOP_INT register as the driver sees it: the four brown-out
      flags it masks in, and whether any other bit is set. */
  datatype VdroopInt = VdroopInt(uvlo1: bool, uvlo2: bool, oilo1: bool, oilo2: bool, others: bool)

  /** The four interrupt sources this PMIC reports. */
  datatype Source = Uvlo1 | Uvlo2 | Batoilo1 | Batoilo2

  /** Whether the flag of source `s` is set. */
  predicate Raised(reg: VdroopInt, s: Source) {
    match s
    case Uvlo1 => reg.uvlo1
    case Uvlo2 => reg.uvlo2
    case Batoilo1 => reg.oilo1
    case Batoilo2 => reg.oilo2
  }

  /** Whether any of the four flags is set. */
  predicate AnyRaised(reg: VdroopInt) {
    reg.uvlo1 || reg.uvlo2 || reg.oilo1 || reg.oilo2
  }

  /** Reporting priority: 0 is reported first. */
  function Rank(s: Source): nat {
    match s
    case Uvlo2 => 0
    case Batoilo2 => 1
    case Batoilo1 => 2
    case Uvlo1 => 3
  }

  /** The numbers the surrounding bcl driver gives the sources, NOT_USED and
      the kernel's IRQ_NONE. */
  datatype Codes = Codes(uvlo1: int, uvlo2: int, batoilo1: int, batoilo2: int, notUsed: int, irqNone: int) {
    /** The source numbers fit the `u8` they are stored in and are
        distinct. */
    predicate Valid() {
      && 0 <= uvlo1 < 256 && 0 <= uvlo2 < 256 && 0 <= batoilo1 < 256 && 0 <= batoilo2 < 256
      && uvlo1 != uvlo2 && uvlo1 != batoilo1 && uvlo1 != batoilo2
      && uvlo2 != batoilo1 && uvlo2 != batoilo2 && batoilo1 != batoilo2
    }

    function Of(s: Source): int {
      match s
      case Uvlo1 => uvlo1
      case Uvlo2 => uvlo2
      case Batoilo1 => batoilo1
      case Batoilo2 => batoilo2
    }
  }

  /** What `max77779_get_irq` returns: IRQ_NONE, or the value of its `ret`. */
  datatype IrqRet = IrqNone | Ret(v: int)

  /** The highest-priority raised source: it is raised, and no source
      ranked before it is. */
  function Highest(reg: VdroopInt): (s: Source)
    requires AnyRaised(reg)
    ensures Raised(reg, s)
    ensures forall t: Source :: Rank(t) < Rank(s) ==> !Raised(reg, t)
  {
    if reg.uvlo2 then Uvlo2
    else if reg.oilo2 then Batoilo2
    else if reg.oilo1 then Batoilo1
    else Uvlo1
  }

  /** `max77779_get_irq` as written: the read's return is kept in a `u8`, so
      a negative error becomes 256 plus the error and the `ret < 0` test
      never holds; the flags of a register that was never read are then
      classified. The second component is what is stored in `*irq_val`
      (None: left untouched). */
  function GetIrqAsWritten(readRet: int, reg: VdroopInt): (r: (IrqRet, Option<Source>))
    ensures r.0.IrqNone? <==> !AnyRaised(reg)
    ensures r.0.Ret? ==> 0 <= r.0.v < 256 && r.0.v == readRet % 256
    ensures r.1.Some? <==> r.0.Ret?
  {
    var ret: u8 := readRet % 256;
    if ret < 0 then (IrqNone, None)
    else if !AnyRaised(reg) then (IrqNone, None)
    else (Ret(ret), Some(Highest(reg)))
  }

  /** A failed read (-EIO) is reported as a raised UVLO2 interrupt with the
      return value 251, classified from a register byte that was never
      filled in. */
  lemma GetIrqReadFailureUndetected(stale: VdroopInt)
    requires stale.uvlo2
    ensures GetIrqAsWritten(-EIO, stale) == (Ret(251), Some(Uvlo2))
  {
  }

  /** `max77779_get_irq` with the read failure detected, as the `ret < 0`
      test intends: IRQ_NONE when the read fails or none of the four flags is
      set, and otherwise the highest-priority raised source (UVLO2, then
      BATOILO2, then BATOILO1, then UVLO1). */
  function GetIrq(readRet: int, reg: VdroopInt): (r: (IrqRet, Option<Source>))
    ensures r.0.IrqNone? <==> readRet < 0 || !AnyRaised(reg)
    ensures r.0.Ret? ==> r.0.v == readRet
    ensures r.1.Some? <==> r.0.Ret?
    ensures r.1.Some? ==> Raised(reg, r.1.value) && forall s :: Rank(s) < Rank(r.1.value) ==> !Raised(reg, s)
  {
    if readRet < 0 then (IrqNone, None)
    else if !AnyRaised(reg) then (IrqNone, None)
    else (Ret(readRet), Some(Highest(reg)))
  }

  /** On a successful read the corrected classifier and the one as written
      agree. */
  lemma GetIrqAgreesOnSuccess(reg: VdroopInt)
    ensures GetIrq(0, reg) == GetIrqAsWritten(0, reg)
  {
  }

  /** The sources in reporting order. */
  function PriorityOrder(): seq<Source> {
    [Uvlo2, Batoilo2, Batoilo1, Uvlo1]
  }

  /** The reported source is the first raised one in reporting order. */
  lemma GetIrqPicksFirstRaised(readRet: int, reg: VdroopInt)
    requires readRet >= 0 && AnyRaised(reg)
    ensures exists k :: 0 <= k < 4 && GetIrq(readRet, reg).1 == Some(PriorityOrder()[k])
              && Raised(reg, PriorityOrder()[k])
              && forall j :: 0 <= j < k ==> !Raised(reg, PriorityOrder()[j])
  {
    var s := GetIrq(readRet, reg).1.value;
    var k := Rank(s);
    assert PriorityOrder()[k] == s;
    forall j | 0 <= j < k
      ensures !Raised(reg, PriorityOrder()[j])
    {
      assert Rank(PriorityOrder()[j]) == j;
    }
  }

  /** The VDROOP_INT bits written back to clear an interrupt of number
      `irqVal`: UVLO1 clears only its own bit, UVLO2 and both BATOILO levels
      clear UVLO2 and both OILO bits together, anything else clears nothing. */
  function ClearMask(codes: Codes, irqVal: int): (m: VdroopInt)
    ensures !m.others
    ensures m.uvlo1 ==> !m.uvlo2 && !m.oilo1 && !m.oilo2
    ensures (m.uvlo2 <==> m.oilo1) && (m.oilo1 <==> m.oilo2)
  {
    if irqVal == codes.uvlo2 then VdroopInt(false, true, true, true, false)
    else if irqVal == codes.uvlo1 then VdroopInt(true, false, false, false, false)
    else if irqVal == codes.batoilo1 then VdroopInt(false, true, true, true, false)
    else if irqVal == codes.batoilo2 then VdroopInt(false, true, true, true, false)
    else VdroopInt(false, false, false, false, false)
  }

  /** Which bits a source's clear mask holds, for distinct source numbers,
      and that a number that is no source clears nothing. */
  lemma ClearMaskTable(codes: Codes, irqVal: int)
    requires codes.Valid()
    ensures irqVal == codes.uvlo1 ==> ClearMask(codes, irqVal) == VdroopInt(true, false, false, false, false)
    ensures irqVal in {codes.uvlo2, codes.batoilo1, codes.batoilo2} ==>
              ClearMask(codes, irqVal) == VdroopInt(false, true, true, true, false)
    ensures (forall s :: codes.Of(s) != irqVal) ==> ClearMask(codes, irqVal) == VdroopInt(false, false, false, false, false)
  {
    if forall s :: codes.Of(s) != irqVal {
      assert codes.Of(Uvlo1) != irqVal && codes.Of(Uvlo2) != irqVal;
      assert codes.Of(Batoilo1) != irqVal && codes.Of(Batoilo2) != irqVal;
    }
  }

  /** What `max77779_clr_irq` did: its return and the mask it wrote, if it
      got that far. */
  datatype ClrOutcome = ClrOutcome(ret: IrqRet, written: Option<VdroopInt>)

  /** Write the clear mask of `irqVal` and map a failed write to IRQ_NONE. */
  function ClearWith(codes: Codes, irqVal: int, writeRet: int): (r: ClrOutcome)
    ensures r.written == Some(ClearMask(codes, irqVal))
    ensures r.ret.IrqNone? <==> writeRet < 0
    ensures r.ret.Ret? ==> r.ret.v == writeRet
  {
    ClrOutcome(if writeRet < 0 then IrqNone else Ret(writeRet), Some(ClearMask(codes, irqVal)))
  }

  /** `max77779_clr_irq` as written: clear the interrupt the caller names,
      or, when the caller passes NOT_USED, the one `max77779_get_irq` (as
      written) reports. `irq_val` starts at 0 and is a `u8`, so a caller's
      number is kept modulo 256. The classification's return is compared
      against 0 as a number, so IRQ_NONE stops the clear only when its value
      is nonzero, and a successful classification goes on only when the
      read's byte is 0. */
  function ClrIrq(codes: Codes, idx: int, readRet: int, reg: VdroopInt, writeRet: int): (r: ClrOutcome)
    ensures idx != codes.notUsed ==> r == ClearWith(codes, idx % 256, writeRet)
    ensures idx == codes.notUsed && AnyRaised(reg) ==>
              r == if readRet % 256 == 0 then ClearWith(codes, codes.Of(Highest(reg)), writeRet)
                   else ClrOutcome(IrqNone, None)
    ensures idx == codes.notUsed && !AnyRaised(reg) ==>
              r == if codes.irqNone == 0 then ClearWith(codes, 0, writeRet) else ClrOutcome(IrqNone, None)
    ensures r.written.None? ==> r.ret.IrqNone?
    ensures r.ret.Ret? ==> writeRet >= 0 && r.ret.v == writeRet
  {
    if idx != codes.notUsed then ClearWith(codes, idx % 256, writeRet)
    else
      var g := GetIrqAsWritten(readRet, reg);
      var gv := match g.0 case IrqNone => codes.irqNone case Ret(v) => v;
      if gv != 0 then ClrOutcome(IrqNone, None)
      else
        var irqVal := match g.1 case Some(s) => codes.Of(s) case None => 0;
        ClearWith(codes, irqVal, writeRet)
  }

  /** `max77779_clr_irq` as evidently intended: with NOT_USED, the clear
      goes ahead exactly when the (corrected) classification reports a
      source, and clears that source. */
  function ClrIrqCorrected(codes: Codes, idx: int, readRet: int, reg: VdroopInt, writeRet: int): (r: ClrOutcome)
    ensures idx != codes.notUsed ==> r == ClearWith(codes, idx % 256, writeRet)
    ensures idx == codes.notUsed ==> (r.written.Some? <==> readRet >= 0 && AnyRaised(reg))
    ensures r.written.None? ==> r.ret.IrqNone?
    ensures r.ret.Ret? ==> writeRet >= 0 && r.ret.v == writeRet
  {
    if idx != codes.notUsed then ClearWith(codes, idx % 256, writeRet)
    else
      match GetIrq(readRet, reg).1
      case None => ClrOutcome(IrqNone, None)
      case Some(s) => ClearWith(codes, codes.Of(s), writeRet)
  }

  /** Clearing what was just classified acknowledges it: the mask written
      holds the flag of the reported source. */
  lemma ClearAcknowledgesReported(codes: Codes, readRet: int, reg: VdroopInt, writeRet: int)
    requires codes.Valid()
    ensures var r := ClrIrqCorrected(codes, codes.notUsed, readRet, reg, writeRet);
            r.written.Some? ==> Raised(r.written.value, GetIrq(readRet, reg).1.value)
  {
    var r := ClrIrqCorrected(codes, codes.notUsed, readRet, reg, writeRet);
    if r.written.Some? {
      ClearMaskTable(codes, codes.Of(GetIrq(readRet, reg).1.value));
    }
  }

  /** A caller that names a source clears that source's mask, whatever the
      register holds, in both versions. */
  lemma ClrIrqNamedSource(codes: Codes, s: Source, readRet: int, reg: VdroopInt, writeRet: int)
    requires codes.Valid() && codes.Of(s) != codes.notUsed
    ensures ClrIrq(codes, codes.Of(s), readRet, reg, writeRet).written == Some(ClearMask(codes, codes.Of(s)))
    ensures ClrIrqCorrected(codes, codes.Of(s), readRet, reg, writeRet) == ClrIrq(codes, codes.Of(s), readRet, reg, writeRet)
    ensures Raised(ClearMask(codes, codes.Of(s)), s)
  {
    ClearMaskTable(codes, codes.Of(s));
  }

  /** With nothing raised and IRQ_NONE numbered 0, as the kernel numbers it,
      the clear as written is not skipped: it writes the mask of source
      number 0, the initial `irq_val`, where the corrected clear writes
      nothing. */
  lemma ClrIrqNothingRaised(codes: Codes, readRet: int, reg: VdroopInt, writeRet: int)
    requires !AnyRaised(reg)
    ensures codes.irqNone == 0 ==>
              ClrIrq(codes, codes.notUsed, readRet, reg, writeRet).written == Some(ClearMask(codes, 0))
    ensures codes.irqNone != 0 ==> ClrIrq(codes, codes.notUsed, readRet, reg, writeRet) == ClrOutcome(IrqNone, None)
    ensures ClrIrqCorrected(codes, codes.notUsed, readRet, reg, writeRet) == ClrOutcome(IrqNone, None)
  {
  }

  /** Over every value the register read can return, the clear as written
      and the corrected one differ exactly when a flag is raised and the
      read's low byte being 0 disagrees with the read succeeding (a failed
      read whose errno is a multiple of 256 is taken for success; a positive
      return with a nonzero low byte is taken for failure), or when nothing
      is raised and IRQ_NONE is 0. */
  lemma ClrIrqAsWrittenVsCorrected(codes: Codes, readRet: int, reg: VdroopInt, writeRet: int)
    ensures ClrIrq(codes, codes.notUsed, readRet, reg, writeRet) != ClrIrqCorrected(codes, codes.notUsed, readRet, reg, writeRet)
            <==> if AnyRaised(reg) then (readRet % 256 == 0) != (readRet >= 0) else codes.irqNone == 0
  {
  }

  /** A read that returns 0 or an errno above -256 only differs through
      IRQ_NONE being 0 with nothing raised. */
  lemma ClrIrqSmallReturns(codes: Codes, readRet: int, reg: VdroopInt, writeRet: int)
    requires -256 < readRet <= 0
    ensures ClrIrq(codes, codes.notUsed, readRet, reg, writeRet) != ClrIrqCorrected(codes, codes.notUsed, readRet, reg, writeRet)
            <==> !AnyRaised(reg) && codes.irqNone == 0
  {
    ClrIrqAsWrittenVsCorrected(codes, readRet, reg, writeRet);
  }

  /** A failed read of -512 (-ERESTARTSYS) has a zero low byte: with UVLO2
      raised the clear as written writes the UVLO2 mask from a register that
      was never read, where the corrected clear writes nothing. */
  lemma ClrIrqErrnoWithZeroByte(codes: Codes, reg: VdroopInt, writeRet: int)
    requires reg.uvlo2
    ensures ClrIrq(codes, codes.notUsed, -512, reg, writeRet).written == Some(ClearMask(codes, codes.uvlo2))
    ensures ClrIrqCorrected(codes, codes.notUsed, -512, reg, writeRet).written.None?
  {
  }

  /** What `max77779_req_vimon_conv` did: its return and whether a conversion
      was requested. */
  datatype VimonOutcome = VimonOutcome(ret: int, requested: bool)

  /** `max77779_req_vimon_conv`: only on ZUMAPRO, and only for UVLO1, UVLO2
      and BATOILO1, is a conversion requested; otherwise nothing happens and
      0 is returned. */
  function ReqVimonConv(zumapro: bool, codes: Codes, idx: int, convRet: int): (r: VimonOutcome)
    ensures r.requested <==> zumapro && (idx == codes.uvlo1 || idx == codes.uvlo2 || idx == codes.batoilo1)
    ensures r.ret == (if r.requested then convRet else 0)
  {
    if !zumapro then VimonOutcome(0, false)
    else if idx == codes.uvlo1 || idx == codes.uvlo2 || idx == codes.batoilo1 then VimonOutcome(convRet, true)
    else VimonOutcome(0, false)
  }

  /** For a source the classifier reports, a conversion is requested on
      ZUMAPRO for every source except BATOILO2. */
  lemma VimonForReportedSource(codes: Codes, readRet: int, reg: VdroopInt, convRet: int)
    requires codes.Valid() && GetIrq(readRet, reg).1.Some?
    ensures var s := GetIrq(readRet, reg).1.value;
            ReqVimonConv(true, codes, codes.Of(s), convRet).requested <==> s != Batoilo2
    ensures forall idx :: !ReqVimonConv(false, codes, idx, convRet).requested
  {
  }

  /** `max77779_vimon_read`: 0 off ZUMAPRO; the sample count after a
      successful buffer read; the read's error otherwise. */
  function VimonRead(zumapro: bool, readRet: int, count: nat): (r: int)
    ensures !zumapro ==> r == 0
    ensures zumapro && readRet == 0 ==> r == count
    ensures zumapro && readRet != 0 ==> r == readRet
  {
    if !zumapro then 0 else if readRet == 0 then count else readRet
  }

  /** The registers the threshold helpers program. */
  datatype Reg = BatOilo1Cnfg0 | BatOilo2Cnfg0 | BatOilo1Cnfg3

  /** A read-modify-write: register `reg` is written with the byte `base`
      read from it, one field replaced by `field`. */
  datatype FieldWrite = FieldWrite(reg: Reg, base: u8, field: u8)

  /** A helper's return and the writes it issued, in order. */
  datatype Adjusted = Adjusted(ret: int, writes: seq<FieldWrite>)

  /** `max77779_adjust_bat_open_to`: the OILO1 open timeout becomes the OTG
      timeout when `enable` is set and the normal one otherwise. The read's
      return is discarded, so the write goes ahead with whatever byte the
      read left (`readVal`), and the write's return is the result. */
  function AdjustBatOpenTo(enable: bool, otgOpenTo: u8, openTo: u8, readVal: u8, writeRet: int): (r: Adjusted)
    ensures r.ret == writeRet
    ensures |r.writes| == 1 && r.writes[0].reg == BatOilo1Cnfg3 && r.writes[0].base == readVal
    ensures enable ==> r.writes[0].field == otgOpenTo
    ensures !enable ==> r.writes[0].field == openTo
  {
    Adjusted(writeRet, [FieldWrite(BatOilo1Cnfg3, readVal, if enable then otgOpenTo else openTo)])
  }

  /** Returns of the four register accesses of `max77779_adjust_batoilo_lvl`
      and the bytes the two reads produced. */
  datatype LvlIo = LvlIo(read1Ret: int, read1Val: u8, write1Ret: int, read2Ret: int, read2Val: u8, write2Ret: int)

  /** The access returns in the order they happen. */
  function LvlRets(io: LvlIo): seq<int> {
    [io.read1Ret, io.write1Ret, io.read2Ret, io.write2Ret]
  }

  /** Index of the first negative entry, or `|s|` when there is none. */
  function FirstNegative(s: seq<int>): (k: nat)
    ensures k <= |s|
    ensures forall j :: 0 <= j < k ==> s[j] >= 0
    ensures k < |s| ==> s[k] < 0
  {
    if s == [] then 0 else if s[0] < 0 then 0 else 1 + FirstNegative(s[1..])
  }

  /** `max77779_adjust_batoilo_lvl`: program the BATOILO1 and BATOILO2
      trigger levels, with the caller's levels when `lowerEnable` is nonzero
      and the configured ones otherwise, stopping at the first access that
      fails. */
  function AdjustBatoiloLvl(lowerEnable: u8, setLvl1: u8, setLvl2: u8, confLvl1: u8, confLvl2: u8, io: LvlIo): (r: Adjusted)
    ensures var lvl1 := if lowerEnable != 0 then setLvl1 else confLvl1;
            |r.writes| >= 1 ==> r.writes[0] == FieldWrite(BatOilo1Cnfg0, io.read1Val, lvl1)
    ensures var lvl2 := if lowerEnable != 0 then setLvl2 else confLvl2;
            |r.writes| == 2 ==> r.writes[1] == FieldWrite(BatOilo2Cnfg0, io.read2Val, lvl2)
    ensures |r.writes| <= 2
  {
    var lvl1 := if lowerEnable != 0 then setLvl1 else confLvl1;
    var lvl2 := if lowerEnable != 0 then setLvl2 else confLvl2;
    if io.read1Ret < 0 then Adjusted(io.read1Ret, [])
    else
      var w1 := FieldWrite(BatOilo1Cnfg0, io.read1Val, lvl1);
      if io.write1Ret < 0 then Adjusted(io.write1Ret, [w1])
      else if io.read2Ret < 0 then Adjusted(io.read2Ret, [w1])
      else Adjusted(io.write2Ret, [w1, FieldWrite(BatOilo2Cnfg0, io.read2Val, lvl2)])
  }

  /** The helper stops at the first failing access and returns its error;
      every write before it was issued, none after it; with no failure both
      levels are written and the last write's return is the result. */
  lemma {:induction false} AdjustBatoiloLvlStopsAtFirstError(lowerEnable: u8, setLvl1: u8, setLvl2: u8,
                                                            confLvl1: u8, confLvl2: u8, io: LvlIo)
    ensures var r := AdjustBatoiloLvl(lowerEnable, setLvl1, setLvl2, confLvl1, confLvl2, io);
            var k := FirstNegative(LvlRets(io));
            && (k < 4 ==> r.ret == LvlRets(io)[k] && |r.writes| == (k + 1) / 2)
            && (k == 4 ==> r.ret == io.write2Ret && |r.writes| == 2)
  {
    var s := LvlRets(io);
    var s1 := [io.write1Ret, io.read2Ret, io.write2Ret];
    var s2 := [io.read2Ret, io.write2Ret];
    var s3 := [io.write2Ret];
    assert s[1..] == s1 && s1[1..] == s2 && s2[1..] == s3 && s3[1..] == [];
    if io.read1Ret < 0 {
      assert FirstNegative(s) == 0;
    } else if io.write1Ret < 0 {
      assert FirstNegative(s1) == 0;
    } else if io.read2Ret < 0 {
      assert FirstNegative(s2) == 0;
    } else if io.write2Ret < 0 {
      assert FirstNegative(s3) == 0;
    } else {
      assert FirstNegative(s3) == 1;
    }
  }
}
